=== FILE: README.md ===
# KYC onboarding: case lifecycle and wizard logic

This project models the identity-verification (KYC) backend of a loan-onboarding
application and the browser pages that drive it, and proves properties of the model in
Dafny.

**Backend.** The functions handle these requests:

- start a case;
- ingest the uploaded identity document through a document-analysis service;
- assess the extracted fields with a language model;
- list, show and decide pending cases as an administrator;
- register and log in self-service accounts.

Each HTTP handler is a pure function. It maps a request, an immutable store and its
oracle inputs to a reply code, a body and a new store. The oracle inputs are:

- the clock reading;
- fresh uuids;
- the replies of the external services;
- per-write failure flags.

The store (`SqlStore.Store`) holds:

- the case table;
- append-only extraction, risk-assessment, decision and transition-ledger tables;
- the user table;
- the audit-blob container.

The ledger (`Ledger`) fixes the allowed edges. `Ledger.Consistent` says that a case's
status equals the last `toState` the ledger holds for it.

**Frontend.**

- The multi-step loan wizard. Its form state is three plain objects, updated by shallow
  merges, with required-field, pincode, account-match and consent checks.
- The document-upload page. It is a three-step state machine plus the submit sequence
  against the backend.
- The administrator dashboard: its queue fetch, status filter and counters.
- The login and signup pages, together with the login call of the authentication
  provider.

JavaScript values are modelled as an untyped JSON tree (`Json`), with the runtime's
truthiness, `||`, `?.` and `String(v)`. These runtime functions are uninterpreted
parameters (`JsRuntime.Env`):

- date parsing;
- `JSON.parse` and `JSON.stringify`;
- `Number()`;
- SHA-256;
- bcrypt;
- JWT signing.

The backend source exists in two forms: TypeScript and compiled `functions/dist`
JavaScript. Where they differ, the model follows the compiled files, because those are
wired to the SQL store and the ledger. This covers kyc-start, kyc-upload, kyc-analyze,
admin kyc-get, admin kyc-decision, storage and documentIntelligence. The TypeScript
handlers (for example functions/kyc-start/index.ts) use functions/services/cosmos.ts and
record no transitions; the compiled handlers use the SQL store and the ledger.

## Model

| member | source | states |
|---|---|---|
| KycTypes.StatusNamesRoundTrip | functions/models/kyc.ts:1-8 | A case status is exactly one of the seven names: every status prints to a name that parses back to it, and a string parses to a status only if it is that status's name. |
| KycTypes.RiskNamesRoundTrip | functions/models/kyc.ts:9 | A risk level is exactly one of LOW, MEDIUM, HIGH, and the names round-trip. |
| SqlStore.DataRoundTrip | functions/models/kyc.ts:11-23 | A typed case request survives being stored as its JSON data column and read back. |
| SqlStore.MergeLaws | functions/services/sql.ts:59-60 | `{...existing, ...partial}` is a right-biased override: the empty partial is neutral on both sides, repeating a merge changes nothing, and successive merges compose. |
| SqlStore.FindCase | functions/services/sql.ts:58 | Finds the first row with the key, or none exactly when no row has it. |
| SqlStore.CaseKey | functions/services/sql.ts:34 | The row key is `item.id` whenever that is a non-empty string, else `item.kycId`; a key exists iff one of them is a non-empty string. |
| SqlStore.CreateKycRequest | functions/services/sql.ts:28-54 | An insert appends exactly one row and leaves the rest of the store alone. The row's status defaults to "pending" and its creation time to now. An insert fails iff a fault is injected, there is no key, or the key is taken. |
| SqlStore.UpdateRow | functions/services/sql.ts:59-80 | An updated row keeps its key and creation time, and its data becomes the merge of old data and partial. |
| SqlStore.UpdateKycRequest | functions/services/sql.ts:56-83 | Only the row with the key changes, and it receives the merged data. An unknown key changes nothing. Row count, keys and every other table are kept. |
| SqlStore.UpdateSetsStatus | functions/services/sql.ts:62-80 | Updating a case with a non-empty status makes that the case's status; with no such case there is still none. |
| SqlStore.GetKycRequestById | functions/services/sql.ts:127-133 | Returns the data of a row with the key, and none exactly for an unknown key. |
| SqlStore.InsertByAge | functions/services/sql.ts:123 | Inserting into a newest-first list keeps it newest-first, is a permutation plus the new row, and adds one element. |
| SqlStore.SortNewestFirst | functions/services/sql.ts:123 | `ORDER BY createdAt DESC`: the result is newest-first and a permutation of the input. |
| SqlStore.WithStatus | functions/services/sql.ts:123 | `WHERE status = @status`: a row is kept iff it is in the table with that status. |
| SqlStore.TopByStatus | functions/services/sql.ts:120-124 | Returns `min(limit, matching)` rows, all from the table with the status, newest first. No row left out is newer than one returned. |
| SqlStore.TakeNewest | functions/services/sql.ts:123 | The first n of a newest-first list are newest-first, and together with the rest they form the whole list. Nothing in the rest is newer than anything taken. |
| SqlStore.TakeKeepsMembers | functions/services/sql.ts:123 | Every row taken from the sorted list is one of the matching rows. |
| SqlStore.GetRequestsByStatus | functions/services/sql.ts:120-125 | At most `limit` items, each the data of the corresponding newest matching row. |
| SqlStore.LatestExtraction | functions/services/sql.ts:148-154 | Returns an extraction of the case with the greatest extraction time, or none exactly when the case has none. |
| SqlStore.TransitionRow | functions/services/sql.ts:169-183 | A ledger row id is `<kycId>-<now>` when a non-empty reason is given, otherwise the fresh uuid. An empty actor or reason is stored as null. |
| SqlStore.GetUserByEmail | functions/services/sql.ts:111-118 | Returns a user with that email, or none exactly when no user has it. |
| SqlStore.AuditGrowsTransitive | functions/services/sql.ts:85-183 | The extraction, risk, decision, ledger and user tables and the audit blobs only grow, and this is preserved across successive requests. |
| Ledger.EdgesStayInStates | functions/dist/kyc-start/index.js:57 | Every hard-coded ledger edge goes between enumerated statuses, and none leaves APPROVED or REJECTED. |
| Ledger.GrowsByValidEdgesTransitive | functions/dist/kyc-upload/index.js:32-56 | A ledger extended only by valid edges, twice in a row, is extended by valid edges. |
| Ledger.LastToState | functions/services/sql.ts:169-183 | The last `toState` recorded for a case: none iff the case has no ledger row, otherwise the state of the case's last row. |
| Ledger.LastToStateAppend | functions/services/sql.ts:181 | Appending a row for the case makes its state the last one; a row for another case changes nothing. |
| Http.ErrorBody | functions/dist/kyc-upload/index.js:72 | An error reply carries its message under `error`. |
| Http.MarkAndRecord | functions/dist/kyc-upload/index.js:30-36 | A status update followed by a ledger write, whose failures are swallowed. A failed update writes nothing. The ledger gains exactly the one row or nothing, and only cases and ledger change. |
| Http.MarkAndRecordAdvances | functions/dist/kyc-upload/index.js:54-60 | When both writes succeed on an existing case, its status and its last ledger state are the new state and the two agree. |
| Http.MarkAndRecordOnUnknownCase | functions/dist/kyc-upload/index.js:31-32 | For an unknown case the update changes nothing, yet the ledger still records the transition. |
| Http.SameIdsSameFind | functions/services/sql.ts:58 | Key lookup depends only on the row keys. |
| Auth.ValidateBearerToken | functions/services/auth.ts:28-58 | The header checks, in order: a missing header, a header that is not exactly `Bearer <token>`, and a missing configuration each give their error. Otherwise the token goes to the JWKS verifier when a JWKS URI is set, else to the shared-secret verifier. |
| Auth.WellFormedHeaderIff | functions/services/auth.ts:30-31 | A header is accepted iff it is "Bearer " followed by a token with no space. |
| Auth.BearerTokenParses | functions/services/auth.ts:30-31 | The token extracted from `Bearer <t>` is `t`. |
| Auth.IsAdmin | functions/services/auth.ts:60-61 | A missing or falsy token is never an administrator. |
| Auth.EmptyRolesShadowRole | functions/services/auth.ts:63 | An empty `roles` array is truthy and so hides `role: "admin"`. |
| Auth.AdminByRolesArray | functions/services/auth.ts:63-64 | With a `roles` array and no `is_admin`, a token is an administrator iff "admin" is in the array. |
| Auth.AdminByRoleString | functions/services/auth.ts:63-65 | Without a truthy `roles` claim, a `role` claim of "admin" makes an administrator. |
| Auth.AdminByFlag | functions/services/auth.ts:67 | `is_admin === true` makes an administrator whatever the role claims hold. |
| Auth.AdminIff | functions/services/auth.ts:60-69 | A truthy token is an administrator iff the first truthy of `roles`, `role` and `app_roles` is "admin" or an array holding it, or `is_admin` is exactly true. |
| Auth.AdminByRolesString | functions/services/auth.ts:63-65 | A `roles` claim equal to the string "admin" makes an administrator. |
| Auth.AdminByAppRoles | functions/services/auth.ts:63-65 | With neither `roles` nor `role` truthy, an `app_roles` claim granting "admin" makes an administrator. |
| Auth.NotAdminWithoutGrant | functions/services/auth.ts:60-69 | When none of `roles`, `role` and `app_roles` is "admin" or an array holding it, and `is_admin` is not exactly true, the token is not an administrator. |
| BlobStorage.ConfigFromEnv | functions/dist/services/storage.js:9-11 | The container names default to kyc-documents and kyc-extractions and are never empty. |
| BlobStorage.GenerateUserDelegationSas | functions/dist/services/storage.js:15-35 | Without an account URL it is an error. Otherwise the grant covers the container and blob with the permissions from now to now + minutes·60000 ms, and the URL is `account/container/blob?sas`. |
| BlobStorage.ReadSas | functions/dist/kyc-upload/index.js:24 | A read credential has permission "r" and lasts 60 minutes. |
| BlobStorage.UploadExtractionJson | functions/dist/services/storage.js:36-63 | The returned URL names exactly the blob written, the primary name or the timestamped fallback. An existing primary blob is never overwritten, and a free primary is used unless the write is refused. |
| BlobStorage.PrimaryNotFallback | functions/dist/services/storage.js:42-56 | The primary and fallback names never collide. |
| BlobStorage.FallbackNamesDistinct | functions/dist/services/storage.js:56 | Fallback names at different timestamps differ. |
| BlobStorage.UploadNeverOverwrites | functions/dist/services/storage.js:42-62 | When the fallback name is free, an upload leaves every existing blob as it was. |
| BlobStorage.FallbackWriteIsUnconditional | functions/dist/services/storage.js:53-61 | The fallback write is unconditional: when the fallback name is already taken, it is overwritten. |
| DocIntel.DiConfigFromEnv | functions/dist/services/documentIntelligence.js:6-8 | The API version has its default, and the endpoint is empty iff it is unset. |
| DocIntel.PollStep | functions/dist/services/documentIntelligence.js:43-51 | A non-OK status reply stops with its HTTP status. A success returns that reply's JSON. |
| DocIntel.PendingMeans | functions/dist/services/documentIntelligence.js:44-52 | Polling continues iff the reply is OK JSON whose status is neither a success nor "failed". |
| DocIntel.SucceedsMeans | functions/dist/services/documentIntelligence.js:48-49 | A poll succeeds iff the reply is OK JSON with status succeeded or succeededWithDocumentErrors. |
| DocIntel.Poll | functions/dist/services/documentIntelligence.js:41-55 | A result is the JSON of a succeeding reply among the first 30. |
| DocIntel.PollSucceedsIff | functions/dist/services/documentIntelligence.js:42-51 | The first non-pending reply decides: the poll succeeds iff that reply succeeds, with its JSON. |
| DocIntel.PollTimesOutIff | functions/dist/services/documentIntelligence.js:42-54 | The poll times out iff all 30 replies are pending. |
| DocIntel.PollReadsAtMost30 | functions/dist/services/documentIntelligence.js:42 | Only the first 30 status replies matter. |
| DocIntel.AnalyzeDocumentFromUrl | functions/dist/services/documentIntelligence.js:12-57 | Missing configuration and a failed submit are errors. A result needs a token and an accepted submit. With no operation location the submit's JSON is the result, otherwise the poll decides. |
| DocIntel.DirectReplyIgnoresPolls | functions/dist/services/documentIntelligence.js:35-39 | With no operation location, no status reply is read. |
| OpenAi.ChooseAuth | functions/services/openai.ts:23-35 | An API key in the environment wins; a key-vault secret is used iff there is no key and both vault and secret name are set; otherwise a token. |
| OpenAi.InterpretText | functions/services/openai.ts:56-67 | Parseable trimmed text is the result; anything else yields the fallback. |
| OpenAi.FallbackShape | functions/services/openai.ts:61-66 | The fallback is MEDIUM with confidence 0.5, reasoning that quotes the raw text, and a truthy model version. |
| OpenAi.AnalyzeRisk | functions/services/openai.ts:16-68 | Missing configuration is an error. A result needs an OK JSON reply and is the interpretation of its text. |
| OpenAi.ReplyNeverThrows | functions/services/openai.ts:52-67 | Once configured and answered OK, the call never fails. When the text parses, the result is the parsed value. |
| AnalyzeFields.ChildIn | functions/dist/kyc-analyze/index.js:18-26 | The children the key search visits belong to the value. |
| AnalyzeFields.FindFromSound | functions/dist/kyc-analyze/index.js:11-29 | What the recursive key search returns is null or a value stored under a candidate key, at any depth. A top-level match is returned as it is, even when falsy. |
| AnalyzeFields.FindFirstSound | functions/dist/kyc-analyze/index.js:11-29 | `findFirst` returns null or a value stored under a candidate key. |
| AnalyzeFields.FindFromNoMatch | functions/dist/kyc-analyze/index.js:11-29 | With no candidate key anywhere in the value, the search from any position returns null. |
| AnalyzeFields.FindFirstNoMatch | functions/dist/kyc-analyze/index.js:11-29 | With no candidate key anywhere in the value, `findFirst` returns null. |
| AnalyzeFields.FindFromFirstStop | functions/dist/kyc-analyze/index.js:16-26 | The search answers at the first key, in key order, where it stops: a candidate key gives its value, otherwise a truthy find below it. Earlier keys are passed over. |
| AnalyzeFields.FindFromNoStop | functions/dist/kyc-analyze/index.js:16-28 | A search that stops at no key from the position on returns null. |
| AnalyzeFields.FindFirstFirstStop | functions/dist/kyc-analyze/index.js:11-29 | `findFirst` answers at the first stopping key; a top-level candidate key with no earlier stop yields that key's value. |
| AnalyzeFields.FindFromSameCandidates | functions/dist/kyc-analyze/index.js:14-16 | Keys are compared lower-cased, so candidate lists that agree on lower-cased keys find the same value. |
| AnalyzeFields.DocTypeCandidateIsDead | functions/dist/kyc-analyze/index.js:94 | The mixed-case candidate `docType` can never match a lower-cased key. |
| AnalyzeFields.MaskDocumentNumber | functions/dist/kyc-analyze/index.js:30-37 | A falsy number gives null. Otherwise, with spaces removed, a number of at most four characters masks to "****" and a longer one to "****" plus its last four. |
| AnalyzeFields.MaskRevealsAtMostFour | functions/dist/kyc-analyze/index.js:30-37 | A mask has at most 8 characters, starts with "****" and contains no space. |
| AnalyzeFields.MaskIdempotent | functions/dist/kyc-analyze/index.js:30-37 | Masking a mask gives it back. |
| AnalyzeFields.HashValue | functions/dist/kyc-analyze/index.js:38-42 | A falsy value gives null, anything else the SHA-256 hex of its string form. |
| AnalyzeFields.ComputeAge | functions/dist/kyc-analyze/index.js:43-51 | The age is absent iff the birth date is falsy or unparseable. Otherwise it is the number of whole 365.25-day years elapsed. |
| AnalyzeFields.AgeMonotone | functions/dist/kyc-analyze/index.js:43-51 | Age never decreases as time passes. |
| AnalyzeFields.AgeAfterYears | functions/dist/kyc-analyze/index.js:43-51 | Exactly n 365.25-day years after the birth date the age is n. |
| AnalyzeFields.AgeExample | functions/dist/kyc-analyze/index.js:43-51 | Someone born 2000-01-01 is 24 on 1 June 2024. |
| AnalyzeFields.DocTypeOf | functions/dist/kyc-analyze/index.js:99 | The document type is a truthy key-search hit, else a truthy top-level `documentType`, else null. Only a null extraction throws. |
| AnalyzeFields.BuildPayload | functions/dist/kyc-analyze/index.js:96-112 | Only a null extraction fails. The payload holds the age from the found birth date, the document type as read above, the mask and hash of the found document number, and the found issuer country. |
| AnalyzeFields.PayloadJson | functions/dist/kyc-analyze/index.js:105-112 | The payload object has exactly the five fields age, documentType, documentNumberMasked, documentNumberHash and issuerCountry. |
| AnalyzeFields.PayloadIgnoresName | functions/dist/kyc-analyze/index.js:105-112 | Two extractions that agree on birth date, document number, country and type give the same payload, whatever names or other fields they hold. |
| AnalyzeFields.StripBlobPrefix | functions/dist/kyc-analyze/index.js:79-89 | The result is a suffix of the path. A path without the account/container prefix is kept whole. |
| AnalyzeFields.StripInvertsBlobUrl | functions/dist/kyc-analyze/index.js:83-85 | Stripping the prefix from a blob URL built by the storage service gives back the blob name. |
| AnalyzeFields.RiskLevelOf | functions/dist/kyc-analyze/index.js:125 | The level is the upper-cased model level, MEDIUM when absent. A null reply, or a truthy level that is not a string, throws. |
| AnalyzeFields.NextStatus | functions/dist/kyc-analyze/index.js:139 | Routing goes to APPROVED iff the level is LOW, otherwise to PENDING_REVIEW. |
| AnalyzeFields.RoutingFromModel | functions/dist/kyc-analyze/index.js:125-139 | A model reply without a level goes to review. A level in any casing that upper-cases to "LOW" approves. |
| Intake.UserIdMissingIff | functions/dist/kyc-start/index.js:23-31 | A start request has no user, and is refused with "userId is required", exactly when neither the body's `userId` nor the `x-user-id` header is truthy. |
| Intake.ValidateStart | functions/dist/kyc-start/index.js:22-39 | Checks the user id, then the name, then the birth date, in that order. Input is accepted iff all three hold. It then carries the trimmed non-empty name, the birth date and the id type defaulting to passport. |
| Intake.Persist | functions/dist/kyc-start/index.js:42-67 | A CREATED case is inserted when the key is free and no fault is injected. The null→CREATED ledger row, with the user as actor, follows only a successful insert. Failures are swallowed and only cases and ledger change. |
| Intake.UploadSas | functions/dist/kyc-start/index.js:69-91 | The upload credential is create+write for `<kycId>/document-<ts>.jpg` over 15 minutes. It fails iff there is no account URL or the signer refuses. |
| Intake.StartBody | functions/dist/kyc-start/index.js:92-100 | The reply carries the case id, the upload URL and expiresIn 900. |
| Intake.StartKyc | functions/dist/kyc-start/index.js:16-108 | A non-POST request gets 405 and invalid input 400, with no writes. Otherwise persistence is attempted; the code is 200 iff a credential is issued, with its URL, else 500. |
| Intake.PersistenceNeverFailsTheRequest | functions/dist/kyc-start/index.js:64-67 | Persistence failures never change the reply code or body. |
| Intake.StartRecordsCreated | functions/dist/kyc-start/index.js:54-57 | Without faults a new case is CREATED and agrees with its ledger. |
| Intake.LostLedgerWriteDiverges | functions/dist/kyc-start/index.js:56-61 | A lost ledger write leaves a CREATED case with no ledger state, and the request still succeeds. |
| Intake.PersistOutcome | functions/dist/kyc-start/index.js:53-63 | The insert makes the case CREATED. The ledger then says CREATED, or is untouched when its write fails. |
| Ingest.DocumentUrl | functions/dist/kyc-upload/index.js:22-27 | `blobUrl` wins. Otherwise a read-only credential URL for `blobName` is used, failing iff the credential fails. |
| Ingest.DocumentTypeOf | functions/dist/kyc-upload/index.js:48 | The document type is the analysis's when truthy, and "unknown" when the analysis is null or its type is falsy. |
| Ingest.IngestBody | functions/dist/kyc-upload/index.js:61-68 | The reply carries the audit blob URL. |
| Ingest.StoreExtraction | functions/dist/kyc-upload/index.js:43-60 | On success exactly one extraction row is appended. It points at the audit blob written and the reply returns that URL. The code is 200 iff the upload and the insert succeed; on 500 nothing is appended. |
| Ingest.MarkAndExtract | functions/dist/kyc-upload/index.js:29-73 | A 200 means the document analysis succeeded and its JSON was stored as one new extraction of the case with its audit copy. The ledger grows only by valid edges. |
| Ingest.UploadDocument | functions/dist/kyc-upload/index.js:6-74 | A non-POST request gets 405 and missing input 400, both without writes. A document-URL failure gets 500. Otherwise the marking and extraction run. |
| Analyze.RiskRecord | functions/dist/kyc-analyze/index.js:122-131 | The risk row carries the case, level, time and confidence. Its reasoning is truthy or the stringified reply, and its model version is truthy. |
| Analyze.Verdict | functions/dist/kyc-analyze/index.js:121-125 | A verdict is the model's answer with its normalised level, or an error iff the call or the level read fails. |
| Analyze.Route | functions/dist/kyc-analyze/index.js:122-147 | The risk insert decides 200 or 500. On 500 nothing is written. The ledger grows only along valid edges, and each new row goes from ANALYZED to the routed status with the reason `auto:<level>`. |
| Analyze.NoteAnalyzing | functions/dist/kyc-analyze/index.js:114-119 | The EXTRACTED→ANALYZED ledger row, or nothing when its write fails. |
| Analyze.Assess | functions/dist/kyc-analyze/index.js:91-152 | A null extraction gets 500 without writes. A 200 means the payload was built, the model answered, and exactly one risk row for that answer was appended. The ledger grows only along valid edges. |
| Analyze.AskAndRoute | functions/dist/kyc-analyze/index.js:121-152 | A failed model call gets 500 without writes. Otherwise the answer is routed. The ledger grows only along valid edges. |
| Analyze.LoadExtraction | functions/dist/kyc-analyze/index.js:66-90 | No extraction is an error. A loaded extraction is the audit blob named by its path with the prefix stripped. |
| Analyze.AnalyzeKyc | functions/dist/kyc-analyze/index.js:53-153 | Non-POST gets 405. A missing kycId gets 400 and a missing extraction 404, without writes. A failed blob read gets 500. Otherwise the assessment runs. The ledger grows only along valid edges. |
| Admin.AdminGate | functions/dist/admin/kyc-get/index.js:7-10 | A token failure gives 401 with its message. A valid token of a non-administrator gives 403. Admission means a valid administrator token. |
| Admin.ListPending | functions/admin/kyc-pending/index.ts:5-17 | Admitted requests get 200 with at most 50 PENDING_REVIEW cases, newest first. Refusals carry the gate's code. Nothing is written. |
| Admin.UnderReviewIff | functions/dist/admin/kyc-get/index.js:18 | A case is reviewable iff its data status is exactly PENDING_REVIEW; the upper-casing fallback never applies to a lower-case status. |
| Admin.GetForReview | functions/dist/admin/kyc-get/index.js:5-28 | The error order is 400 for a missing id, then 404 for an unknown or non-reviewable case. The code is 200 iff admitted and the case is under review. The 200 body holds the case's data and its latest extraction, null exactly when the case has none. Nothing is written. |
| Admin.DecisionOf | functions/dist/admin/kyc-decision/index.js:15 | The decision is the upper-cased body decision, REJECT when absent. A non-string throws. |
| Admin.FinalStatusOfValid | functions/dist/admin/kyc-decision/index.js:18-21 | A valid decision maps to APPROVED iff it is APPROVE(D), and to REJECTED iff it is REJECT(ED). |
| Admin.MissingDecisionRejects | functions/dist/admin/kyc-decision/index.js:15-21 | A body without a decision rejects the case. |
| Admin.ActorOf | functions/dist/admin/kyc-decision/index.js:17 | The actor is the first truthy of the token's `sub`, `oid` and `preferred_username`, in string form, else "admin". |
| Admin.StatusWrites | functions/dist/admin/kyc-decision/index.js:29-35 | After the status update and the best-effort ledger write, the case has the decided status. Decisions are untouched, and at most the one PENDING_REVIEW→status ledger row is appended. |
| Admin.ApplyDecision | functions/dist/admin/kyc-decision/index.js:29-45 | A failed update gets 500 with no writes; otherwise the case takes the final status. The code is 200 iff both the update and the decision insert succeed, and then exactly one decision row is added. At most one PENDING_REVIEW→status ledger row is added. |
| Admin.Decide | functions/dist/admin/kyc-decision/index.js:5-51 | Refusals and bad input write nothing. The store changes only for an admitted, valid decision on a case under review. A 200 leaves the case in the final status with its decision recorded, and the ledger grows only along valid edges. |
| Users.SigningSecret | functions/auth-login/index.ts:6 | The signing secret is the configured one, else "dev-secret". |
| Users.Register | functions/auth-register/index.ts:6-38 | The checks run in order: 405, 400 for missing credentials, 409 for a taken email. The code is 201 iff all pass, the password is a string and the insert succeeds; then exactly the new user is added. Emails stay unique. |
| Users.RolesJson | functions/auth-login/index.ts:37 | The roles array lists the account's roles in order. |
| Users.Claims | functions/auth-login/index.ts:37 | The token claims are sub, email, name and roles, with no `role` or `is_admin`. |
| Users.UserView | functions/auth-login/index.ts:41 | The reply's user carries id, email, name and the same roles, under `id` rather than `sub`. |
| Users.LoginBody | functions/auth-login/index.ts:39-42 | The login reply carries the token and the user view. |
| Users.Login | functions/auth-login/index.ts:9-47 | The checks run in order: 405, 400, then 401 "invalid credentials" for an unknown email and the same 401 for a password bcrypt rejects. The code is 200 iff the account exists and bcrypt accepts the password, with a token signed over its claims. Nothing is written. |
| Users.WrongPasswordLooksLikeUnknownEmail | functions/auth-login/index.ts:25-35 | A wrong password for a known email gets exactly the reply an unknown email gets. |
| Users.RegisterThenLogin | functions/auth-register/index.ts:29-33 | Registering and then logging in with the same credentials succeeds whenever bcrypt accepts a password against its own hash, and a self-registered account is never an administrator. |
| Users.FirstMatchIsAppended | functions/services/sql.ts:113 | An email's first holder, once appended, is the one found. |
| Lifecycle.IngestMarksExtracted | functions/dist/kyc-upload/index.js:29-60 | On a known case with a successful analysis, ingestion answers 200 and leaves the case EXTRACTED, in agreement with the ledger. |
| Lifecycle.IngestReopensDecidedCase | functions/dist/kyc-upload/index.js:31-32 | Ingestion never reads the prior status: an APPROVED case goes back to EXTRACTED, and the ledger claims it came from CREATED. |
| Lifecycle.IngestForUnknownCase | functions/dist/kyc-upload/index.js:31-56 | For an unknown case, ingestion answers 200 and records an extraction and an EXTRACTED ledger state for a case that does not exist. |
| Lifecycle.IngestThenLoad | functions/dist/kyc-analyze/index.js:66-90 | After a successful ingestion the analyzer loads exactly the document analysis just stored. |
| Lifecycle.LatestIsAppended | functions/services/sql.ts:150 | An extraction no older than the case's others becomes its latest. |
| Lifecycle.AnalyzeRoutes | functions/dist/kyc-analyze/index.js:114-147 | With every write succeeding, the case ends in the status routed from the model's level, in agreement with the ledger. It passes through ANALYZED with exactly two new ledger rows. |
| Lifecycle.RouteAdvances | functions/dist/kyc-analyze/index.js:131-147 | A fault-free route of an existing case answers 200. The case moves to the status of the model's level, its ledger agrees, and exactly one ledger row is appended. |
| Lifecycle.ModelFailureDiverges | functions/dist/kyc-analyze/index.js:114-152 | When the model call fails after the ANALYZED ledger row, the reply is 500 and the case stays EXTRACTED while the ledger says ANALYZED. |
| Lifecycle.ModelSeesOnlyPayload | functions/dist/kyc-analyze/index.js:105-121 | The assessment depends on the model only through its answer to the de-identified fields. |
| Lifecycle.AssessmentIgnoresName | functions/dist/kyc-analyze/index.js:91-112 | Two extractions that agree on birth date, number, country and type are assessed identically. |
| Lifecycle.DecisionKeepsConsistent | functions/dist/admin/kyc-decision/index.js:29-45 | Without faults a decision leaves the case in the final status, in agreement with the ledger. |
| Lifecycle.LostDecisionLedgerDiverges | functions/dist/admin/kyc-decision/index.js:30-35 | A swallowed ledger failure still answers 200 with the case decided while the ledger still says PENDING_REVIEW. |
| Json.LookupSpec | functions/dist/kyc-analyze/index.js:19 | A property read finds a member with the key, and is undefined iff no member has it. |
| Json.LookupFirst | functions/dist/kyc-analyze/index.js:19 | A property read answers the first member with the key. |
| Json.LookupAbsent | functions/dist/kyc-analyze/index.js:19 | A property read of a key no member has is undefined. |
| Json.OrElseLaws | functions/dist/kyc-start/index.js:23 | A `\|\|` chain is truthy iff one of its operands is; regrouping a chain and repeating an operand change nothing. |
| Json.OrEmptyTruthy | functions/dist/kyc-upload/index.js:12 | `v \|\| {}` is always truthy and never null, so reading a property of it never throws; defaulting twice is defaulting once. |
| Json.LookupConcat | context/FormFlowContext.tsx:35-45 | A read over two member lists answers from the first list when it has the key, else from the second. |
| Json.TimeClip | functions/dist/kyc-start/index.js:36 | A time value is valid iff within ±8.64e15 ms. It is truncated toward zero: the floor for non-negative values and the ceiling for negative ones. |
| Text.TrimStart | functions/dist/kyc-start/index.js:32 | Strips exactly the leading whitespace. |
| Text.TrimEnd | functions/dist/kyc-start/index.js:32 | Strips exactly the trailing whitespace. |
| Text.TrimIsSlice | functions/dist/kyc-start/index.js:32-45 | A trimmed string is a slice of the original. It is empty iff the original is all whitespace, and otherwise starts and ends with non-whitespace. |
| Text.RemoveSpaces | functions/dist/kyc-analyze/index.js:33 | The result has no whitespace and is no longer than the input; it equals the input when that has none. |
| Text.RemoveSpacesKeeps | functions/dist/kyc-analyze/index.js:33 | Every non-whitespace character is kept, as often as it occurs. |
| Text.RemoveSpacesAppend | functions/dist/kyc-analyze/index.js:33 | Removal works piecewise over concatenation, so the kept characters stay in order. |
| Text.LowerIdempotent | functions/dist/kyc-analyze/index.js:17 | Lower-casing twice is lower-casing once. |
| Text.UpperIdempotent | functions/dist/admin/kyc-decision/index.js:15 | Upper-casing twice is upper-casing once. |
| Text.LowerNeverMixedCase | functions/dist/kyc-analyze/index.js:17 | A lower-cased string never equals one containing an upper-case letter. |
| Text.NatToString | functions/services/sql.ts:171 | The decimal rendering of a number is a non-empty digit string. |
| Text.ParseNatToString | functions/services/sql.ts:171 | Decimal rendering parses back to the number. |
| Text.NatToStringInjective | functions/dist/services/storage.js:56 | Different numbers render differently. |
| Text.Split | functions/services/auth.ts:30 | Splitting gives at least one part, and no part contains the separator. |
| Text.JoinSplit | app/kyc/page.tsx:548-551 | Joining the parts of a split with the separator gives the string back. |
| Text.SplitJoin | app/kyc/page.tsx:548-551 | Splitting the join of separator-free parts gives the parts back. |
| Text.SplitAtFirst | functions/services/auth.ts:30 | Splitting at the first separator peels off the head. |
| FormFlow.OwnMembers | context/FormFlowContext.tsx:35-45 | `{...v}` copies an object's members, the indexed elements of an array or string, and nothing of any other value. |
| FormFlow.Spread | context/FormFlowContext.tsx:35-45 | `{...base, ...patch}` is an object: every property reads the patch's value when it has the key, the base's otherwise. |
| FormFlow.SpreadTwice | context/FormFlowContext.tsx:35-45 | Two merges read like one merge whose later patch wins. |
| FormFlow.SpreadIdempotent | context/FormFlowContext.tsx:35-45 | Merging the same patch twice reads like merging it once. |
| FormFlow.InitialIsBlank | context/FormFlowContext.tsx:30-33 | The provider starts with three objects with no properties. |
| FormFlow.UpdateLead | context/FormFlowContext.tsx:35-37 | The lead takes the patch's keys and keeps its others; the other slices are untouched. |
| FormFlow.UpdateApplicant | context/FormFlowContext.tsx:39-41 | The same for the applicant slice. |
| FormFlow.UpdateApplication | context/FormFlowContext.tsx:43-45 | The same for the application slice. |
| FormFlow.Reset | context/FormFlowContext.tsx:47-51 | After a reset every slice is an object with no properties. |
| FormFlow.UpdatesKeepWellFormed | context/FormFlowContext.tsx:35-51 | The updates and reset keep all three slices objects. |
| Wizard.Missing | app/lead/page.tsx:16-17 | A required key is reported missing iff its value is falsy. |
| Wizard.MissingAppend | app/lead/page.tsx:17 | The missing keys of two lists are those of each, in order. |
| Wizard.NothingEnteredMissesAll | app/lead/page.tsx:17 | On an empty form every required key is missing. |
| Wizard.MissingSame | app/applicant/page.tsx:80-82 | Forms that agree on the required keys miss the same ones. |
| Wizard.StampId | app/lead/page.tsx:22 | An id is stamped only when none is set, and the patch touches only that key. |
| Wizard.StampKeepsOrCreates | app/lead/page.tsx:22 | After stamping, the id is set, and an existing id is kept. |
| Wizard.RequireAndStamp | app/applicant/page.tsx:78-85 | A page proceeds iff nothing is missing. Otherwise the message lists the missing keys. |
| Wizard.HandleStart | app/lead/page.tsx:14-24 | The lead page proceeds to /applicant iff nothing required is missing. It then makes sure `lead_id` is set, as `lead_<now>` when new, and changes nothing else; otherwise it reports the missing keys. |
| Wizard.LeadIdAssignedOnce | app/lead/page.tsx:22 | Starting again keeps the first lead id. |
| Wizard.VisitLeadAsWritten | app/lead/page.tsx:48-53 | The lead page as written keeps its entries in its own provider: the layout's state is left as it was, and Start proceeds iff the freshly typed lead has every required field. |
| Wizard.VisitLead | app/lead/page.tsx:14-24 | The corrected lead page writes into the layout's state: after Start proceeds, that state has a lead id and every typed field. |
| Wizard.ProceedApplicant | app/applicant/page.tsx:78-85 | The same for the applicant page, with `applicant_id` and the route /application. |
| Wizard.ApplicationNext | app/application/page.tsx:15-30 | The page proceeds to /address iff product, amount and tenure check out. It then sets the status fields and an application id and changes nothing else. |
| Wizard.MarkInitiated | app/application/page.tsx:28 | Sets app_status "initiated" and is_ai_audited false, and nothing else. |
| Wizard.AmountAsText | app/application/page.tsx:19-20 | An amount passes iff it is non-empty text that parses to a positive number. |
| WizardDetails.UpdateNested | app/address/page.tsx:19-25 | A nested section merge, with sibling keys set alongside, leaves every other key and slice alone. |
| WizardDetails.NestedRead | app/address/page.tsx:19-25 | A field of a merged section reads the patch's value, else the old section's, else nothing. |
| WizardDetails.PincodeText | app/address/page.tsx:33 | A pincode passes iff it is 5 or 6 digits. |
| WizardDetails.AddressProblem | app/address/page.tsx:29-39 | First any missing fields are reported, then an invalid pincode; there is no problem iff both pass. |
| WizardDetails.AddressNext | app/address/page.tsx:27-41 | The page proceeds iff the current address is valid and either "same as permanent" is set or the permanent address is valid. Otherwise the current address's problem comes first. |
| WizardDetails.UpdateCurrent | app/address/page.tsx:19-21 | The current address takes the patch, and nothing else changes. |
| WizardDetails.UpdatePermanent | app/address/page.tsx:23-25 | The permanent address takes the patch, and nothing else changes. |
| WizardDetails.SameAsPermanentSkipsCheck | app/address/page.tsx:34-39 | With "same as permanent" set, the permanent address does not affect the outcome. |
| WizardDetails.UpdateEmployment | app/employee/page.tsx:16-18 | Sets the type "salaried" and merges the details, and nothing else changes. |
| WizardDetails.UpdateBusiness | app/business/page.tsx:17-19 | Sets the type "business" and merges the details, and nothing else changes. |
| WizardDetails.SwitchingKeepsBothDetails | app/business/page.tsx:17-19 | Switching from salaried to business keeps the employment details. |
| WizardDetails.EmploymentNext | app/employee/page.tsx:20-22 | The employment pages always go on to /charges. |
| WizardDetails.SetFlag | app/charges/page.tsx:27-34 | A checkbox sets its flag only. |
| WizardDetails.ChargesNext | app/charges/page.tsx:12-19 | The charges page proceeds iff both consents are given, else it alerts. |
| WizardDetails.ConsentsGateCharges | app/charges/page.tsx:12-34 | After ticking the boxes, the page proceeds iff both are ticked. |
| WizardDetails.UpdateBank | app/banking/page.tsx:17-19 | The bank details take the patch, and nothing else changes. |
| WizardDetails.BankingNext | app/banking/page.tsx:21-28 | The banking page proceeds iff the account numbers do not differ, else it alerts. |
| WizardDetails.BlankConfirmationSkipsMatch | app/banking/page.tsx:23 | An empty confirmation skips the match check. |
| WizardDetails.SummaryRow | app/review/page.tsx:39-40 | A row is hidden iff its value is missing, null or empty, and otherwise shows the string form. |
| WizardDetails.SummaryShowsFalsyNumbers | app/review/page.tsx:39-40 | 0 and false are shown, and "" is hidden. |
| WizardDetails.LastFour | app/review/page.tsx:99 | Returns the last four characters, or all of a shorter string. |
| WizardDetails.AccountDisplay | app/review/page.tsx:99 | The account shows as dots plus its last four characters, or nothing when absent. |
| WizardDetails.NoNameNoRow | app/review/page.tsx:66 | With no first or last name the name row is hidden. |
| WizardDetails.LeadLostAsWritten | app/review/page.tsx:56-59 | On a fresh wizard the lead page as written proceeds once filled, yet the review page hides the Lead ID, Name, Phone and Email rows. |
| WizardDetails.LeadReachesReview | app/review/page.tsx:56-57 | With the corrected lead page the review page shows the lead id and the typed name. |
| WizardDetails.ReviewSubmit | app/review/page.tsx:12-37 | Without consent nothing happens. With it, the application is marked submitted with the time and goes to /status, and nothing else changes. |
| WizardDetails.MarkSubmitted | app/review/page.tsx:14-25 | Sets the three submission fields, and nothing else. |
| KycPage.Index | app/kyc/page.tsx:428-429 | Every step has its place in the step list. |
| KycPage.Back | app/kyc/page.tsx:476-480 | Back goes one step earlier, and stays on the first step. |
| KycPage.Next | app/kyc/page.tsx:493-498 | Next goes one step later, except from review. |
| KycPage.BackUndoesNext | app/kyc/page.tsx:476-498 | Back undoes Next. |
| KycPage.NextUndoesBack | app/kyc/page.tsx:476-498 | Next undoes Back. |
| KycPage.Press | app/kyc/page.tsx:493-571 | Pressing Next moves exactly one step unless the button is disabled or at review. |
| KycPage.ReviewNeedsDocumentAndSelfie | app/kyc/page.tsx:571 | Three presses reach review iff a document and a selfie are present and nothing is submitting. |
| KycPage.SelectFile | app/kyc/page.tsx:33-44 | A file is accepted iff its type starts with "image/"; otherwise the old file stays and the error shows. |
| KycPage.OnlyImagesAccepted | app/kyc/page.tsx:33-44 | A PNG is accepted and a PDF refused. |
| KycPage.SetPersonal | app/kyc/page.tsx:28-31 | An input change sets the named field only. |
| KycPage.StartRequestAsWritten | app/kyc/page.tsx:516 | The page's start body has no top-level fullName or dob. |
| KycPage.StartAsWrittenRefused | app/kyc/page.tsx:516 | The start route refuses that body with 400 and writes nothing. |
| KycPage.StartRequest | app/kyc/page.tsx:509-516 | The corrected body carries the user id, the full name and the birth date at top level. |
| KycPage.StartRequestAccepted | functions/dist/kyc-start/index.js:22-39 | With a user, a non-blank name and a parseable birth date, the corrected body passes validation, the name arriving trimmed. The reply is 200 or 500, never 400. |
| KycPage.NotifyBlobPathRecoversBlob | app/kyc/page.tsx:548-551 | The blob name derived from a URL path `/container/blob` is the blob. |
| KycPage.NotifiedNameIsUploadName | app/kyc/page.tsx:548-551 | The name the page sends back is the blob name the start route issued. |
| KycPage.Submit | app/kyc/page.tsx:509-516 | The page as written sends `{ userId, idType, personalData }`, with no top-level full name, once a base URL is configured. An alert shows iff there is no error. |
| KycPage.SubmitSequence | app/kyc/page.tsx:500-569 | A missing base URL is reported first, and a failed start reply gives its error. An alert shows iff there is no error. A notification carries the case id, the upload URL and the blob name from its path, and is sent only after a successful upload. |
| KycPage.SubmitCorrected | app/kyc/page.tsx:509-516 | The corrected page sends the start request with the full name at top level. |
| KycPage.AsHttpReply | app/kyc/page.tsx:519-524 | The page sees a backend reply as `ok` iff its status is 2xx, with its JSON body. |
| KycPage.SubmitAsWrittenFails | app/kyc/page.tsx:500-521 | End to end, the page as written is refused by the start route with 400 and no writes. It shows "fullName is required" (or "userId is required" when nobody is signed in), uploads nothing and raises no alert. |
| KycPage.NoticeBody | app/kyc/page.tsx:543-559 | The notification carries case id, blob name and blob URL. |
| KycPage.SubmitNotifiesIssuedBlob | app/kyc/page.tsx:524-559 | On the corrected page, after a successful start and upload, the notification names the blob and case that the start route issued. |
| AdminPage.Select | app/admin/kyc/page.tsx:35-38 | Keeps every item whose status is a string among the names, as often as the list holds it, and nothing else. |
| AdminPage.SelectAppend | app/admin/kyc/page.tsx:35-38 | The filter works piecewise over concatenation, so kept items stay in the list's order. |
| AdminPage.SelectEmptyIff | app/admin/kyc/page.tsx:36-38 | A count is zero exactly when no item has one of the statuses. |
| AdminPage.SelectFullIff | app/admin/kyc/page.tsx:36-38 | A count is the list length exactly when every item has one of the statuses. |
| AdminPage.Filtered | app/admin/kyc/page.tsx:32 | "all" shows everything. Any other filter shows the items whose status equals it, as often as the list holds them, and nothing else. |
| AdminPage.StatsOf | app/admin/kyc/page.tsx:34-39 | The counters are the list length and the sizes of the three status selections, which never add up to more than the list. The pending count is 0 iff no item is pending and the length iff all are. |
| AdminPage.DisjointSelectionsFit | app/admin/kyc/page.tsx:34-39 | Selections by disjoint status sets fit together within the list. |
| AdminPage.PendingFilterHidesQueue | app/admin/kyc/page.tsx:32-36 | On a queue of PENDING_REVIEW items the "pending" filter shows none, while the pending counter counts them all. |
| AdminPage.DataJsonStatus | functions/dist/admin/kyc-get/index.js:22 | The status a listed case shows is its stored data status. |
| AdminPage.FetchPending | app/admin/kyc/page.tsx:13-30 | Without a token nothing happens; otherwise loading ends. A good reply sets the list to its items, or empty when there are none. A failed one keeps the list. |
| AdminPage.QueueOnDashboard | functions/admin/kyc-pending/index.ts:11-12 | What an admitted reviewer loads is the queue itself, at most 50 items. Every item counts as pending and the "pending" filter shows none. |
| AuthPages.LoginRequest | app/providers.tsx:42 | The login body carries the email and password. |
| AuthPages.ProviderLogin | app/providers.tsx:35-54 | No base URL is an error, and a non-2xx reply gives its error or "Login failed". The login succeeds iff a 2xx reply carries a user. The session then holds its email, its name and the token. |
| AuthPages.SettleLogin | app/providers.tsx:35-54 | The session after the unawaited login is the new one, or the old one when it fails. |
| AuthPages.DisplayName | app/login/page.tsx:33 | The display name is the part before "@" with its first letter capitalised. |
| AuthPages.DisplayNameOfAddress | app/login/page.tsx:33 | For `local@domain`, the display name is built from `local` alone. |
| AuthPages.LoginPageAsWritten | app/login/page.tsx:17-40 | An empty field shows "Please fill in all fields". Otherwise the page logs in with the display name in place of the password and goes to /dashboard. |
| AuthPages.LoginPage | app/login/page.tsx:17-40 | The corrected page: the same, but it logs in with the typed password. |
| AuthPages.Registered | functions/auth-register/index.ts:23-33 | After registration an account with the email exists and stores the hash of the password. |
| AuthPages.LoginAsWrittenLocksOut | app/login/page.tsx:33-36 | A freshly registered user whose password is not the display name is refused (401, or 400 for an empty name), yet lands on the dashboard still signed out. |
| AuthPages.LoginPageSignsIn | app/providers.tsx:35-54 | The corrected page signs the new user in with the account's email and name and the issued token. |
| AuthPages.FullName | app/signup/page.tsx:49 | The full name is the first name, a space and the last name. |
| AuthPages.SignupPage | app/signup/page.tsx:30-54 | Mismatched passwords are reported first, then unaccepted terms. Otherwise the page logs in with the email and full name and goes to /dashboard. |
| AuthPages.SignupCreatesNoAccount | app/signup/page.tsx:44-53 | Signup registers nothing: for a new email the login is refused with 401, the session is unchanged and the page still reaches the dashboard. |
| AuthPages.SignupSignsInIffNameIsPassword | app/signup/page.tsx:49-50 | For an existing account, signup signs in iff bcrypt accepts the typed full name as that account's password. |

## Left out

- I/O, the network, clocks and randomness are parameters of the model. Service replies, per-write failure flags, the clock reading and uuids are inputs, and each handler reads the clock once.
- The credential signer, the runtime's date parsing, `JSON.parse`, `JSON.stringify`, `Number()`, SHA-256, bcrypt and JWT signing are uninterpreted functions.
- Timestamps are milliseconds, not ISO strings. `extractedAt` ordering is on those numbers.
- Token expiry (`AUTH_TOKEN_EXPIRY`) and JWT verification internals, including the audience, issuer and algorithm options, are opaque to the verifier parameter.
- Extraction, risk and decision inserts pass an id the handlers never set. They are modelled as succeeding unless a fault is injected; the schema is not part of this model.
- The case table's key is assumed to be its primary key. A duplicate or null key makes the insert fail.
- SqlStore.GetUserByEmail and SqlStore.FindCase compare emails and ids with exact string equality. The SQL `=` uses the column collation, which the schema would fix and which is not part of this model; under a case-insensitive collation "Ann@x.com" would also find "ann@x.com".
- SQL read failures and connection errors are not modelled. Reads always answer.
- Audit blobs are stored as JSON values. The stringify/parse round trip through the blob is taken as the identity.
- Non-string request fields are converted with `String(v)` where the source passes them to SQL text columns.
- Analyze.Verdict: the model's reply is keyed on the de-identified fields text rather than on the full prompt string.
- FormFlow.Spread: property reads match the runtime's, but key enumeration order does not.
- Object member order follows insertion. The runtime's integer-like keys first rule is not modelled.
- Exact runtime exception messages are not modelled. This covers the TypeError text when the login reply has no user, and the message when the start reply is not JSON.
- The upload page's notify call is fire-and-forget, and its reply and failures are not modelled.
- KycPage.SetPersonal ignores input names other than the five fields.
- WizardDetails.BankingNext compares account numbers with structural equality. The source's `!==` differs for object values.
- These UI mechanics are not modelled:
  - camera and canvas capture;
  - drag-and-drop;
  - progress floats;
  - the loading flags;
  - the localStorage restore;
  - logout;
  - the one-second delays.
- AdminPage.FetchPending keeps the current list when `items` is a truthy non-array. The source would store that value.
- The signup page's `handleChange` is not modelled.
- `toUpperCase` and `toLowerCase` are ASCII-only.
- Floating-point numbers are mathematical reals. `String(n)` is exact for integers and an uninterpreted function otherwise.
- functions/services/cosmos.ts, the dashboard, status and detail pages, and the presentational components are not part of this model.

## Findings

| source | as written | input that shows it | evidently intended | confidence | as-written member | corrected member |
|---|---|---|---|---|---|---|
| app/kyc/page.tsx:516 | The start request nests the name and birth date under `personalData`. The start route reads `fullName` and `dob` at top level (functions/dist/kyc-start/index.js:25-26). | Any form, e.g. firstName "Ann", lastName "Lee", dateOfBirth "1990-01-01", with a signed-in user: the route answers 400 "fullName is required" and the page shows that message. | Send `fullName` ("first last") and `dob` at top level. | high, not executed | KycPage.SubmitAsWrittenFails | KycPage.StartRequestAccepted |
| app/login/page.tsx:33-36 | The page derives a display name from the email and passes it to `login(email, password)` as the password (app/providers.tsx:35-42). | Register ann@example.com with password "secret1", then log in with the same: the page sends password "Ann", the login route answers 401, and the page still goes to /dashboard signed out. | Pass the typed password to `login`. | high, not executed | AuthPages.LoginAsWrittenLocksOut | AuthPages.LoginPageSignsIn |
| app/lead/page.tsx:48-53 | The lead page wraps its form in a second `FormFlowProvider` inside the one of app/layout.tsx:34-37. `updateLead` writes into that inner state, which is discarded when the page navigates to /applicant. | Fill all six lead fields and press Start: the page moves on, and the review page (app/review/page.tsx:56-59) shows no Lead ID, Name, Phone or Email. | Use the layout's provider, so the lead fields and `lead_id` persist. | medium, not executed | WizardDetails.LeadLostAsWritten | WizardDetails.LeadReachesReview |

=== FILE: admin.dfy ===
/** The reviewer routes: functions/admin/kyc-pending/index.ts (the review queue),
    functions/dist/admin/kyc-get/index.js (one case under review) and
    functions/dist/admin/kyc-decision/index.js (the human decision). Each starts with
    the bearer-token gate; the token verifier, the clock, the ledger row id and the
    write faults are inputs. */
module Admin {
  import opened Wrappers
  import opened Json
  import opened JsRuntime
  import opened KycTypes
  import opened SqlStore
  import opened Http
  import Auth
  import Ledger
  import Text

  const AdminRequired := "admin role required"
  const IdRequired := "id is required"
  const RequestNotFound := "request not found"
  const NotAvailable := "request not available for review"
  const NotPending := "request not in PENDING_REVIEW"
  const BadDecision := "decision must be APPROVE or REJECT"
  const DecisionUpdateFailed := "decision update failed"
  const DecisionInsertFailed := "decision insert failed"

  /** The outcome of the token gate: the verified claims, or the refusal. */
  datatype Gate = Admitted(claims: Json) | Refused(code: int, message: string)

  /** A failed validation is a 401 with the validator's message; a token without the
      admin role is a 403. */
  function AdminGate(cfg: Auth.AuthConfig, header: Option<string>,
                     verify: (Auth.Verifier, Auth.VerifyOptions, string) -> Result<Json>): (g: Gate)
    ensures Auth.ValidateBearerToken(cfg, header, verify).Err? <==> g.Refused? && g.code == 401
    ensures Auth.ValidateBearerToken(cfg, header, verify).Err? ==>
      g == Refused(401, Auth.ValidateBearerToken(cfg, header, verify).message)
    ensures g.Admitted? <==>
      Auth.ValidateBearerToken(cfg, header, verify).Ok? && Auth.IsAdmin(Some(Auth.ValidateBearerToken(cfg, header, verify).value))
    ensures g.Admitted? ==> g.claims == Auth.ValidateBearerToken(cfg, header, verify).value && Truthy(g.claims)
    ensures g.Refused? ==> g.code == 401 || g == Refused(403, AdminRequired)
  {
    match Auth.ValidateBearerToken(cfg, header, verify)
    case Err(m) => Refused(401, m)
    case Ok(d) => if Auth.IsAdmin(Some(d)) then Admitted(d) else Refused(403, AdminRequired)
  }

  // ------------------------------------------------------------ JSON views

  function Field(key: string, v: Option<string>): seq<Member> {
    if v.Some? then [Member(key, JStr(v.value))] else []
  }

  /** The stored case object as the routes return it: the keys it has, in order. */
  function DataJson(d: CaseData): Json {
    JObj(Field("id", d.id) + Field("kycId", d.kycId) + Field("userId", d.userId) + Field("fullName", d.fullName)
         + Field("dob", d.dob) + Field("idType", d.idType) + Field("status", d.status) + Field("riskLevel", d.riskLevel)
         + (if d.createdAt.Some? then [Member("createdAt", JNum(d.createdAt.value as real))] else []))
  }

  function ExtractionJson(e: Extraction): Json {
    JObj(Field("id", e.id)
         + [Member("kycId", JStr(e.kycId)), Member("rawDocumentJson", e.rawDocumentJson),
            Member("documentType", e.documentType), Member("extractedAt", JNum(e.extractedAt as real))]
         + Field("blobPath", e.blobPath))
  }

  // ------------------------------------------------------------ review queue

  /** `GET /api/admin/kyc/pending`: at most 50 cases in PENDING_REVIEW, newest first. */
  function ListPending(cfg: Auth.AuthConfig, header: Option<string>,
                       verify: (Auth.Verifier, Auth.VerifyOptions, string) -> Result<Json>, st: Store): (r: Reply)
    ensures r.store == st
    ensures AdminGate(cfg, header, verify).Refused? ==>
      r.code == AdminGate(cfg, header, verify).code && r.body == ErrorBody(AdminGate(cfg, header, verify).message)
    ensures AdminGate(cfg, header, verify).Admitted? ==>
      var rows := TopByStatus(st, "PENDING_REVIEW", DefaultLimit);
      && r.code == 200
      && Get(r.body, "items").Some? && Get(r.body, "items").value.JArr?
      && var items := Get(r.body, "items").value.items;
         && |items| == |rows| <= DefaultLimit
         && forall i :: 0 <= i < |items| ==> items[i] == DataJson(rows[i].data) && rows[i].status == "PENDING_REVIEW"
  {
    match AdminGate(cfg, header, verify)
    case Refused(code, m) => Reply(code, ErrorBody(m), st)
    case Admitted(_) =>
      var data := GetRequestsByStatus(st, "PENDING_REVIEW", DefaultLimit);
      var items := seq(|data|, i requires 0 <= i < |data| => DataJson(data[i]));
      var body := Obj([("items", JArr(items))]);
      assert body.members[0] == Member("items", JArr(items));
      Reply(200, body, st)
  }

  // ------------------------------------------------------------ one case

  /** `(reqDoc.status || reqDoc?.status?.toUpperCase?.())`: the upper-casing is reached
      only when the status is empty or missing. */
  function ReviewStatus(d: CaseData): Option<string> {
    if Set(d.status) then d.status
    else if d.status == Some("") then Some(Text.Upper(""))
    else None
  }

  predicate UnderReview(d: CaseData) {
    ReviewStatus(d) == Some("PENDING_REVIEW")
  }

  /** The review guard is exact: a case is under review exactly when its stored status
      is "PENDING_REVIEW", so no other casing passes. */
  lemma UnderReviewIff(d: CaseData)
    ensures UnderReview(d) <==> d.status == Some("PENDING_REVIEW")
    ensures !UnderReview(d.(status := Some("pending_review")))
  {
    if d.status == Some("") {
      assert Text.Upper("") == "";
    }
  }

  /** `GET /api/admin/kyc/{id}`: the case and its latest extraction, only while the case
      is under review. */
  function GetForReview(cfg: Auth.AuthConfig, header: Option<string>,
                        verify: (Auth.Verifier, Auth.VerifyOptions, string) -> Result<Json>,
                        st: Store, id: Option<string>): (r: Reply)
    ensures r.store == st
    ensures AdminGate(cfg, header, verify).Refused? ==> r.code == AdminGate(cfg, header, verify).code
    ensures AdminGate(cfg, header, verify).Admitted? ==>
      && (!Set(id) ==> r == Reply(400, ErrorBody(IdRequired), st))
      && (Set(id) && !HasCase(st, id.value) ==> r == Reply(404, ErrorBody(RequestNotFound), st))
      && (Set(id) && HasCase(st, id.value) && !UnderReview(GetKycRequestById(st, id.value).value) ==>
            r == Reply(404, ErrorBody(NotAvailable), st))
    ensures r.code == 200 <==>
      && AdminGate(cfg, header, verify).Admitted? && Set(id)
      && GetKycRequestById(st, id.value).Some? && UnderReview(GetKycRequestById(st, id.value).value)
    ensures r.code == 200 ==>
      && Get(r.body, "request") == Some(DataJson(GetKycRequestById(st, id.value).value))
      && Get(r.body, "extraction") == Some(ExtractionOrNull(GetExtractionByKycId(st, id.value)))
      && (Get(r.body, "extraction") == Some(JNull) <==>
            forall i :: 0 <= i < |st.extractions| ==> st.extractions[i].kycId != id.value)
  {
    match AdminGate(cfg, header, verify)
    case Refused(code, m) => Reply(code, ErrorBody(m), st)
    case Admitted(_) =>
      if !Set(id) then Reply(400, ErrorBody(IdRequired), st)
      else match GetKycRequestById(st, id.value)
        case None => Reply(404, ErrorBody(RequestNotFound), st)
        case Some(d) =>
          if !UnderReview(d) then Reply(404, ErrorBody(NotAvailable), st)
          else
            var pairs := [("request", DataJson(d)), ("extraction", ExtractionOrNull(GetExtractionByKycId(st, id.value)))];
            ObjGetAt(pairs, 0);
            ObjGetAt(pairs, 1);
            Reply(200, Obj(pairs), st)
  }

  /** The case's latest extraction as the reply shows it, null when it has none. */
  function ExtractionOrNull(e: Option<Extraction>): (j: Json)
    ensures j.JNull? <==> e.None?
  {
    if e.Some? then ExtractionJson(e.value) else JNull
  }

  // ------------------------------------------------------------ decision

  /** `(body.decision || "REJECT").toUpperCase()`; a non-string decision has no
      `toUpperCase` and throws. */
  function DecisionOf(b: Json): (r: Result<string>)
    ensures !Present(Get(b, "decision")) ==> r == Ok("REJECT")
    ensures Present(Get(b, "decision")) && Get(b, "decision").value.JStr? ==> r == Ok(Text.Upper(Get(b, "decision").value.s))
    ensures Present(Get(b, "decision")) && !Get(b, "decision").value.JStr? ==> r.Err?
  {
    if !Present(Get(b, "decision")) then Ok("REJECT")
    else match Get(b, "decision").value
      case JStr(s) => Ok(Text.Upper(s))
      case _ => Err("decision.toUpperCase is not a function")
  }

  predicate ValidDecision(d: string) {
    d == "APPROVE" || d == "REJECT" || d == "APPROVED" || d == "REJECTED"
  }

  /** `decision.startsWith("APPROV") ? "APPROVED" : "REJECTED"`. */
  function FinalStatus(d: string): string {
    if Text.StartsWith(d, "APPROV") then "APPROVED" else "REJECTED"
  }

  /** The four accepted spellings map onto the two final states. */
  lemma FinalStatusOfValid(d: string)
    requires ValidDecision(d)
    ensures FinalStatus(d) == "APPROVED" <==> d == "APPROVE" || d == "APPROVED"
    ensures FinalStatus(d) == "REJECTED" <==> d == "REJECT" || d == "REJECTED"
  {
    assert "REJECT"[..6][0] != "APPROV"[0];
    assert "REJECTED"[..6][0] != "APPROV"[0];
  }

  /** A decision request without a decision rejects the case. */
  lemma MissingDecisionRejects(b: Json)
    requires !Present(Get(b, "decision"))
    ensures DecisionOf(b) == Ok("REJECT") && FinalStatus("REJECT") == "REJECTED"
  {
    assert "REJECT"[..6][0] != "APPROV"[0];
  }

  /** `decoded?.sub || decoded?.oid || decoded?.preferred_username || "admin"`. */
  function ActorOf(env: Env, claims: Json): (a: string)
    ensures Present(Get(claims, "sub")) ==> a == Str(env, Get(claims, "sub").value)
    ensures !Present(Get(claims, "sub")) && Present(Get(claims, "oid")) ==> a == Str(env, Get(claims, "oid").value)
    ensures !Present(Get(claims, "sub")) && !Present(Get(claims, "oid")) && Present(Get(claims, "preferred_username")) ==>
      a == Str(env, Get(claims, "preferred_username").value)
    ensures !Present(Get(claims, "sub")) && !Present(Get(claims, "oid")) && !Present(Get(claims, "preferred_username")) ==>
      a == "admin"
  {
    Str(env, OrElse(Get(claims, "sub"), OrElse(Get(claims, "oid"), OrElse(Get(claims, "preferred_username"), Some(JStr("admin"))))).value)
  }

  /** `body.note || null`, in its string form. */
  function NoteOf(env: Env, b: Json): Option<string> {
    if Present(Get(b, "note")) then Some(Str(env, Get(b, "note").value)) else None
  }

  /** Injected failures of the status update, the ledger write and the decision row. */
  datatype DecisionFaults = DecisionFaults(updateFails: bool, ledgerFails: bool, recordFails: bool)

  /** The writes of an accepted decision: the status (its failure is reported), the
      best-effort ledger row, then the decision row (its failure is reported). */
  function ApplyDecision(env: Env, st: Store, id: string, status: string, actor: string, note: Option<string>,
                         now: nat, uuid: string, faults: DecisionFaults): (r: Reply)
    requires status == "APPROVED" || status == "REJECTED"
    ensures faults.updateFails ==> r.code == 500 && r.store == st
    ensures !faults.updateFails ==> CaseStatus(r.store, id) == (if HasCase(st, id) then Some(status) else None)
    ensures r.code == 200 <==> !faults.updateFails && !faults.recordFails
    ensures r.code == 200 || r.code == 500
    ensures r.code == 200 ==> r.store.decisions == st.decisions + [Decision(None, id, status, note, actor, now)]
    ensures r.code != 200 ==> r.store.decisions == st.decisions
    ensures AuditGrows(st, r.store)
    ensures forall i :: |st.transitions| <= i < |r.store.transitions| ==>
      r.store.transitions[i] == TransitionRow(id, Some("PENDING_REVIEW"), status, Some(actor), note, now, uuid)
    ensures |r.store.transitions| <= |st.transitions| + 1
  {
    if faults.updateFails then Reply(500, ErrorBody(DecisionUpdateFailed), st)
    else
      var st2 := StatusWrites(env, st, id, status, actor, note, now, uuid, faults.ledgerFails);
      if faults.recordFails then Reply(500, ErrorBody(DecisionInsertFailed), st2)
      else
        var rec := Decision(None, id, status, note, actor, now);
        Reply(200, Obj([("message", JStr("Decision recorded")), ("rec", DecisionJson(rec))]), CreateDecisionRecord(st2, rec))
  }

  /** The status update and the best-effort ledger row of a decision: the case takes
      the status, at most the one ledger row is appended, and nothing else changes. */
  function StatusWrites(env: Env, st: Store, id: string, status: string, actor: string, note: Option<string>,
                        now: nat, uuid: string, ledgerFails: bool): (r: Store)
    requires status != ""
    ensures CaseStatus(r, id) == (if HasCase(st, id) then Some(status) else None)
    ensures r.decisions == st.decisions && AuditGrows(st, r)
    ensures ledgerFails ==> r.transitions == st.transitions
    ensures !ledgerFails ==>
      r.transitions == st.transitions + [TransitionRow(id, Some("PENDING_REVIEW"), status, Some(actor), note, now, uuid)]
  {
    var st1 := UpdateKycRequest(st, id, NoKeys.(status := Some(status)), env);
    Http.SameIdsSameFind(st.cases, st1.cases, id);
    UpdateSetsStatus(st, id, status, env);
    if ledgerFails then st1
    else RecordStateTransition(st1, id, Some("PENDING_REVIEW"), status, Some(actor), note, now, uuid)
  }

  function DecisionJson(d: Decision): Json {
    JObj(Field("id", d.id)
         + [Member("kycId", JStr(d.kycId)), Member("decision", JStr(d.decision)),
            Member("note", if d.note.Some? then JStr(d.note.value) else JNull),
            Member("actor", JStr(d.actor)), Member("decidedAt", JNum(d.decidedAt as real))])
  }

  /** `POST /api/admin/kyc/{id}/decision`. */
  function Decide(env: Env, cfg: Auth.AuthConfig, header: Option<string>,
                  verify: (Auth.Verifier, Auth.VerifyOptions, string) -> Result<Json>,
                  st: Store, id: Option<string>, body: Option<Json>, now: nat, uuid: string, faults: DecisionFaults): (r: Reply)
    ensures AdminGate(cfg, header, verify).Refused? ==> r.code == AdminGate(cfg, header, verify).code && r.store == st
    ensures AdminGate(cfg, header, verify).Admitted? && !Set(id) ==> r == Reply(400, ErrorBody(IdRequired), st)
    ensures (AdminGate(cfg, header, verify).Admitted? && Set(id) && DecisionOf(BodyOf(body)).Ok? &&
             !ValidDecision(DecisionOf(BodyOf(body)).value)) ==> r == Reply(400, ErrorBody(BadDecision), st)
    ensures r.store != st ==>
      && AdminGate(cfg, header, verify).Admitted? && Set(id)
      && DecisionOf(BodyOf(body)).Ok? && ValidDecision(DecisionOf(BodyOf(body)).value)
      && HasCase(st, id.value) && UnderReview(GetKycRequestById(st, id.value).value)
    ensures r.code == 200 ==>
      && AdminGate(cfg, header, verify).Admitted? && Set(id)
      && DecisionOf(BodyOf(body)).Ok? && ValidDecision(DecisionOf(BodyOf(body)).value)
      && HasCase(st, id.value) && UnderReview(GetKycRequestById(st, id.value).value)
      && var status := FinalStatus(DecisionOf(BodyOf(body)).value);
         && CaseStatus(r.store, id.value) == Some(status)
         && r.store.decisions == st.decisions + [Decision(None, id.value, status, NoteOf(env, BodyOf(body)),
                                                          ActorOf(env, AdminGate(cfg, header, verify).claims), now)]
    ensures AuditGrows(st, r.store) && Ledger.GrowsByValidEdges(st.transitions, r.store.transitions)
  {
    match AdminGate(cfg, header, verify)
    case Refused(code, m) => Reply(code, ErrorBody(m), st)
    case Admitted(claims) =>
      if !Set(id) then Reply(400, ErrorBody(IdRequired), st)
      else
        var b := BodyOf(body);
        match DecisionOf(b)
        case Err(m) => Reply(500, ErrorBody(m), st)
        case Ok(decision) =>
          if !ValidDecision(decision) then Reply(400, ErrorBody(BadDecision), st)
          else
            var status := FinalStatus(decision);
            FinalStatusOfValid(decision);
            match GetKycRequestById(st, id.value)
            case None => Reply(404, ErrorBody(RequestNotFound), st)
            case Some(d) =>
              if !UnderReview(d) then Reply(400, ErrorBody(NotPending), st)
              else ApplyDecision(env, st, id.value, status, ActorOf(env, claims), NoteOf(env, b), now, uuid, faults)
  }
}

=== FILE: admin_page.dfy ===
/** app/admin/kyc/page.tsx: the reviewer dashboard over the review queue: the fetch
    that fills the list, the status filter and the four counters. */
module AdminPage {
  import opened Wrappers
  import opened Json
  import opened JsRuntime
  import opened KycTypes
  import opened SqlStore
  import Admin
  import Auth

  /** `r.status` is one of the given strings (strict equality, so only a string
      status can match). */
  predicate StatusIn(r: Json, names: set<string>) {
    Get(r, "status").Some? && Get(r, "status").value.JStr? && Get(r, "status").value.s in names
  }

  /** `items.filter(r => <status is one of names>)`: every matching item as often as
      the list holds it, and nothing else. */
  function Select(items: seq<Json>, names: set<string>): (r: seq<Json>)
    ensures |r| <= |items|
    ensures forall x :: x in r <==> x in items && StatusIn(x, names)
    ensures forall x :: multiset(r)[x] == if StatusIn(x, names) then multiset(items)[x] else 0
  {
    if |items| == 0 then []
    else
      assert items == [items[0]] + items[1..];
      (if StatusIn(items[0], names) then [items[0]] else []) + Select(items[1..], names)
  }

  /** The filter works piecewise, so the kept items stay in the list's order. */
  lemma {:induction false} SelectAppend(a: seq<Json>, b: seq<Json>, names: set<string>)
    ensures Select(a + b, names) == Select(a, names) + Select(b, names)
    decreases |a|
  {
    if |a| == 0 {
      assert a + b == b;
    } else {
      assert (a + b)[0] == a[0];
      assert (a + b)[1..] == a[1..] + b;
      SelectAppend(a[1..], b, names);
    }
  }

  /** A count is zero exactly when no item has one of the statuses. */
  lemma SelectEmptyIff(items: seq<Json>, names: set<string>)
    ensures |Select(items, names)| == 0 <==> forall i :: 0 <= i < |items| ==> !StatusIn(items[i], names)
  {
    var r := Select(items, names);
    if |r| > 0 {
      assert r[0] in r;
    }
  }

  /** Every item has one of the statuses. */
  predicate AllIn(items: seq<Json>, names: set<string>) {
    forall i :: 0 <= i < |items| ==> StatusIn(items[i], names)
  }

  lemma AllInCons(items: seq<Json>, names: set<string>)
    requires |items| > 0
    ensures AllIn(items, names) <==> StatusIn(items[0], names) && AllIn(items[1..], names)
  {
    if StatusIn(items[0], names) && AllIn(items[1..], names) {
      forall i | 0 < i < |items| ensures StatusIn(items[i], names) {
        assert items[i] == items[1..][i - 1];
      }
    }
  }

  /** A count is the full length exactly when every item has one of the statuses. */
  lemma {:induction false} SelectFullIff(items: seq<Json>, names: set<string>)
    ensures |Select(items, names)| == |items| <==> AllIn(items, names)
    decreases |items|
  {
    if |items| > 0 {
      var tail := items[1..];
      SelectFullIff(tail, names);
      AllInCons(items, names);
      assert |Select(items, names)| == (if StatusIn(items[0], names) then 1 else 0) + |Select(tail, names)|;
    }
  }

  /** `filteredRequests`: every item under "all", else the items whose status is
      exactly the filter string. */
  function Filtered(items: seq<Json>, filter: string): (r: seq<Json>)
    ensures filter == "all" ==> r == items
    ensures filter != "all" ==> forall x :: x in r <==> x in items && Get(x, "status") == Some(JStr(filter))
    ensures filter != "all" ==>
      forall x :: multiset(r)[x] == if Get(x, "status") == Some(JStr(filter)) then multiset(items)[x] else 0
  {
    if filter == "all" then items else Select(items, {filter})
  }

  const PendingNames := {"PENDING_REVIEW", "pending"}
  const ApprovedNames := {"APPROVED", "approved"}
  const RejectedNames := {"REJECTED", "rejected"}

  datatype Stats = Stats(total: nat, pending: nat, approved: nat, rejected: nat)

  /** `stats`: the list length and the three status counts, which never add up to
      more than the list holds. */
  function StatsOf(items: seq<Json>): (s: Stats)
    ensures s.total == |items|
    ensures s.pending == |Select(items, PendingNames)|
    ensures s.approved == |Select(items, ApprovedNames)|
    ensures s.rejected == |Select(items, RejectedNames)|
    ensures s.pending + s.approved + s.rejected <= s.total
    ensures s.pending == 0 <==> forall i :: 0 <= i < |items| ==> !StatusIn(items[i], PendingNames)
    ensures s.pending == s.total <==> AllIn(items, PendingNames)
  {
    SelectEmptyIff(items, PendingNames);
    SelectFullIff(items, PendingNames);
    DisjointSelectionsFit(items, PendingNames, ApprovedNames, RejectedNames);
    Stats(|items|, |Select(items, PendingNames)|, |Select(items, ApprovedNames)|, |Select(items, RejectedNames)|)
  }

  /** Selections by pairwise disjoint status sets pick each item at most once. */
  lemma {:induction false} DisjointSelectionsFit(items: seq<Json>, a: set<string>, b: set<string>, c: set<string>)
    requires a !! b && a !! c && b !! c
    ensures |Select(items, a)| + |Select(items, b)| + |Select(items, c)| <= |items|
    decreases |items|
  {
    if |items| > 0 {
      DisjointSelectionsFit(items[1..], a, b, c);
    }
  }

  /** The filter buttons are lower-case while the review queue holds
      "PENDING_REVIEW" items: under "pending" the list shows none of them although
      the pending counter counts them all. */
  lemma {:induction false} PendingFilterHidesQueue(items: seq<Json>)
    requires forall i :: 0 <= i < |items| ==> Get(items[i], "status") == Some(JStr("PENDING_REVIEW"))
    ensures Filtered(items, "pending") == []
    ensures StatsOf(items).pending == |items|
    ensures Filtered(items, "all") == items
    decreases |items|
  {
    if |items| > 0 {
      PendingFilterHidesQueue(items[1..]);
    }
  }

  /** The status of a stored case as the review queue shows it. */
  lemma DataJsonStatus(d: CaseData)
    ensures Get(Admin.DataJson(d), "status") == if d.status.Some? then Some(JStr(d.status.value)) else None
  {
    var f1, f2, f3 := Admin.Field("id", d.id), Admin.Field("kycId", d.kycId), Admin.Field("userId", d.userId);
    var f4, f5, f6 := Admin.Field("fullName", d.fullName), Admin.Field("dob", d.dob), Admin.Field("idType", d.idType);
    var s, f8 := Admin.Field("status", d.status), Admin.Field("riskLevel", d.riskLevel);
    var f9 := if d.createdAt.Some? then [Member("createdAt", JNum(d.createdAt.value as real))] else [];
    LookupSkip(f1, f2, "status");
    LookupSkip(f1 + f2, f3, "status");
    LookupSkip(f1 + f2 + f3, f4, "status");
    LookupSkip(f1 + f2 + f3 + f4, f5, "status");
    LookupSkip(f1 + f2 + f3 + f4 + f5, f6, "status");
    LookupSkip(f1 + f2 + f3 + f4 + f5 + f6, s, "status");
    LookupConcat(f1 + f2 + f3 + f4 + f5 + f6 + s, f8, "status");
    LookupConcat(f1 + f2 + f3 + f4 + f5 + f6 + s + f8, f9, "status");
    assert Admin.DataJson(d).members == f1 + f2 + f3 + f4 + f5 + f6 + s + f8 + f9;
  }

  /** `fetchPending()`: with no token nothing happens; a failed request, a reply that
      is not JSON or whose `items` is a truthy non-array keeps the list; otherwise
      the list becomes `json.items || []`. Loading ends false whenever it started. */
  function FetchPending(token: Option<string>, reply: HttpReply, current: seq<Json>, loading: bool): (r: (seq<Json>, bool))
    ensures token.None? || token.value == "" ==> r == (current, loading)
    ensures token.Some? && token.value != "" ==> !r.1
    ensures token.Some? && token.value != "" && reply.ok && reply.body.Some? && !reply.body.value.JNull? ==>
      var items := Get(reply.body.value, "items");
      && (!Present(items) ==> r.0 == [])
      && (items.Some? && items.value.JArr? ==> r.0 == items.value.items)
    ensures r.0 != current ==> token.Some? && reply.ok
  {
    if token.None? || token.value == "" then (current, loading)
    else if !reply.ok || reply.body.None? || reply.body.value.JNull? then (current, false)
    else
      var items := Get(reply.body.value, "items");
      if !Present(items) then ([], false)
      else if items.value.JArr? then (items.value.items, false)
      else (current, false)
  }

  /** What an admitted reviewer sees after the page loads the review queue: every
      listed case counts as pending, and the "pending" filter shows none of them. */
  lemma QueueOnDashboard(cfg: Auth.AuthConfig, header: Option<string>,
                         verify: (Auth.Verifier, Auth.VerifyOptions, string) -> Result<Json>, st: Store,
                         token: string, current: seq<Json>)
    requires Admin.AdminGate(cfg, header, verify).Admitted? && token != ""
    requires forall x :: x in st.cases && x.status == "PENDING_REVIEW" ==> x.data.status == Some("PENDING_REVIEW")
    ensures var reply := Admin.ListPending(cfg, header, verify, st);
      var list := FetchPending(Some(token), HttpReply(true, 200, "", Some(reply.body), None), current, false).0;
      && list == Get(reply.body, "items").value.items
      && |list| <= DefaultLimit
      && StatsOf(list).pending == |list|
      && Filtered(list, "pending") == []
  {
    var reply := Admin.ListPending(cfg, header, verify, st);
    var items := Get(reply.body, "items").value.items;
    var rows := TopByStatus(st, "PENDING_REVIEW", DefaultLimit);
    forall i | 0 <= i < |items| ensures Get(items[i], "status") == Some(JStr("PENDING_REVIEW")) {
      DataJsonStatus(rows[i].data);
    }
    PendingFilterHidesQueue(items);
  }
}

=== FILE: analyze.dfy ===
/** functions/dist/kyc-analyze/index.js: reads the audit copy of the latest
    extraction, derives the de-identified payload, asks the risk model, stores the
    assessment and routes the case to APPROVED or PENDING_REVIEW. The model's reply
    (a function of the fields text), the credential outcomes, the faults of each write, the
    clock and the ledger row id are inputs. */
module Analyze {
  import opened Wrappers
  import opened Json
  import opened JsRuntime
  import opened KycTypes
  import opened SqlStore
  import opened BlobStorage
  import opened AnalyzeFields
  import OpenAi
  import opened Http
  import Ledger

  const KycIdRequired := "kycId is required"
  const ExtractionNotFound := "extraction not found"
  const BlobPathMissing := "extraction blobPath missing"
  const AccountMissing := "BLOB_ACCOUNT_URL not configured"
  const BlobNotFound := "The specified blob does not exist."
  const RiskInsertFailed := "risk assessment insert failed"

  /** The credential outcomes and the completion endpoint. The request the endpoint
      answers is `OpenAi.Prompt(fields)`: fixed instructions around the fields text,
      so the endpoint is given here as a function of that text. */
  datatype AiInputs = AiInputs(secretOk: bool, tokenOk: bool, reply: string -> HttpReply)

  /** Injected failures of the writes, in the order the handler makes them. */
  datatype AnalyzeFaults = AnalyzeFaults(
    ledgerAnalyzed: bool,
    riskInsert: bool,
    markAnalyzed: bool,
    markFinal: bool,
    ledgerFinal: bool)

  const NoFaults := AnalyzeFaults(false, false, false, false, false)

  /** The only case data the risk model receives: the serialised payload. */
  function FieldsText(env: Env, p: Payload): string {
    env.stringify(PayloadJson(p))
  }

  /** `Number(aiResult.confidenceScore) || 0`. */
  function ConfidenceOf(env: Env, ai: Json): (c: real)
    ensures NumberOf(env, Get(ai, "confidenceScore")).None? ==> c == 0.0
    ensures NumberOf(env, Get(ai, "confidenceScore")).Some? ==> c == NumberOf(env, Get(ai, "confidenceScore")).value
  {
    match NumberOf(env, Get(ai, "confidenceScore"))
    case Some(n) => n
    case None => 0.0
  }

  /** The stored assessment: the level, the confidence, `reasoning || explanation ||
      JSON.stringify(aiResult)`, `modelVersion || OPENAI_DEPLOYMENT || "unknown"`. */
  function RiskRecord(env: Env, kycId: string, ai: Json, level: string, deploymentVar: Option<string>, now: int): (r: RiskAssessment)
    ensures r.kycId == kycId && r.riskLevel == level && r.assessedAt == now
    ensures r.confidenceScore == ConfidenceOf(env, ai)
    ensures Truthy(r.reasoning) || r.reasoning == JStr(env.stringify(ai))
    ensures Truthy(r.modelVersion)
  {
    RiskAssessment(
      kycId, level, ConfidenceOf(env, ai),
      OrElse(Get(ai, "reasoning"), OrElse(Get(ai, "explanation"), Some(JStr(env.stringify(ai))))).value,
      OrElse(Get(ai, "modelVersion"),
             Some(JStr(if deploymentVar.Some? && deploymentVar.value != "" then deploymentVar.value else "unknown"))).value,
      now)
  }

  function RiskJson(r: RiskAssessment): Json {
    Obj([("kycId", JStr(r.kycId)), ("riskLevel", JStr(r.riskLevel)), ("confidenceScore", JNum(r.confidenceScore)),
         ("reasoning", r.reasoning), ("modelVersion", r.modelVersion), ("assessedAt", JNum(r.assessedAt as real))])
  }

  function AnalyzeBody(kycId: Json, r: RiskAssessment): Json {
    Obj([("message", JStr("Risk assessment stored")), ("kycId", kycId), ("riskRec", RiskJson(r))])
  }

  /** The model's verdict as the handler reads it: the reply interpreted by the
      completion client, then its level. */
  function Verdict(env: Env, aiCfg: OpenAi.AiConfig, aiAuth: OpenAi.AuthEnv, ai: AiInputs, fields: string): (r: Result<(Json, string)>)
    ensures r.Ok? ==> (OpenAi.AnalyzeRisk(env, aiCfg, aiAuth, ai.secretOk, ai.tokenOk, ai.reply(fields)) == Ok(r.value.0)
                       && RiskLevelOf(r.value.0) == Ok(r.value.1))
    ensures r.Err? <==> (OpenAi.AnalyzeRisk(env, aiCfg, aiAuth, ai.secretOk, ai.tokenOk, ai.reply(fields)).Err?
                         || RiskLevelOf(OpenAi.AnalyzeRisk(env, aiCfg, aiAuth, ai.secretOk, ai.tokenOk, ai.reply(fields)).value).Err?)
  {
    var aiResult :- OpenAi.AnalyzeRisk(env, aiCfg, aiAuth, ai.secretOk, ai.tokenOk, ai.reply(fields));
    var level :- RiskLevelOf(aiResult);
    Ok((aiResult, level))
  }

  /** The writes after a verdict: the assessment row, the ANALYZED mark, then the
      routed status with its `auto:<LEVEL>` ledger row. */
  function Route(env: Env, st: Store, kycIdJson: Json, aiResult: Json, level: string, deploymentVar: Option<string>,
                 now: nat, faults: AnalyzeFaults): (r: Reply)
    ensures r.code == 200 || r.code == 500
    ensures r.code == 500 <==> faults.riskInsert
    ensures r.code == 500 ==> r.store == st
    ensures AuditGrows(st, r.store)
    ensures Ledger.GrowsByValidEdges(st.transitions, r.store.transitions)
    ensures forall i :: |st.transitions| <= i < |r.store.transitions| ==>
      && r.store.transitions[i].fromState == Some("ANALYZED")
      && r.store.transitions[i].toState == NextStatus(level)
      && r.store.transitions[i].reason == Some("auto:" + level)
    ensures r.code == 200 ==>
      r.store.risks == st.risks + [RiskRecord(env, Str(env, kycIdJson), aiResult, level, deploymentVar, now)]
  {
    var kycId := Str(env, kycIdJson);
    if faults.riskInsert then Reply(500, ErrorBody(RiskInsertFailed), st)
    else
      var rec := RiskRecord(env, kycId, aiResult, level, deploymentVar, now);
      var st2 := CreateRiskAssessment(st, rec);
      var st3 := if faults.markAnalyzed then st2
                 else UpdateKycRequest(st2, kycId, NoKeys.(riskLevel := Some(level), status := Some("ANALYZED")), env);
      var next := NextStatus(level);
      var st4 := MarkAndRecord(env, st3, kycId, NoKeys.(riskLevel := Some(level), status := Some(next)), Some("ANALYZED"),
                               next, None, Some("auto:" + level), now, "", faults.markFinal, faults.ledgerFinal);
      Reply(200, AnalyzeBody(kycIdJson, rec), st4)
  }

  /** The best-effort EXTRACTED-to-ANALYZED ledger row written before the model is
      asked. */
  function NoteAnalyzing(st: Store, kycId: string, now: nat, uuid: string, fails: bool): (r: Store)
    ensures fails ==> r == st
    ensures !fails ==> r == st.(transitions := st.transitions + [TransitionRow(kycId, Some("EXTRACTED"), "ANALYZED", None, None, now, uuid)])
    ensures AuditGrows(st, r) && Ledger.GrowsByValidEdges(st.transitions, r.transitions) && r.risks == st.risks
  {
    if fails then st else RecordStateTransition(st, kycId, Some("EXTRACTED"), "ANALYZED", None, None, now, uuid)
  }

  /** From the raw extraction on: the payload, the EXTRACTED-to-ANALYZED ledger row,
      the model, and `Route`. */
  function Assess(env: Env, aiCfg: OpenAi.AiConfig, aiAuth: OpenAi.AuthEnv, deploymentVar: Option<string>, st: Store,
                  kycIdJson: Json, raw: Json, now: nat, uuid: string, ai: AiInputs, faults: AnalyzeFaults): (r: Reply)
    ensures r.code == 200 || r.code == 500
    ensures AuditGrows(st, r.store)
    ensures Ledger.GrowsByValidEdges(st.transitions, r.store.transitions)
    ensures raw.JNull? ==> r.code == 500 && r.store == st
    ensures r.code == 200 ==>
      && BuildPayload(env, raw, now).Ok?
      && var v := Verdict(env, aiCfg, aiAuth, ai, FieldsText(env, BuildPayload(env, raw, now).value));
         && v.Ok?
         && r.store.risks == st.risks + [RiskRecord(env, Str(env, kycIdJson), v.value.0, v.value.1, deploymentVar, now)]
  {
    var kycId := Str(env, kycIdJson);
    match BuildPayload(env, raw, now)
    case Err(m) => Reply(500, ErrorBody(m), st)
    case Ok(payload) =>
      var st1 := NoteAnalyzing(st, kycId, now, uuid, faults.ledgerAnalyzed);
      var r := AskAndRoute(env, aiCfg, aiAuth, deploymentVar, st1, kycIdJson, FieldsText(env, payload), now, ai, faults);
      AuditGrowsTransitive(st, st1, r.store);
      Ledger.GrowsByValidEdgesTransitive(st.transitions, st1.transitions, r.store.transitions);
      r
  }

  /** The model asked with `fields`, then `Route` on its verdict. */
  function AskAndRoute(env: Env, aiCfg: OpenAi.AiConfig, aiAuth: OpenAi.AuthEnv, deploymentVar: Option<string>, st: Store,
                       kycIdJson: Json, fields: string, now: nat, ai: AiInputs, faults: AnalyzeFaults): (r: Reply)
    ensures r.code == 200 || r.code == 500
    ensures AuditGrows(st, r.store)
    ensures Ledger.GrowsByValidEdges(st.transitions, r.store.transitions)
    ensures Verdict(env, aiCfg, aiAuth, ai, fields).Err? ==> r.code == 500 && r.store == st
    ensures Verdict(env, aiCfg, aiAuth, ai, fields).Ok? ==>
      var v := Verdict(env, aiCfg, aiAuth, ai, fields).value;
      r == Route(env, st, kycIdJson, v.0, v.1, deploymentVar, now, faults)
    ensures r.code == 200 ==>
      && Verdict(env, aiCfg, aiAuth, ai, fields).Ok?
      && var v := Verdict(env, aiCfg, aiAuth, ai, fields).value;
         r.store.risks == st.risks + [RiskRecord(env, Str(env, kycIdJson), v.0, v.1, deploymentVar, now)]
  {
    match Verdict(env, aiCfg, aiAuth, ai, fields)
    case Err(m) => Reply(500, ErrorBody(m), st)
    case Ok(v) => Route(env, st, kycIdJson, v.0, v.1, deploymentVar, now, faults)
  }

  /** The blob name of the audit copy a `blobPath` points at. */
  function AuditBlobName(storage: StorageConfig, blobPath: string): string {
    StripBlobPrefix(blobPath, storage.accountUrl, storage.extractionsContainer)
  }

  /** Where the handler stops before any write, if it does: the error reply, else the
      raw extraction to assess. */
  function LoadExtraction(env: Env, storage: StorageConfig, st: Store, kycId: string): (r: Result<Json>)
    ensures GetExtractionByKycId(st, kycId).None? ==> r == Err(ExtractionNotFound)
    ensures r.Ok? ==>
      var e := GetExtractionByKycId(st, kycId);
      && e.Some? && Set(e.value.blobPath) && storage.accountUrl != ""
      && AuditBlobName(storage, e.value.blobPath.value) in st.blobs
      && r.value == st.blobs[AuditBlobName(storage, e.value.blobPath.value)]
  {
    match GetExtractionByKycId(st, kycId)
    case None => Err(ExtractionNotFound)
    case Some(e) =>
      if !Set(e.blobPath) then Err(BlobPathMissing)
      else if storage.accountUrl == "" then Err(AccountMissing)
      else
        var name := AuditBlobName(storage, e.blobPath.value);
        if name !in st.blobs then Err(BlobNotFound) else Ok(st.blobs[name])
  }

  /** `POST /api/kyc/analyze`. */
  function AnalyzeKyc(env: Env, storage: StorageConfig, aiCfg: OpenAi.AiConfig, aiAuth: OpenAi.AuthEnv,
                      deploymentVar: Option<string>, httpMethod: string, body: Option<Json>, st: Store,
                      now: nat, uuid: string, ai: AiInputs, faults: AnalyzeFaults): (r: Reply)
    ensures httpMethod != "POST" ==> r == Reply(405, ErrorBody(MethodNotAllowed), st)
    ensures httpMethod == "POST" && !Present(Get(BodyOf(body), "kycId")) ==> r == Reply(400, ErrorBody(KycIdRequired), st)
    ensures httpMethod == "POST" && Present(Get(BodyOf(body), "kycId")) ==>
      var kycId := Str(env, Get(BodyOf(body), "kycId").value);
      && (GetExtractionByKycId(st, kycId).None? ==> r == Reply(404, ErrorBody(ExtractionNotFound), st))
      && (GetExtractionByKycId(st, kycId).Some? && LoadExtraction(env, storage, st, kycId).Err? ==> r.code == 500 && r.store == st)
      && (LoadExtraction(env, storage, st, kycId).Ok? ==>
            r == Assess(env, aiCfg, aiAuth, deploymentVar, st, Get(BodyOf(body), "kycId").value,
                        LoadExtraction(env, storage, st, kycId).value, now, uuid, ai, faults))
    ensures r.code in {200, 400, 404, 405, 500}
    ensures AuditGrows(st, r.store)
    ensures Ledger.GrowsByValidEdges(st.transitions, r.store.transitions)
  {
    if httpMethod != "POST" then Reply(405, ErrorBody(MethodNotAllowed), st)
    else
      var b := BodyOf(body);
      if !Present(Get(b, "kycId")) then Reply(400, ErrorBody(KycIdRequired), st)
      else
        var kycIdJson := Get(b, "kycId").value;
        var kycId := Str(env, kycIdJson);
        match LoadExtraction(env, storage, st, kycId)
        case Err(m) => Reply(if m == ExtractionNotFound && GetExtractionByKycId(st, kycId).None? then 404 else 500, ErrorBody(m), st)
        case Ok(raw) => Assess(env, aiCfg, aiAuth, deploymentVar, st, kycIdJson, raw, now, uuid, ai, faults)
  }
}

=== FILE: analyze_fields.dfy ===
/** The pure helpers of functions/dist/kyc-analyze/index.js: the key search over an
    untyped extraction result, document-number masking and hashing, age in whole
    years, the de-identified payload sent to the risk model, the blob-name
    derivation and the risk-to-status routing. */
module AnalyzeFields {
  import opened Wrappers
  import opened Json
  import opened JsRuntime
  import Text
  import BlobStorage

  // ------------------------------------------------------------ key search

  /** Number of keys `Object.keys` yields for an object or array. */
  function KeyCount(j: Json): nat {
    match j
    case JObj(ms) => |ms|
    case JArr(items) => |items|
    case _ => 0
  }

  /** The `i`-th key: a member name, or the decimal index of an array element. */
  function KeyAt(j: Json, i: nat): string
    requires i < KeyCount(j)
  {
    match j
    case JObj(ms) => ms[i].key
    case JArr(_) => Text.NatToString(i)
  }

  /** `findFirst(obj, candidates)`: JNull for a falsy or non-object input; otherwise
      the keys in order, each lower-cased and compared with the candidates, with a
      depth-first descent into object and array values between the keys. */
  function FindFirst(j: Json, cands: seq<string>): Json {
    if !Truthy(j) || !IsObjectLike(j) then JNull else FindFrom(j, 0, cands)
  }

  /** The loop of `findFirst` from the `i`-th key on. A match at this level returns
      the value as it is; a match found by a descent is kept only when truthy. */
  function FindFrom(j: Json, i: nat, cands: seq<string>): Json
    requires IsObjectLike(j)
    decreases j, KeyCount(j) - i
  {
    if i >= KeyCount(j) then JNull
    else
      ChildIn(j, i);
      var v := ValueAt(j, i);
      if Text.Lower(KeyAt(j, i)) in cands then v
      else if Truthy(v) && IsObjectLike(v) && Truthy(FindFrom(v, 0, cands)) then FindFrom(v, 0, cands)
      else FindFrom(j, i + 1, cands)
  }

  /** The value held at the `i`-th key. */
  function ValueAt(j: Json, i: nat): Json
    requires i < KeyCount(j)
  {
    match j
    case JObj(ms) => ms[i].value
    case JArr(items) => items[i]
  }

  /** The `i`-th value is an element of the container, hence structurally smaller. */
  lemma ChildIn(j: Json, i: nat)
    requires i < KeyCount(j)
    ensures j.JObj? ==> j.members[i] in j.members
    ensures j.JArr? ==> j.items[i] in j.items
  {
  }

  /** `v` sits somewhere in `j` under a key whose lower-case form is a candidate. */
  predicate MatchIn(j: Json, cands: seq<string>, v: Json)
    decreases j
  {
    IsObjectLike(j) &&
    exists i :: 0 <= i < KeyCount(j) &&
      ((Text.Lower(KeyAt(j, i)) in cands && ValueAt(j, i) == v) || Below(j, i, cands, v))
  }

  /** The descent of `MatchIn` into the `i`-th value. */
  predicate Below(j: Json, i: nat, cands: seq<string>, v: Json)
    requires i < KeyCount(j)
    decreases j, 0
  {
    match j
    case JObj(ms) => assert ms[i] in ms; MatchIn(ms[i].value, cands, v)
    case JArr(items) => assert items[i] in items; MatchIn(items[i], cands, v)
  }

  /** No key anywhere in `j` is a candidate. */
  predicate NoMatch(j: Json, cands: seq<string>)
    decreases j
  {
    forall i :: 0 <= i < KeyCount(j) ==> Text.Lower(KeyAt(j, i)) !in cands && NoneBelow(j, i, cands)
  }

  predicate NoneBelow(j: Json, i: nat, cands: seq<string>)
    requires i < KeyCount(j)
    decreases j, 0
  {
    match j
    case JObj(ms) => assert ms[i] in ms; NoMatch(ms[i].value, cands)
    case JArr(items) => assert items[i] in items; NoMatch(items[i], cands)
  }

  /** Whatever the search returns, other than null, is the value of a candidate key. */
  lemma {:induction false} FindFromSound(j: Json, i: nat, cands: seq<string>)
    requires IsObjectLike(j)
    ensures FindFrom(j, i, cands) == JNull || MatchIn(j, cands, FindFrom(j, i, cands))
    decreases j, KeyCount(j) - i
  {
    if i < KeyCount(j) {
      var v := ValueAt(j, i);
      var r := FindFrom(j, i, cands);
      ChildIn(j, i);
      if Text.Lower(KeyAt(j, i)) in cands {
      } else if Truthy(v) && IsObjectLike(v) && Truthy(FindFrom(v, 0, cands)) {
        FindFromSound(v, 0, cands);
        assert Below(j, i, cands, r);
      } else {
        FindFromSound(j, i + 1, cands);
      }
    }
  }

  lemma FindFirstSound(j: Json, cands: seq<string>)
    ensures FindFirst(j, cands) == JNull || MatchIn(j, cands, FindFirst(j, cands))
  {
    if Truthy(j) && IsObjectLike(j) {
      FindFromSound(j, 0, cands);
    }
  }

  /** With no candidate key anywhere, the search yields null. */
  lemma {:induction false} FindFromNoMatch(j: Json, i: nat, cands: seq<string>)
    requires IsObjectLike(j) && NoMatch(j, cands)
    ensures FindFrom(j, i, cands) == JNull
    decreases j, KeyCount(j) - i
  {
    if i < KeyCount(j) {
      var v := ValueAt(j, i);
      ChildIn(j, i);
      assert NoneBelow(j, i, cands);
      if Truthy(v) && IsObjectLike(v) {
        FindFromNoMatch(v, 0, cands);
      }
      FindFromNoMatch(j, i + 1, cands);
    }
  }

  lemma FindFirstNoMatch(j: Json, cands: seq<string>)
    requires NoMatch(j, cands)
    ensures FindFirst(j, cands) == JNull
  {
    if Truthy(j) && IsObjectLike(j) {
      FindFromNoMatch(j, 0, cands);
    }
  }

  /** The search stops at the `i`-th key: the key is a candidate, or the descent into
      its value finds something truthy. */
  predicate StopsAt(j: Json, i: nat, cands: seq<string>)
    requires IsObjectLike(j) && i < KeyCount(j)
  {
    var v := ValueAt(j, i);
    Text.Lower(KeyAt(j, i)) in cands || (Truthy(v) && IsObjectLike(v) && Truthy(FindFrom(v, 0, cands)))
  }

  /** The answer given when the search stops at the `i`-th key: the value itself for
      a candidate key, else what the descent found. */
  function AnswerAt(j: Json, i: nat, cands: seq<string>): Json
    requires IsObjectLike(j) && i < KeyCount(j)
  {
    var v := ValueAt(j, i);
    if Text.Lower(KeyAt(j, i)) in cands then v
    else if Truthy(v) && IsObjectLike(v) then FindFrom(v, 0, cands)
    else JNull
  }

  /** The search answers at the first key, in key order, where it stops: keys before
      it are passed over, neither matching nor leading to a truthy find below. */
  lemma {:induction false} FindFromFirstStop(j: Json, i: nat, m: nat, cands: seq<string>)
    requires IsObjectLike(j) && i <= m < KeyCount(j)
    requires forall k :: i <= k < m ==> !StopsAt(j, k, cands)
    requires StopsAt(j, m, cands)
    ensures FindFrom(j, i, cands) == AnswerAt(j, m, cands)
    decreases m - i
  {
    if i < m {
      assert !StopsAt(j, i, cands);
      FindFromFirstStop(j, i + 1, m, cands);
    }
  }

  /** A search that stops nowhere from the `i`-th key on answers null. */
  lemma {:induction false} FindFromNoStop(j: Json, i: nat, cands: seq<string>)
    requires IsObjectLike(j)
    requires forall k :: i <= k < KeyCount(j) ==> !StopsAt(j, k, cands)
    ensures FindFrom(j, i, cands) == JNull
    decreases KeyCount(j) - i
  {
    if i < KeyCount(j) {
      assert !StopsAt(j, i, cands);
      FindFromNoStop(j, i + 1, cands);
    }
  }

  /** `findFirst` on an object answers at its first stopping key; in particular a
      top-level candidate key with no earlier stop yields that key's value as it is. */
  lemma FindFirstFirstStop(j: Json, m: nat, cands: seq<string>)
    requires Truthy(j) && IsObjectLike(j) && m < KeyCount(j)
    requires forall k :: 0 <= k < m ==> !StopsAt(j, k, cands)
    requires StopsAt(j, m, cands)
    ensures FindFirst(j, cands) == AnswerAt(j, m, cands)
    ensures Text.Lower(KeyAt(j, m)) in cands ==> FindFirst(j, cands) == ValueAt(j, m)
  {
    FindFromFirstStop(j, 0, m, cands);
  }

  /** Only the lower-case forms of keys are compared, so two candidate lists that
      accept the same lower-case strings give the same search. */
  lemma {:induction false} FindFromSameCandidates(j: Json, i: nat, c1: seq<string>, c2: seq<string>)
    requires IsObjectLike(j)
    requires forall s :: Text.Lower(s) in c1 <==> Text.Lower(s) in c2
    ensures FindFrom(j, i, c1) == FindFrom(j, i, c2)
    decreases j, KeyCount(j) - i
  {
    if i < KeyCount(j) {
      var v := ValueAt(j, i);
      ChildIn(j, i);
      if Truthy(v) && IsObjectLike(v) {
        FindFromSameCandidates(v, 0, c1, c2);
      }
      FindFromSameCandidates(j, i + 1, c1, c2);
    }
  }

  const NameCandidates: seq<string> := ["fullname", "full_name", "name", "firstname", "lastname"]
  const DobCandidates: seq<string> := ["dob", "dateofbirth", "birthdate", "birth_date"]
  const DocNumCandidates: seq<string> :=
    ["documentnumber", "document_number", "idnumber", "id_number", "passportnumber", "passport_number", "passportno"]
  const DocTypeCandidates: seq<string> := ["documenttype", "document_type", "docType", "type"]
  const CountryCandidates: seq<string> := ["country", "issuingcountry", "issuer_country"]

  /** The mixed-case candidate "docType" can never match a lower-cased key: the
      document-type search behaves as if it were not in the list. */
  lemma DocTypeCandidateIsDead(j: Json)
    ensures FindFirst(j, DocTypeCandidates) == FindFirst(j, ["documenttype", "document_type", "type"])
  {
    var c2 := ["documenttype", "document_type", "type"];
    forall s: string ensures Text.Lower(s) in DocTypeCandidates <==> Text.Lower(s) in c2 {
      Text.LowerNeverMixedCase(s, "docType", 3);
    }
    if Truthy(j) && IsObjectLike(j) {
      FindFromSameCandidates(j, 0, DocTypeCandidates, c2);
    }
  }

  // ------------------------------------------------------------ document number

  /** `maskDocumentNumber(num)`: null for a falsy input; whitespace removed; "****"
      for at most four characters, else "****" and the last four. */
  function MaskDocumentNumber(env: Env, num: Json): (r: Option<string>)
    ensures r.None? <==> !Truthy(num)
    ensures r.Some? ==>
      var s := Text.RemoveSpaces(Str(env, num));
      && Text.StartsWith(r.value, "****")
      && (|s| <= 4 ==> r.value == "****")
      && (|s| > 4 ==> |r.value| == 8 && r.value[4..] == s[|s| - 4..])
  {
    if !Truthy(num) then None
    else
      var s := Text.RemoveSpaces(Str(env, num));
      if |s| <= 4 then Some("****") else Some("****" + s[|s| - 4..])
  }

  /** Masking reveals at most four characters of the number, none of them whitespace. */
  lemma MaskRevealsAtMostFour(env: Env, num: Json)
    requires Truthy(num)
    ensures var m := MaskDocumentNumber(env, num).value;
      |m| <= 8 && m[..4] == "****" && Text.NoSpace(m)
  {
    var s := Text.RemoveSpaces(Str(env, num));
    var m := MaskDocumentNumber(env, num).value;
    if |s| > 4 {
      assert forall k :: 4 <= k < 8 ==> m[k] == s[|s| - 4 + k - 4];
    }
  }

  /** Masking a mask gives the same mask. */
  lemma MaskIdempotent(env: Env, num: Json)
    requires Truthy(num)
    ensures var m := MaskDocumentNumber(env, num).value;
      MaskDocumentNumber(env, JStr(m)) == Some(m)
  {
    var m := MaskDocumentNumber(env, num).value;
    MaskRevealsAtMostFour(env, num);
    assert Str(env, JStr(m)) == m;
    assert Text.RemoveSpaces(m) == m;
    if |m| > 4 {
      assert m == "****" + m[4..];
    }
  }

  /** `hashValue(val)`: null for a falsy input, else the sha256 hex digest of
      `String(val)`. */
  function HashValue(env: Env, v: Json): (r: Option<string>)
    ensures r.None? <==> !Truthy(v)
    ensures r.Some? ==> r.value == env.sha256Hex(Str(env, v))
  {
    if !Truthy(v) then None else Some(env.sha256Hex(Str(env, v)))
  }

  // ------------------------------------------------------------ age

  /** 365.25 days in milliseconds. */
  const YearMs: nat := 31557600000

  /** `computeAge(dobRaw)`: null for a falsy or unparsable date, else whole years
      elapsed, rounded toward minus infinity. */
  function ComputeAge(env: Env, dobRaw: Json, now: int): (r: Option<int>)
    ensures r.None? <==> !Truthy(dobRaw) || DateOf(env, dobRaw).None?
    ensures r.Some? ==>
      var diff := now - DateOf(env, dobRaw).value;
      r.value * YearMs <= diff < (r.value + 1) * YearMs
  {
    if !Truthy(dobRaw) then None
    else match DateOf(env, dobRaw)
      case None => None
      case Some(d) => Some((now - d) / YearMs)
  }

  /** Age never decreases as time passes. */
  lemma AgeMonotone(env: Env, dobRaw: Json, now1: int, now2: int)
    requires now1 <= now2 && ComputeAge(env, dobRaw, now1).Some?
    ensures ComputeAge(env, dobRaw, now2).Some?
    ensures ComputeAge(env, dobRaw, now1).value <= ComputeAge(env, dobRaw, now2).value
  {
    var a1 := ComputeAge(env, dobRaw, now1).value;
    var a2 := ComputeAge(env, dobRaw, now2).value;
    if a1 > a2 {
      MulLeft(a2 + 1, a1, YearMs);
    }
  }

  lemma MulLeft(a: int, b: int, c: nat)
    requires a <= b
    ensures a * c <= b * c
  {
  }

  /** Exactly `n` 365.25-day years after the birth date the age is `n`. */
  lemma AgeAfterYears(env: Env, dobRaw: Json, n: nat)
    requires Truthy(dobRaw) && DateOf(env, dobRaw).Some?
    ensures ComputeAge(env, dobRaw, DateOf(env, dobRaw).value + n * YearMs) == Some(n)
  {
    var d := DateOf(env, dobRaw).value;
    var a := ComputeAge(env, dobRaw, d + n * YearMs).value;
    if a < n {
      MulLeft(a + 1, n, YearMs);
    } else if a > n {
      MulLeft(n + 1, a, YearMs);
    }
  }

  /** Born at midnight on 2000-01-01, aged 24 on 2024-06-01. */
  lemma AgeExample(env: Env)
    requires env.parseDate("2000-01-01") == Some(946684800000)
    ensures ComputeAge(env, JStr("2000-01-01"), 1717200000000) == Some(24)
  {
  }

  // ------------------------------------------------------------ payload

  /** The structured payload, the only thing sent to the risk model. */
  datatype Payload = Payload(
    age: Option<int>,
    documentType: Json,
    documentNumberMasked: Option<string>,
    documentNumberHash: Option<string>,
    issuerCountry: Json)

  /** `x || null`. */
  function OrNull(v: Json): (r: Json)
    ensures Truthy(v) ==> r == v
    ensures !Truthy(v) ==> r == JNull
  {
    if Truthy(v) then v else JNull
  }

  /** The document type: the key search, else the top-level `documentType` member, else
      null. Reading a member of a null extraction throws. */
  function DocTypeOf(raw: Json): (r: Result<Json>)
    ensures r.Err? <==> raw.JNull?
    ensures r.Ok? ==>
      var found := FindFirst(raw, DocTypeCandidates);
      var top := Get(raw, "documentType");
      r.value == (if Truthy(found) then found else if Present(top) then top.value else JNull)
  {
    var found := FindFirst(raw, DocTypeCandidates);
    if Truthy(found) then Ok(found)
    else if raw.JNull? then Err("Cannot read properties of null (reading 'documentType')")
    else match Get(raw, "documentType")
      case Some(t) => Ok(OrNull(t))
      case None => Ok(JNull)
  }

  /** The payload built from the raw extraction. The name candidates are searched by
      the source but the result is never used, so the name is absent here. */
  function BuildPayload(env: Env, raw: Json, now: int): (r: Result<Payload>)
    ensures r.Err? <==> raw.JNull?
    ensures r.Ok? ==>
      var dob := OrNull(FindFirst(raw, DobCandidates));
      var num := OrNull(FindFirst(raw, DocNumCandidates));
      && r.value.age == ComputeAge(env, dob, now)
      && r.value.documentNumberMasked == MaskDocumentNumber(env, num)
      && r.value.documentNumberHash == HashValue(env, num)
      && r.value.issuerCountry == OrNull(FindFirst(raw, CountryCandidates))
    ensures r.Ok? ==> r.value.documentType == DocTypeOf(raw).value
  {
    var dob := OrNull(FindFirst(raw, DobCandidates));
    var num := OrNull(FindFirst(raw, DocNumCandidates));
    var docType :- DocTypeOf(raw);
    Ok(Payload(
      ComputeAge(env, dob, now),
      OrNull(docType),
      MaskDocumentNumber(env, num),
      HashValue(env, num),
      OrNull(FindFirst(raw, CountryCandidates))))
  }

  /** The payload as the JSON object given to `JSON.stringify`. */
  function PayloadJson(p: Payload): (r: Json)
    ensures r.JObj? && |r.members| == 5
    ensures forall i :: 0 <= i < 5 ==>
      r.members[i].key == ["age", "documentType", "documentNumberMasked", "documentNumberHash", "issuerCountry"][i]
  {
    Obj([
      ("age", if p.age.Some? then JNum(p.age.value as real) else JNull),
      ("documentType", p.documentType),
      ("documentNumberMasked", if p.documentNumberMasked.Some? then JStr(p.documentNumberMasked.value) else JNull),
      ("documentNumberHash", if p.documentNumberHash.Some? then JStr(p.documentNumberHash.value) else JNull),
      ("issuerCountry", p.issuerCountry)])
  }

  /** De-identification: two extractions that agree on the date of birth, document
      number, document type and country searches yield the same payload, whatever
      their names, so the name never reaches the model; the raw document number
      reaches it only masked and hashed, and the raw date of birth only as an age. */
  lemma PayloadIgnoresName(env: Env, a: Json, b: Json, now: int)
    requires !a.JNull? && !b.JNull?
    requires FindFirst(a, DobCandidates) == FindFirst(b, DobCandidates)
    requires FindFirst(a, DocNumCandidates) == FindFirst(b, DocNumCandidates)
    requires FindFirst(a, CountryCandidates) == FindFirst(b, CountryCandidates)
    requires DocTypeOf(a) == DocTypeOf(b)
    ensures BuildPayload(env, a, now) == BuildPayload(env, b, now)
  {
  }

  // ------------------------------------------------------------ blob name

  /** The blob name of an audit copy: `blobPath` without the
      `${accountUrl}/${container}/` prefix when it has one, else unchanged. */
  function StripBlobPrefix(blobPath: string, accountUrl: string, container: string): (r: string)
    ensures |r| <= |blobPath| && r == blobPath[|blobPath| - |r|..]
    ensures !Text.StartsWith(blobPath, accountUrl + "/" + container + "/") ==> r == blobPath
  {
    var prefix := accountUrl + "/" + container + "/";
    if Text.StartsWith(blobPath, prefix) then blobPath[|prefix|..] else blobPath
  }

  /** Stripping inverts the URL the upload returns. */
  lemma StripInvertsBlobUrl(accountUrl: string, container: string, name: string)
    ensures StripBlobPrefix(BlobStorage.BlobUrl(accountUrl, container, name), accountUrl, container) == name
  {
    var prefix := accountUrl + "/" + container + "/";
    assert BlobStorage.BlobUrl(accountUrl, container, name) == prefix + name;
    assert (prefix + name)[..|prefix|] == prefix;
  }

  // ------------------------------------------------------------ routing

  /** `(aiResult.riskLevel || "MEDIUM").toUpperCase()`; a null result or a non-string
      level throws. */
  function RiskLevelOf(ai: Json): (r: Result<string>)
    ensures ai.JNull? ==> r.Err?
    ensures !ai.JNull? && !Present(Get(ai, "riskLevel")) ==> r == Ok("MEDIUM")
    ensures !ai.JNull? && Present(Get(ai, "riskLevel")) && Get(ai, "riskLevel").value.JStr? ==>
      r == Ok(Text.Upper(Get(ai, "riskLevel").value.s))
    ensures !ai.JNull? && Present(Get(ai, "riskLevel")) && !Get(ai, "riskLevel").value.JStr? ==> r.Err?
  {
    if ai.JNull? then Err("Cannot read properties of null (reading 'riskLevel')")
    // the default is already upper case
    else if !Present(Get(ai, "riskLevel")) then Ok("MEDIUM")
    else match Get(ai, "riskLevel").value
      case JStr(s) => Ok(Text.Upper(s))
      case _ => Err("toUpperCase is not a function")
  }

  /** The automatic decision: approve exactly the LOW level, send everything else to a
      human. */
  function NextStatus(level: string): (r: string)
    ensures r == "APPROVED" <==> level == "LOW"
    ensures r == "APPROVED" || r == "PENDING_REVIEW"
  {
    if level == "LOW" then "APPROVED" else "PENDING_REVIEW"
  }

  /** Any casing of "low" from the model is approved; an unset level is never. */
  lemma RoutingFromModel(ai: Json)
    requires RiskLevelOf(ai).Ok?
    ensures !Present(Get(ai, "riskLevel")) ==> NextStatus(RiskLevelOf(ai).value) == "PENDING_REVIEW"
    ensures forall s :: Get(ai, "riskLevel") == Some(JStr(s)) && Text.Upper(s) == "LOW" ==>
      NextStatus(RiskLevelOf(ai).value) == "APPROVED"
    ensures Get(ai, "riskLevel") == Some(JStr("low")) ==> NextStatus(RiskLevelOf(ai).value) == "APPROVED"
  {
  }
}

=== FILE: auth.dfy ===
/** functions/services/auth.ts: bearer-header parsing around an abstract token
    verifier, and the `isAdmin` claim predicate. Signature checking (JWKS or HMAC) is
    the `verify` parameter. */
module Auth {
  import opened Wrappers
  import opened Json
  import Text

  /** `AUTH_JWKS_URI`, `AUTH_SHARED_SECRET`, `AUTH_AUDIENCE`, `AUTH_ISSUER` (missing read as ""). */
  datatype AuthConfig = AuthConfig(jwksUri: string, sharedSecret: string, audience: string, issuer: string)

  /** The key material a token is checked against. */
  datatype Verifier = Jwks(uri: string) | SharedSecret(secret: string)

  /** Audience and issuer are checked only when configured. */
  datatype VerifyOptions = VerifyOptions(audience: Option<string>, issuer: Option<string>)

  function OptionsOf(cfg: AuthConfig): VerifyOptions {
    VerifyOptions(if cfg.audience != "" then Some(cfg.audience) else None,
                  if cfg.issuer != "" then Some(cfg.issuer) else None)
  }

  const MissingHeader := "Missing Authorization header"
  const InvalidHeader := "Invalid Authorization header"
  const NotConfigured := "No auth verification configured (set AUTH_JWKS_URI or AUTH_SHARED_SECRET)"

  /** The header splits on single spaces into exactly "Bearer" and a token. */
  predicate WellFormedHeader(h: string) {
    var parts := Text.Split(h, ' ');
    |parts| == 2 && parts[0] == "Bearer"
  }

  /** `validateBearerToken(header)`: missing header, malformed header and missing
      configuration are refused in that order, before any verification; JWKS is
      preferred to the shared secret. */
  function ValidateBearerToken(cfg: AuthConfig, header: Option<string>,
                               verify: (Verifier, VerifyOptions, string) -> Result<Json>): (r: Result<Json>)
    ensures header.None? || header.value == "" ==> r == Err(MissingHeader)
    ensures header.Some? && header.value != "" && !WellFormedHeader(header.value) ==> r == Err(InvalidHeader)
    ensures header.Some? && header.value != "" && WellFormedHeader(header.value) ==>
      var token := Text.Split(header.value, ' ')[1];
      && header.value == "Bearer " + token
      && (cfg.jwksUri == "" && cfg.sharedSecret == "" ==> r == Err(NotConfigured))
      && (cfg.jwksUri != "" ==> r == verify(Jwks(cfg.jwksUri), OptionsOf(cfg), token))
      && (cfg.jwksUri == "" && cfg.sharedSecret != "" ==> r == verify(SharedSecret(cfg.sharedSecret), OptionsOf(cfg), token))
  {
    if header.None? || header.value == "" then Err(MissingHeader)
    else
      var parts := Text.Split(header.value, ' ');
      if |parts| != 2 || parts[0] != "Bearer" then Err(InvalidHeader)
      else
        Text.JoinSplit(header.value, ' ');
        assert Text.Join(parts, " ") == parts[0] + " " + parts[1];
        var token := parts[1];
        if cfg.jwksUri == "" && cfg.sharedSecret == "" then Err(NotConfigured)
        else if cfg.jwksUri != "" then verify(Jwks(cfg.jwksUri), OptionsOf(cfg), token)
        else verify(SharedSecret(cfg.sharedSecret), OptionsOf(cfg), token)
  }

  /** The accepted headers are exactly "Bearer " followed by a space-free token. */
  lemma WellFormedHeaderIff(h: string)
    ensures WellFormedHeader(h) <==> exists t :: ' ' !in t && h == "Bearer " + t
  {
    if WellFormedHeader(h) {
      var parts := Text.Split(h, ' ');
      Text.JoinSplit(h, ' ');
      assert Text.Join(parts, " ") == parts[0] + " " + parts[1];
      assert h == "Bearer " + parts[1];
    }
    if exists t :: ' ' !in t && h == "Bearer " + t {
      var t :| ' ' !in t && h == "Bearer " + t;
      BearerTokenParses(t);
    }
  }

  lemma BearerTokenParses(t: string)
    requires ' ' !in t
    ensures WellFormedHeader("Bearer " + t) && Text.Split("Bearer " + t, ' ')[1] == t
  {
    var parts := ["Bearer", t];
    assert Text.Join(parts, " ") == "Bearer " + t by {
      assert parts[1..] == [t];
    }
    Text.SplitJoin(parts, ' ');
  }

  /** `isAdmin(decoded)`: false for a missing or falsy token; otherwise the role
      source is the first truthy of `roles`, `role`, `app_roles` (else an empty
      array), and the token is an admin when that source is an array containing
      "admin" or is the string "admin", or when `is_admin` is exactly true. */
  function IsAdmin(decoded: Option<Json>): (b: bool)
    ensures decoded.None? || !Truthy(decoded.value) ==> !b
  {
    if decoded.None? || !Truthy(decoded.value) then false
    else
      var d := decoded.value;
      var roles := OrElse(Get(d, "roles"), OrElse(Get(d, "role"), OrElse(Get(d, "app_roles"), Some(JArr([]))))).value;
      || (roles.JArr? && JStr("admin") in roles.items)
      || roles == JStr("admin")
      || Get(d, "is_admin") == Some(JBool(true))
  }

  /** A role claim that by itself makes an administrator: the string "admin", or an
      array holding it. */
  predicate GrantsAdmin(v: Option<Json>) {
    v == Some(JStr("admin")) || (v.Some? && v.value.JArr? && JStr("admin") in v.value.items)
  }

  /** Without a truthy `roles` claim, a `role` of "admin" makes an administrator. */
  lemma AdminByRoleString(d: Json)
    requires d.JObj? && !Present(Get(d, "roles")) && Get(d, "role") == Some(JStr("admin"))
    ensures IsAdmin(Some(d))
  {
  }

  /** `is_admin === true` makes an administrator whatever the role claims say. */
  lemma AdminByFlag(d: Json)
    requires d.JObj? && Get(d, "is_admin") == Some(JBool(true))
    ensures IsAdmin(Some(d))
  {
  }

  /** A token is an administrator only through a role claim or the flag: when none
      of `roles`, `role` and `app_roles` grants it and `is_admin` is not exactly
      true, it is not one. */
  lemma NotAdminWithoutGrant(d: Json)
    requires !GrantsAdmin(Get(d, "roles")) && !GrantsAdmin(Get(d, "role")) && !GrantsAdmin(Get(d, "app_roles"))
    requires Get(d, "is_admin") != Some(JBool(true))
    ensures !IsAdmin(Some(d))
  {
  }

  /** The first truthy role claim decides, so a present but empty `roles` array
      hides an admin `role`. */
  lemma EmptyRolesShadowRole()
    ensures !IsAdmin(Some(Obj([("roles", JArr([])), ("role", JStr("admin"))])))
  {
    var d := Obj([("roles", JArr([])), ("role", JStr("admin"))]);
    assert d.members[0] == Member("roles", JArr([]));
    assert Lookup(d.members, "is_admin") == None by {
      assert d.members[1].key == "role";
    }
  }

  /** The whole of `isAdmin` for a truthy token: the first truthy of `roles`, `role`
      and `app_roles` grants the role, or `is_admin` is exactly true. */
  lemma AdminIff(d: Json)
    requires Truthy(d)
    ensures IsAdmin(Some(d)) <==>
      GrantsAdmin(OrElse(Get(d, "roles"), OrElse(Get(d, "role"), Get(d, "app_roles"))))
      || Get(d, "is_admin") == Some(JBool(true))
  {
  }

  /** A `roles` claim that is the plain string "admin" makes an administrator. */
  lemma AdminByRolesString(d: Json)
    requires Truthy(d) && Get(d, "roles") == Some(JStr("admin"))
    ensures IsAdmin(Some(d))
  {
  }

  /** With neither `roles` nor `role` truthy, an `app_roles` claim that is "admin" or an
      array holding it makes an administrator. */
  lemma AdminByAppRoles(d: Json)
    requires Truthy(d) && !Present(Get(d, "roles")) && !Present(Get(d, "role"))
    requires GrantsAdmin(Get(d, "app_roles"))
    ensures IsAdmin(Some(d))
  {
  }

  /** A token whose claims hold a truthy `roles` array and no `is_admin` is an admin
      exactly when "admin" is among its roles. */
  lemma AdminByRolesArray(d: Json, roles: seq<Json>)
    requires d.JObj? && Get(d, "roles") == Some(JArr(roles)) && Get(d, "is_admin").None?
    ensures IsAdmin(Some(d)) <==> JStr("admin") in roles
  {
  }
}

=== FILE: auth_pages.dfy ===
/** app/providers.tsx (`login`), app/login/page.tsx and app/signup/page.tsx: the
    browser side of signing in. The session is what the provider keeps; the reply
    of the login route is computed by the backend model over the store. */
module AuthPages {
  import opened Wrappers
  import opened Json
  import opened JsRuntime
  import opened KycTypes
  import opened SqlStore
  import Http
  import Users
  import Text

  const BaseNotConfigured := "NEXT_PUBLIC_FUNCTIONS_BASE_URL not configured"
  const LoginFailed := "Login failed"
  const FillAll := "Please fill in all fields"
  const PasswordsDiffer := "Passwords do not match"
  const TermsRequired := "You must agree to terms and conditions"
  const Dashboard := "/dashboard"

  /** The provider's user and token. */
  datatype Session = SignedOut | SignedIn(email: Option<Json>, name: Option<Json>, token: Option<Json>)

  /** `JSON.stringify({ email, password })` as the login route parses it. */
  function LoginRequest(email: string, password: string): (b: Json)
    ensures Get(b, "email") == Some(JStr(email)) && Get(b, "password") == Some(JStr(password))
    ensures Truthy(b)
  {
    var ms := [Member("email", JStr(email)), Member("password", JStr(password))];
    LookupFirst(ms, 1);
    JObj(ms)
  }

  /** `login(email, password)` of the provider, given the route's reply: no base URL
      or a reply outside 2xx is an error (the reply's `error`, else "Login failed");
      otherwise the session holds `json.user.email`, `json.user.name` and
      `json.token`, and reading a property of a missing `user` throws. */
  function ProviderLogin(env: Env, base: string, reply: Http.Reply): (r: Result<Session>)
    ensures base == "" ==> r == Err(BaseNotConfigured)
    ensures base != "" && !(200 <= reply.code <= 299) ==>
      r.Err? && (Present(Get(reply.body, "error")) ==> r.message == Str(env, Get(reply.body, "error").value))
             && (!Present(Get(reply.body, "error")) ==> r.message == LoginFailed)
    ensures r.Ok? <==> base != "" && 200 <= reply.code <= 299 && Get(reply.body, "user").Some?
                       && !Get(reply.body, "user").value.JNull?
    ensures r.Ok? ==> r.value.SignedIn? && r.value.token == Get(reply.body, "token")
                      && r.value.email == Get(Get(reply.body, "user").value, "email")
                      && r.value.name == Get(Get(reply.body, "user").value, "name")
  {
    if base == "" then Err(BaseNotConfigured)
    else if !(200 <= reply.code <= 299) then
      var e := Get(reply.body, "error");
      Err(if Present(e) then Str(env, e.value) else LoginFailed)
    else
      var user := Get(reply.body, "user");
      if user.None? || user.value.JNull? then Err("Cannot read properties of undefined (reading 'email')")
      else Ok(SignedIn(Get(user.value, "email"), Get(user.value, "name"), Get(reply.body, "token")))
  }

  /** Where the provider stands once `login(email, second)` has settled: the new
      session, or the old one when the call rejected (nobody awaits it). */
  function SettleLogin(env: Env, secretVar: Option<string>, base: string, st: Store, email: string,
                       second: string, s: Session): (r: Session)
    ensures var reply := Users.Login(env, secretVar, "POST", Some(LoginRequest(email, second)), st);
      && (ProviderLogin(env, base, reply).Ok? ==> r == ProviderLogin(env, base, reply).value)
      && (ProviderLogin(env, base, reply).Err? ==> r == s)
  {
    match ProviderLogin(env, base, Users.Login(env, secretVar, "POST", Some(LoginRequest(email, second)), st))
    case Ok(n) => n
    case Err(_) => s
  }

  /** What a submit leaves: the message shown ("" for none), the session once the
      unawaited login settles, and the route pushed. */
  datatype AuthPageResult = AuthPageResult(error: string, session: Session, route: Option<string>)

  /** `name = local.charAt(0).toUpperCase() + local.slice(1)` for the part of the
      email before the first "@". */
  function DisplayName(email: string): (n: string)
    ensures |n| == |Text.Split(email, '@')[0]|
  {
    var local := Text.Split(email, '@')[0];
    if local == "" then "" else [Text.UpperChar(local[0])] + local[1..]
  }

  /** For `local@domain` the display name is the local part, capitalised: it keeps
      every character after the first, and the first is never a lower-case letter. */
  lemma DisplayNameOfAddress(local: string, domain: string)
    requires '@' !in local
    ensures var n := DisplayName(local + "@" + domain);
      && |n| == |local|
      && (|local| > 0 ==> n[1..] == local[1..] && n[0] == Text.UpperChar(local[0]) && !('a' <= n[0] <= 'z'))
      && (|local| > 0 && !('a' <= local[0] <= 'z') ==> n == local)
  {
    assert local + "@" + domain == local + ['@'] + domain;
    Text.SplitAtFirst(local, '@', domain);
  }

  // ------------------------------------------------------------ login page

  /** `handleSubmit` of the login page as written: empty fields stop it; otherwise it
      calls `login(email, name)`, whose second parameter is the password, and moves
      to the dashboard without waiting for the answer. */
  function LoginPageAsWritten(env: Env, secretVar: Option<string>, base: string, st: Store,
                              email: string, password: string, s: Session): (r: AuthPageResult)
    ensures email == "" || password == "" <==> r.route.None?
    ensures r.route.None? ==> r == AuthPageResult(FillAll, s, None)
    ensures r.route.Some? ==> r.route == Some(Dashboard) && r.error == ""
    ensures r.route.Some? ==> r.session == SettleLogin(env, secretVar, base, st, email, DisplayName(email), s)
  {
    if email == "" || password == "" then AuthPageResult(FillAll, s, None)
    else AuthPageResult("", SettleLogin(env, secretVar, base, st, email, DisplayName(email), s), Some(Dashboard))
  }

  /** The login page as intended: the same checks, sending the password typed. */
  function LoginPage(env: Env, secretVar: Option<string>, base: string, st: Store,
                     email: string, password: string, s: Session): (r: AuthPageResult)
    ensures email == "" || password == "" <==> r.route.None?
    ensures r.route.None? ==> r == AuthPageResult(FillAll, s, None)
    ensures r.route.Some? ==> r.route == Some(Dashboard) && r.error == ""
    ensures r.route.Some? ==> r.session == SettleLogin(env, secretVar, base, st, email, password, s)
  {
    if email == "" || password == "" then AuthPageResult(FillAll, s, None)
    else AuthPageResult("", SettleLogin(env, secretVar, base, st, email, password, s), Some(Dashboard))
  }

  /** bcrypt accepts a password against a hash exactly when the hash was made from it. */
  ghost predicate FaithfulBcrypt(env: Env) {
    forall p, q :: env.bcryptCompare(p, env.bcryptHash(q)) <==> p == q
  }

  /** The account registered with `{ email, password }`. */
  function Registered(env: Env, st: Store, email: string, password: string, id: string): (r: Store)
    requires email != "" && password != ""
    requires GetUserByEmail(st.users, email).None?
    ensures GetUserByEmail(r.users, email).Some?
    ensures GetUserByEmail(r.users, email).value.passwordHash == env.bcryptHash(password)
  {
    var b := LoginRequest(email, password);
    assert Http.BodyOf(Some(b)) == b;
    var u := Users.NewUser(env, b, id);
    assert u.email == email;
    Users.FirstMatchIsAppended(st.users, u);
    Users.Register(env, "POST", Some(b), st, id, false).store
  }

  /** The login page as written cannot sign a freshly registered user in: it sends
      the capitalised local part as the password, so unless the password happens to
      be that name the route answers 401 and the session stays as it was, while the
      page still moves to the dashboard. (For "ann@example.com" with password
      "secret1" the route is asked to check "Ann".) */
  lemma LoginAsWrittenLocksOut(env: Env, secretVar: Option<string>, base: string, st: Store,
                               email: string, password: string, id: string, s: Session)
    requires FaithfulBcrypt(env)
    requires email != "" && password != "" && password != DisplayName(email)
    requires GetUserByEmail(st.users, email).None?
    ensures var st1 := Registered(env, st, email, password, id);
      && Users.Login(env, secretVar, "POST", Some(LoginRequest(email, DisplayName(email))), st1).code
           == (if DisplayName(email) == "" then 400 else 401)
      && LoginPageAsWritten(env, secretVar, base, st1, email, password, s) == AuthPageResult("", s, Some(Dashboard))
  {
    var st1 := Registered(env, st, email, password, id);
    var b := LoginRequest(email, DisplayName(email));
    var u := GetUserByEmail(st1.users, email).value;
    assert Http.BodyOf(Some(b)) == b;
    var reply := Users.Login(env, secretVar, "POST", Some(b), st1);
    if DisplayName(email) == "" {
      assert Users.MissingCredentials(b);
    } else {
      assert Users.EmailOf(env, b) == email;
      assert !env.bcryptCompare(DisplayName(email), u.passwordHash);
      assert reply.code == 401;
    }
    assert ProviderLogin(env, base, reply).Err?;
    assert SettleLogin(env, secretVar, base, st1, email, DisplayName(email), s) == s;
  }

  /** The corrected page signs the freshly registered user in with the account's
      email and name and the token the route issued. */
  lemma LoginPageSignsIn(env: Env, secretVar: Option<string>, base: string, st: Store,
                         email: string, password: string, id: string, s: Session)
    requires FaithfulBcrypt(env)
    requires email != "" && password != "" && base != ""
    requires GetUserByEmail(st.users, email).None?
    ensures var st1 := Registered(env, st, email, password, id);
      var u := GetUserByEmail(st1.users, email).value;
      var r := LoginPage(env, secretVar, base, st1, email, password, s);
      && r.route == Some(Dashboard)
      && r.session == SignedIn(Some(JStr(email)), Some(JStr(u.name)),
                               Some(JStr(env.jwtSign(Users.Claims(u), Users.SigningSecret(secretVar)))))
  {
    var st1 := Registered(env, st, email, password, id);
    var b := LoginRequest(email, password);
    var u := GetUserByEmail(st1.users, email).value;
    assert Http.BodyOf(Some(b)) == b;
    assert Users.EmailOf(env, b) == email;
    assert env.bcryptCompare(password, u.passwordHash);
    var c := Users.Claims(u);
    var token := env.jwtSign(c, Users.SigningSecret(secretVar));
    var reply := Users.Login(env, secretVar, "POST", Some(b), st1);
    assert reply.code == 200 && reply.body == Users.LoginBody(token, u);
    assert ProviderLogin(env, base, reply) == Ok(SignedIn(Some(JStr(email)), Some(JStr(u.name)), Some(JStr(token))));
  }

  // ------------------------------------------------------------ signup page

  /** The signup form's fields. */
  datatype SignupForm = SignupForm(firstName: string, lastName: string, email: string, password: string,
                                   confirmPassword: string, agreeTerms: bool)

  /** `${firstName} ${lastName}`. */
  function FullName(f: SignupForm): (n: string)
    ensures |n| == |f.firstName| + 1 + |f.lastName|
    ensures n[..|f.firstName|] == f.firstName && n[|f.firstName|] == ' ' && n[|f.firstName| + 1..] == f.lastName
  {
    f.firstName + " " + f.lastName
  }

  /** `handleSubmit` of the signup page: the passwords must match, then the terms
      must be accepted; then, with no registration call, `login(email, fullName)`
      and the dashboard. */
  function SignupPage(env: Env, secretVar: Option<string>, base: string, st: Store,
                      f: SignupForm, s: Session): (r: AuthPageResult)
    ensures f.password != f.confirmPassword ==> r == AuthPageResult(PasswordsDiffer, s, None)
    ensures f.password == f.confirmPassword && !f.agreeTerms ==> r == AuthPageResult(TermsRequired, s, None)
    ensures r.route.Some? <==> f.password == f.confirmPassword && f.agreeTerms
    ensures r.route.Some? ==> r.route == Some(Dashboard) && r.error == ""
    ensures r.route.Some? ==> r.session == SettleLogin(env, secretVar, base, st, f.email, FullName(f), s)
  {
    if f.password != f.confirmPassword then AuthPageResult(PasswordsDiffer, s, None)
    else if !f.agreeTerms then AuthPageResult(TermsRequired, s, None)
    else AuthPageResult("", SettleLogin(env, secretVar, base, st, f.email, FullName(f), s), Some(Dashboard))
  }

  /** Signing up creates no account: for a new email the page's login is refused with
      401 and the session is unchanged, although the page reaches the dashboard. */
  lemma SignupCreatesNoAccount(env: Env, secretVar: Option<string>, base: string, st: Store,
                               f: SignupForm, s: Session)
    requires f.password == f.confirmPassword && f.agreeTerms && f.email != ""
    requires GetUserByEmail(st.users, f.email).None?
    ensures Users.Login(env, secretVar, "POST", Some(LoginRequest(f.email, FullName(f))), st).code == 401
    ensures SignupPage(env, secretVar, base, st, f, s) == AuthPageResult("", s, Some(Dashboard))
  {
    var b := LoginRequest(f.email, FullName(f));
    assert Http.BodyOf(Some(b)) == b;
    assert FullName(f)[|f.firstName|] == ' ';
  }

  /** For an email that already has an account, signing up signs in exactly when
      bcrypt accepts the typed full name as that account's password. */
  lemma SignupSignsInIffNameIsPassword(env: Env, secretVar: Option<string>, base: string, st: Store,
                                       f: SignupForm, s: Session)
    requires f.password == f.confirmPassword && f.agreeTerms && f.email != "" && base != ""
    requires GetUserByEmail(st.users, f.email).Some?
    requires s == SignedOut
    ensures SignupPage(env, secretVar, base, st, f, s).session.SignedIn? <==>
            env.bcryptCompare(FullName(f), GetUserByEmail(st.users, f.email).value.passwordHash)
  {
    var b := LoginRequest(f.email, FullName(f));
    assert Http.BodyOf(Some(b)) == b;
    assert FullName(f)[|f.firstName|] == ' ';
    var u := GetUserByEmail(st.users, f.email).value;
    var reply := Users.Login(env, secretVar, "POST", Some(b), st);
    if env.bcryptCompare(FullName(f), u.passwordHash) {
      assert reply.code == 200;
      assert Get(reply.body, "user") == Some(Users.UserView(u));
    } else {
      assert reply.code != 200;
      assert reply.code == 401 || reply.code == 500;
    }
  }
}

=== FILE: blob_storage.dfy ===
/** functions/dist/services/storage.js: delegated-credential URLs and the
    no-overwrite naming rule for audit copies of extraction results. The storage
    service itself is abstract: signing a grant is a caller-supplied function, and
    the audit container is the `blobs` map of the store. */
module BlobStorage {
  import opened Wrappers
  import opened Json
  import Text

  datatype StorageConfig = StorageConfig(accountUrl: string, container: string, extractionsContainer: string)

  /** `BLOB_ACCOUNT_URL || ""`, `BLOB_CONTAINER || "kyc-documents"`,
      `BLOB_EXTRACTIONS_CONTAINER || "kyc-extractions"`. */
  function ConfigFromEnv(accountUrl: Option<string>, container: Option<string>, extractions: Option<string>): (c: StorageConfig)
    ensures c.container == (if container.Some? && container.value != "" then container.value else "kyc-documents")
    ensures c.extractionsContainer == (if extractions.Some? && extractions.value != "" then extractions.value else "kyc-extractions")
    ensures c.container != "" && c.extractionsContainer != ""
  {
    StorageConfig(
      if accountUrl.Some? then accountUrl.value else "",
      if container.Some? && container.value != "" then container.value else "kyc-documents",
      if extractions.Some? && extractions.value != "" then extractions.value else "kyc-extractions")
  }

  /** What a shared-access signature grants: one blob, a permission string, a
      validity window in epoch milliseconds. */
  datatype SasGrant = SasGrant(container: string, blobName: string, permissions: string, startsOn: int, expiresOn: int)

  /** `${accountUrl}/${container}/${blobName}`. */
  function BlobUrl(accountUrl: string, container: string, blobName: string): string {
    accountUrl + "/" + container + "/" + blobName
  }

  const MsPerMinute: nat := 60000

  /** `generateUserDelegationSAS(blobName, permissions, minutes)`: fails before any
      storage call when the account URL is missing; otherwise grants `permissions` on
      that one blob from now until now + minutes, and returns the blob URL with the
      signature as query. `sign` stands for fetching the user delegation key and
      signing; None is a failure of either. */
  function GenerateUserDelegationSas(cfg: StorageConfig, blobName: string, permissions: string, minutes: nat,
                                     now: int, sign: SasGrant -> Option<string>): (r: Result<(string, SasGrant)>)
    ensures cfg.accountUrl == "" ==> r.Err?
    ensures r.Ok? ==>
      var (url, g) := r.value;
      && g == SasGrant(cfg.container, blobName, permissions, now, now + minutes * MsPerMinute)
      && sign(g).Some?
      && url == BlobUrl(cfg.accountUrl, cfg.container, blobName) + "?" + sign(g).value
    ensures r.Err? <==> cfg.accountUrl == "" || sign(SasGrant(cfg.container, blobName, permissions, now, now + minutes * MsPerMinute)).None?
  {
    if cfg.accountUrl == "" then Err("BLOB_ACCOUNT_URL not configured")
    else
      var g := SasGrant(cfg.container, blobName, permissions, now, now + minutes * MsPerMinute);
      match sign(g)
      case None => Err("failed to obtain user delegation key")
      case Some(sas) => Ok((BlobUrl(cfg.accountUrl, cfg.container, blobName) + "?" + sas, g))
  }

  /** The defaults of `generateUserDelegationSAS`: read permission for 60 minutes. */
  function ReadSas(cfg: StorageConfig, blobName: string, now: int, sign: SasGrant -> Option<string>): (r: Result<(string, SasGrant)>)
    ensures r.Ok? ==> r.value.1.permissions == "r" && r.value.1.expiresOn == now + 3600000
  {
    GenerateUserDelegationSas(cfg, blobName, "r", 60, now, sign)
  }

  // ------------------------------------------------------------ audit copies

  /** `<kycId>/document-intel.json`: the one deterministic audit path per case. */
  function PrimaryName(kycId: string): string {
    kycId + "/document-intel.json"
  }

  /** `<kycId>/document-intel-<ts>.json`: the timestamped fallback path. */
  function FallbackName(kycId: string, ts: nat): string {
    kycId + "/document-intel-" + Text.NatToString(ts) + ".json"
  }

  /** Injected faults of one upload: the conditional write refused for a reason other
      than an existing blob (the source falls back on any error), and a failing
      fallback write. */
  datatype UploadFaults = UploadFaults(primaryRefused: bool, fallbackFails: bool)

  /** `uploadExtractionJson`: writes the JSON at the primary path only when nothing is
      there (If-None-Match `*`); on any failure of that write, writes it
      unconditionally at the timestamped path. Returns the URL of the path written and
      the new container. */
  function UploadExtractionJson(cfg: StorageConfig, blobs: map<string, Json>, kycId: string, json: Json,
                                now: nat, faults: UploadFaults): (r: Result<(string, map<string, Json>)>)
    ensures cfg.accountUrl == "" ==> r.Err?
    ensures r.Ok? ==> exists name ::
      && (name == PrimaryName(kycId) || name == FallbackName(kycId, now))
      && r.value.0 == BlobUrl(cfg.accountUrl, cfg.extractionsContainer, name)
      && r.value.1 == blobs[name := json]
    ensures r.Ok? && PrimaryName(kycId) in blobs ==>
      PrimaryName(kycId) in r.value.1 && r.value.1[PrimaryName(kycId)] == blobs[PrimaryName(kycId)]
    ensures r.Ok? && PrimaryName(kycId) !in blobs && !faults.primaryRefused ==>
      r.value.0 == BlobUrl(cfg.accountUrl, cfg.extractionsContainer, PrimaryName(kycId))
  {
    if cfg.accountUrl == "" then Err("BLOB_ACCOUNT_URL not configured")
    else if PrimaryName(kycId) !in blobs && !faults.primaryRefused then
      Ok((BlobUrl(cfg.accountUrl, cfg.extractionsContainer, PrimaryName(kycId)), blobs[PrimaryName(kycId) := json]))
    else if faults.fallbackFails then Err("fallback upload failed")
    else
      PrimaryNotFallback(kycId, now);
      Ok((BlobUrl(cfg.accountUrl, cfg.extractionsContainer, FallbackName(kycId, now)), blobs[FallbackName(kycId, now) := json]))
  }

  /** The primary path is never a fallback path. */
  lemma PrimaryNotFallback(kycId: string, ts: nat)
    ensures PrimaryName(kycId) != FallbackName(kycId, ts)
  {
    var k := |kycId| + 15;
    assert PrimaryName(kycId)[k] == '.';
    assert FallbackName(kycId, ts)[k] == '-';
  }

  /** Fallback paths of one case at distinct instants are distinct. */
  lemma FallbackNamesDistinct(kycId: string, t1: nat, t2: nat)
    requires t1 != t2
    ensures FallbackName(kycId, t1) != FallbackName(kycId, t2)
  {
    var p := kycId + "/document-intel-";
    var a := FallbackName(kycId, t1);
    var b := FallbackName(kycId, t2);
    var d1 := Text.NatToString(t1);
    var d2 := Text.NatToString(t2);
    Text.NatToStringInjective(t1, t2);
    assert a == p + d1 + ".json" && b == p + d2 + ".json";
    assert a[|p|..|a| - 5] == d1;
    assert b[|p|..|b| - 5] == d2;
  }

  /** The upload never changes an existing audit blob, provided the fallback path of
      this instant is still free: the write that may land on an existing name is the
      unconditional fallback, so the guarantee rests on a fresh timestamp. */
  lemma UploadNeverOverwrites(cfg: StorageConfig, blobs: map<string, Json>, kycId: string, json: Json,
                              now: nat, faults: UploadFaults)
    requires FallbackName(kycId, now) !in blobs
    requires UploadExtractionJson(cfg, blobs, kycId, json, now, faults).Ok?
    ensures var after := UploadExtractionJson(cfg, blobs, kycId, json, now, faults).value.1;
      forall p :: p in blobs ==> p in after && after[p] == blobs[p]
  {
  }

  /** ... and when the fallback path of this instant is taken, the write replaces it. */
  lemma FallbackWriteIsUnconditional(cfg: StorageConfig, blobs: map<string, Json>, kycId: string, json: Json,
                                     now: nat, faults: UploadFaults)
    requires cfg.accountUrl != "" && !faults.fallbackFails
    requires PrimaryName(kycId) in blobs && FallbackName(kycId, now) in blobs
    ensures var r := UploadExtractionJson(cfg, blobs, kycId, json, now, faults);
      r.Ok? && r.value.1[FallbackName(kycId, now)] == json
  {
  }
}

=== FILE: doc_intel.dfy ===
/** functions/dist/services/documentIntelligence.js: the decision procedure of
    `analyzeDocumentFromUrl` over the replies the service gives. Tokens, requests and
    the one-second sleeps are not modelled; the submit reply and the sequence of
    status-poll replies are inputs. */
module DocIntel {
  import opened Wrappers
  import opened Json
  import opened JsRuntime
  import Text

  datatype DiConfig = DiConfig(endpoint: string, processorId: string, apiVersion: string)

  /** `DOCUMENT_INTELLIGENCE_ENDPOINT || ""`, `..._PROCESSOR_ID || ""`,
      `DI_API_VERSION || "2024-09-30-preview"`. */
  function DiConfigFromEnv(endpoint: Option<string>, processorId: Option<string>, apiVersion: Option<string>): (c: DiConfig)
    ensures c.apiVersion == (if apiVersion.Some? && apiVersion.value != "" then apiVersion.value else "2024-09-30-preview")
    ensures c.endpoint == "" <==> endpoint.None? || endpoint.value == ""
  {
    DiConfig(
      if endpoint.Some? then endpoint.value else "",
      if processorId.Some? then processorId.value else "",
      if apiVersion.Some? && apiVersion.value != "" then apiVersion.value else "2024-09-30-preview")
  }

  datatype DiError =
    | ConfigMissing
    | NoToken
    | SubmitFailed(status: int, text: string)
    | BadBody
    | StatusCheckFailed(status: int)
    | FetchFailed
    | AnalysisFailed
    | TimedOut

  datatype DiOutcome = Done(json: Json) | Error(error: DiError)

  function Message(e: DiError): string {
    match e
    case ConfigMissing => "Document Intelligence configuration missing"
    case NoToken => "Failed to acquire AAD token for Document Intelligence"
    case SubmitFailed(s, t) => "Document Intelligence analyze failed: " + Text.IntToString(s) + " " + t
    case BadBody => "invalid JSON body"
    case StatusCheckFailed(s) => "Status check failed: " + Text.IntToString(s)
    case FetchFailed => "fetch failed"
    case AnalysisFailed => "Document Intelligence analysis failed"
    case TimedOut => "Document Intelligence analysis timed out"
  }

  const MaxPolls: nat := 30

  /** `json.status || json.analyzeResult?.status || json.analysisResult?.status`. */
  function PollStatus(json: Json): (s: Option<Json>)
    ensures Present(Get(json, "status")) ==> s == Get(json, "status")
    ensures !Present(Get(json, "status")) && Present(Nested(json, "analyzeResult")) ==> s == Nested(json, "analyzeResult")
    ensures !Present(Get(json, "status")) && !Present(Nested(json, "analyzeResult")) ==> s == Nested(json, "analysisResult")
  {
    OrElse(Get(json, "status"), OrElse(Nested(json, "analyzeResult"), Nested(json, "analysisResult")))
  }

  /** `json[key]?.status`: undefined when the member is missing or null. */
  function Nested(json: Json, key: string): Option<Json> {
    match Get(json, key)
    case None => None
    case Some(JNull) => None
    case Some(v) => Get(v, "status")
  }

  predicate IsSucceeded(s: Option<Json>) {
    s == Some(JStr("succeeded")) || s == Some(JStr("succeededWithDocumentErrors"))
  }

  /** What one poll reply does to the loop: keep polling, or stop with an outcome. */
  datatype Step = Continue | Stop(outcome: DiOutcome)

  /** One iteration of the loop on the reply it fetched. */
  function PollStep(rep: HttpReply): (s: Step)
    ensures s.Stop? ==> s.outcome != Error(TimedOut) && s.outcome != Error(FetchFailed)
    ensures s.Stop? && s.outcome.Done? ==> rep.ok && rep.body == Some(s.outcome.json)
    ensures !rep.ok ==> s == Stop(Error(StatusCheckFailed(rep.status)))
  {
    if !rep.ok then Stop(Error(StatusCheckFailed(rep.status)))
    else if rep.body.None? then Stop(Error(BadBody))
    // `json.status` on a null body throws
    else if rep.body.value.JNull? then Stop(Error(BadBody))
    else
      var st := PollStatus(rep.body.value);
      if IsSucceeded(st) then Stop(Done(rep.body.value))
      else if st == Some(JStr("failed")) then Stop(Error(AnalysisFailed))
      else Continue
  }

  /** A reply that neither ends nor breaks the loop: OK, a non-null JSON body whose
      status is neither a success nor "failed". */
  predicate Pending(r: HttpReply) {
    PollStep(r).Continue?
  }

  lemma PendingMeans(r: HttpReply)
    ensures Pending(r) <==>
      && r.ok && r.body.Some? && !r.body.value.JNull?
      && !IsSucceeded(PollStatus(r.body.value))
      && PollStatus(r.body.value) != Some(JStr("failed"))
  {
  }

  /** A reply that ends the loop with its body. */
  predicate Succeeds(r: HttpReply) {
    PollStep(r).Stop? && PollStep(r).outcome.Done?
  }

  lemma SucceedsMeans(r: HttpReply)
    ensures Succeeds(r) <==> r.ok && r.body.Some? && !r.body.value.JNull? && IsSucceeded(PollStatus(r.body.value))
  {
  }

  /** The polling loop from iteration `i`: each iteration consumes the next reply;
      fewer replies than iterations means the fetch itself rejected. */
  function Poll(replies: seq<HttpReply>, i: nat): (r: DiOutcome)
    requires i <= MaxPolls
    ensures r.Done? ==> exists k :: i <= k < MaxPolls && k < |replies| && Succeeds(replies[k]) && replies[k].body == Some(r.json)
    decreases MaxPolls - i
  {
    if i == MaxPolls then Error(TimedOut)
    else if i >= |replies| then Error(FetchFailed)
    else
      match PollStep(replies[i])
      case Continue => Poll(replies, i + 1)
      case Stop(o) => o
  }

  predicate AllPending(replies: seq<HttpReply>, i: nat, k: nat) {
    forall j :: i <= j < k && j < |replies| ==> Pending(replies[j])
  }

  /** The loop stops at the first reply within the first 30 that is not pending: it
      succeeds exactly when that reply succeeds, and returns that reply's body. */
  lemma {:induction false} PollSucceedsIff(replies: seq<HttpReply>, i: nat, k: nat)
    requires i <= k < MaxPolls && k < |replies|
    requires AllPending(replies, i, k) && !Pending(replies[k])
    ensures Poll(replies, i).Done? <==> Succeeds(replies[k])
    ensures Succeeds(replies[k]) ==> Poll(replies, i) == Done(replies[k].body.value)
    decreases k - i
  {
    if i < k {
      assert Pending(replies[i]);
      PollSucceedsIff(replies, i + 1, k);
    }
  }

  /** Thirty pending replies in a row end in a timeout, and a timeout happens only
      then. */
  lemma {:induction false} PollTimesOutIff(replies: seq<HttpReply>, i: nat)
    requires i <= MaxPolls
    ensures Poll(replies, i) == Error(TimedOut) <==> (i == MaxPolls || MaxPolls <= |replies|) && AllPending(replies, i, MaxPolls)
    decreases MaxPolls - i
  {
    if i < MaxPolls {
      PollTimesOutIff(replies, i + 1);
      if i < |replies| {
        if Pending(replies[i]) {
          assert AllPending(replies, i, MaxPolls) <==> AllPending(replies, i + 1, MaxPolls);
        } else {
          assert !AllPending(replies, i, MaxPolls);
        }
      }
    }
  }

  /** At most 30 status polls are made: replies past the thirtieth are never looked at. */
  lemma {:induction false} PollReadsAtMost30(a: seq<HttpReply>, b: seq<HttpReply>, i: nat)
    requires i <= MaxPolls
    requires |a| >= MaxPolls && |b| >= MaxPolls
    requires forall j :: i <= j < MaxPolls ==> a[j] == b[j]
    ensures Poll(a, i) == Poll(b, i)
    decreases MaxPolls - i
  {
    if i < MaxPolls {
      PollReadsAtMost30(a, b, i + 1);
    }
  }

  /** A header value that `||` treats as present. */
  predicate HasLocation(r: HttpReply) {
    r.operationLocation.Some? && r.operationLocation.value != ""
  }

  /** `analyzeDocumentFromUrl`: configuration check, token, submit, then either the
      submit body (no operation location) or the polling loop. */
  function AnalyzeDocumentFromUrl(cfg: DiConfig, tokenOk: bool, submit: HttpReply, polls: seq<HttpReply>): (r: DiOutcome)
    ensures cfg.endpoint == "" || cfg.processorId == "" ==> r == Error(ConfigMissing)
    ensures cfg.endpoint != "" && cfg.processorId != "" && tokenOk && !submit.ok ==>
      r == Error(SubmitFailed(submit.status, submit.text))
    ensures r.Done? ==> tokenOk && submit.ok
    ensures r.Done? && !HasLocation(submit) ==> submit.body == Some(r.json)
    ensures HasLocation(submit) && cfg.endpoint != "" && cfg.processorId != "" && tokenOk && submit.ok ==>
      r == Poll(polls, 0)
  {
    if cfg.endpoint == "" || cfg.processorId == "" then Error(ConfigMissing)
    else if !tokenOk then Error(NoToken)
    else if !submit.ok then Error(SubmitFailed(submit.status, submit.text))
    else if !HasLocation(submit) then
      (if submit.body.Some? then Done(submit.body.value) else Error(BadBody))
    else Poll(polls, 0)
  }

  /** Without an operation location the poll replies are irrelevant. */
  lemma DirectReplyIgnoresPolls(cfg: DiConfig, tokenOk: bool, submit: HttpReply, a: seq<HttpReply>, b: seq<HttpReply>)
    requires !HasLocation(submit)
    ensures AnalyzeDocumentFromUrl(cfg, tokenOk, submit, a) == AnalyzeDocumentFromUrl(cfg, tokenOk, submit, b)
  {
  }

  /** `${endpoint}/formrecognizer/documentModels/${processorId}:analyze?api-version=${apiVersion}`. */
  function AnalyzeUrl(cfg: DiConfig): string {
    cfg.endpoint + "/formrecognizer/documentModels/" + cfg.processorId + ":analyze?api-version=" + cfg.apiVersion
  }
}

=== FILE: form_flow.dfy ===
/** context/FormFlowContext.tsx: the wizard's three form slices (lead, applicant,
    application), each a plain object updated by a shallow merge, and `reset`. */
module FormFlow {
  import opened Wrappers
  import opened Json
  import Text

  /** The own enumerable properties `{ ...v }` copies: an object's members, an
      array's or a string's indexed elements, nothing for any other value. */
  function OwnMembers(v: Json): (ms: seq<Member>)
    ensures v.JObj? ==> ms == v.members
    ensures v.JArr? ==> |ms| == |v.items| && forall i :: 0 <= i < |ms| ==> ms[i] == Member(Text.NatToString(i), v.items[i])
    ensures !v.JObj? && !v.JArr? && !v.JStr? ==> ms == []
  {
    match v
    case JObj(ms) => ms
    case JArr(items) => seq(|items|, i requires 0 <= i < |items| => Member(Text.NatToString(i), items[i]))
    case JStr(s) => seq(|s|, i requires 0 <= i < |s| => Member(Text.NatToString(i), JStr([s[i]])))
    case _ => []
  }

  /** `{ ...base, ...patch }`. The patch members are kept in front, so that every
      property read answers the patch's value when the patch has the key and the
      base's otherwise; only the enumeration order of the keys differs from the
      runtime's object. */
  function Spread(base: Json, patch: seq<Member>): (r: Json)
    ensures r.JObj?
    ensures forall key :: Get(r, key) == if Lookup(patch, key).Some? then Lookup(patch, key) else Lookup(OwnMembers(base), key)
  {
    var r := JObj(patch + OwnMembers(base));
    forall key ensures Get(r, key) == if Lookup(patch, key).Some? then Lookup(patch, key) else Lookup(OwnMembers(base), key) {
      LookupConcat(patch, OwnMembers(base), key);
    }
    r
  }

  /** A patch literal `{ k1: v1, ... }`. */
  function Patch(pairs: seq<(string, Json)>): seq<Member> {
    Obj(pairs).members
  }

  /** Two merges in a row read like one merge whose later patch wins. */
  lemma SpreadTwice(base: Json, p: seq<Member>, q: seq<Member>, key: string)
    requires base.JObj?
    ensures Get(Spread(Spread(base, p), q), key) == Get(Spread(base, q + p), key)
  {
    LookupConcat(q, p, key);
  }

  /** Merging the same patch twice reads like merging it once. */
  lemma SpreadIdempotent(base: Json, p: seq<Member>, key: string)
    requires base.JObj?
    ensures Get(Spread(Spread(base, p), p), key) == Get(Spread(base, p), key)
  {
  }

  /** The three slices. */
  datatype FlowState = FlowState(lead: Json, applicant: Json, application: Json)

  /** No property of the value is defined. */
  ghost predicate Blank(v: Json) {
    forall key :: Get(v, key).None?
  }

  /** The provider's initial state: three empty objects. */
  const Initial := FlowState(JObj([]), JObj([]), JObj([]))

  lemma InitialIsBlank()
    ensures Blank(Initial.lead) && Blank(Initial.applicant) && Blank(Initial.application)
  {
  }

  /** `updateLead(patch)`: the lead takes the patch's keys and keeps its others; the
      other slices are untouched. */
  function UpdateLead(s: FlowState, patch: seq<Member>): (r: FlowState)
    requires s.lead.JObj?
    ensures r.applicant == s.applicant && r.application == s.application && r.lead.JObj?
    ensures forall key :: Lookup(patch, key).Some? ==> Get(r.lead, key) == Lookup(patch, key)
    ensures forall key :: Lookup(patch, key).None? ==> Get(r.lead, key) == Get(s.lead, key)
  {
    s.(lead := Spread(s.lead, patch))
  }

  /** `updateApplicant(patch)`, the same merge on the applicant slice. */
  function UpdateApplicant(s: FlowState, patch: seq<Member>): (r: FlowState)
    requires s.applicant.JObj?
    ensures r.lead == s.lead && r.application == s.application && r.applicant.JObj?
    ensures forall key :: Lookup(patch, key).Some? ==> Get(r.applicant, key) == Lookup(patch, key)
    ensures forall key :: Lookup(patch, key).None? ==> Get(r.applicant, key) == Get(s.applicant, key)
  {
    s.(applicant := Spread(s.applicant, patch))
  }

  /** `updateApplication(patch)`, the same merge on the application slice. */
  function UpdateApplication(s: FlowState, patch: seq<Member>): (r: FlowState)
    requires s.application.JObj?
    ensures r.lead == s.lead && r.applicant == s.applicant && r.application.JObj?
    ensures forall key :: Lookup(patch, key).Some? ==> Get(r.application, key) == Lookup(patch, key)
    ensures forall key :: Lookup(patch, key).None? ==> Get(r.application, key) == Get(s.application, key)
  {
    s.(application := Spread(s.application, patch))
  }

  /** `reset()`: every slice is empty again, whatever was entered. */
  function Reset(s: FlowState): (r: FlowState)
    ensures Blank(r.lead) && Blank(r.applicant) && Blank(r.application)
    ensures r.lead.JObj? && r.applicant.JObj? && r.application.JObj?
  {
    Initial
  }

  /** All three slices are objects, as the provider keeps them. */
  predicate WellFormed(s: FlowState) {
    s.lead.JObj? && s.applicant.JObj? && s.application.JObj?
  }

  /** The updates and `reset` keep the slices objects. */
  lemma UpdatesKeepWellFormed(s: FlowState, patch: seq<Member>)
    requires WellFormed(s)
    ensures WellFormed(UpdateLead(s, patch)) && WellFormed(UpdateApplicant(s, patch))
    ensures WellFormed(UpdateApplication(s, patch)) && WellFormed(Reset(s))
  {
  }

  const OutsideProvider := "useFormFlow must be used within FormFlowProvider"

  /** `useFormFlow()`: the provider's state, or an error when there is none. */
  function UseFormFlow(provided: Option<FlowState>): (r: Result<FlowState>)
    ensures provided.None? <==> r == Err(OutsideProvider)
    ensures provided.Some? ==> r == Ok(provided.value)
  {
    if provided.None? then Err(OutsideProvider) else Ok(provided.value)
  }
}

=== FILE: http.dfy ===
/** What every HTTP handler shares: the reply (status code, JSON body, and the store
    as the handler leaves it), the error body, `req.body || {}`, and the best-effort
    "update the status, then write the ledger row" step. */
module Http {
  import opened Wrappers
  import opened Json
  import opened JsRuntime
  import opened KycTypes
  import opened SqlStore
  import Ledger

  datatype Reply = Reply(code: int, body: Json, store: Store)

  /** `{ error: message }`. */
  function ErrorBody(message: string): (b: Json)
    ensures Get(b, "error") == Some(JStr(message))
  {
    var b := Obj([("error", JStr(message))]);
    assert b.members[0] == Member("error", JStr(message));
    b
  }

  const MethodNotAllowed := "Method not allowed"

  /** `req.body || {}`: the request body, defaulted as `Json.OrEmpty` does. */
  function BodyOf(body: Option<Json>): (b: Json)
    ensures Present(body) ==> b == body.value
    ensures !Present(body) ==> b == JObj([]) && Get(b, "anything").None?
  {
    OrEmpty(body)
  }

  /** `try { await updateKycRequest(id, partial); await recordStateTransition(id, from,
      to, actor, reason) } catch { }`: a failing update skips the ledger row, a failing
      ledger write keeps the update, and neither reaches the caller. */
  function MarkAndRecord(env: Env, st: Store, id: string, partial: CaseData, from: Option<string>, to: string,
                         actor: Option<string>, reason: Option<string>, now: nat, uuid: string,
                         updateFails: bool, ledgerFails: bool): (r: Store)
    ensures updateFails ==> r == st
    ensures !updateFails ==> r.cases == UpdateKycRequest(st, id, partial, env).cases
    ensures r.transitions == st.transitions ||
            (!updateFails && !ledgerFails && r.transitions == st.transitions + [TransitionRow(id, from, to, actor, reason, now, uuid)])
    ensures !updateFails && !ledgerFails ==> |r.transitions| == |st.transitions| + 1
    ensures r == st.(cases := r.cases, transitions := r.transitions) && |r.cases| == |st.cases|
  {
    if updateFails then st
    else
      var updated := UpdateKycRequest(st, id, partial, env);
      if ledgerFails then updated
      else RecordStateTransition(updated, id, from, to, actor, reason, now, uuid)
  }

  /** On an existing case, the step without faults sets the status and records it as
      the case's latest ledger state, so status and ledger agree afterwards. */
  lemma MarkAndRecordAdvances(env: Env, st: Store, id: string, partial: CaseData, from: Option<string>, to: string,
                              actor: Option<string>, reason: Option<string>, now: nat, uuid: string)
    requires HasCase(st, id) && partial.status == Some(to) && to != ""
    ensures var r := MarkAndRecord(env, st, id, partial, from, to, actor, reason, now, uuid, false, false);
      && CaseStatus(r, id) == Some(to)
      && Ledger.LastToState(r.transitions, id) == Some(to)
      && Ledger.Consistent(r, id)
  {
    var u := UpdateKycRequest(st, id, partial, env);
    SameIdsSameFind(st.cases, u.cases, id);
    Ledger.LastToStateAppend(st.transitions, TransitionRow(id, from, to, actor, reason, now, uuid), id);
  }

  /** On an id with no case, the step without faults changes no case but still
      appends its ledger row: the ledger then speaks of a case that does not exist. */
  lemma MarkAndRecordOnUnknownCase(env: Env, st: Store, id: string, partial: CaseData, from: Option<string>, to: string,
                                   actor: Option<string>, reason: Option<string>, now: nat, uuid: string)
    requires !HasCase(st, id)
    ensures var r := MarkAndRecord(env, st, id, partial, from, to, actor, reason, now, uuid, false, false);
      && r.cases == st.cases
      && !HasCase(r, id)
      && Ledger.LastToState(r.transitions, id) == Some(to)
  {
    Ledger.LastToStateAppend(st.transitions, TransitionRow(id, from, to, actor, reason, now, uuid), id);
  }

  /** Rewriting rows without changing their keys does not move a case. */
  lemma {:induction false} SameIdsSameFind(a: seq<CaseRow>, b: seq<CaseRow>, id: string)
    requires |a| == |b| && forall i :: 0 <= i < |a| ==> a[i].id == b[i].id
    ensures FindCase(a, id) == FindCase(b, id)
  {
    if |a| > 0 && a[0].id != id {
      SameIdsSameFind(a[1..], b[1..], id);
    }
  }
}

=== FILE: ingest.dfy ===
/** functions/dist/kyc-upload/index.js: marks the case DOCUMENT_UPLOADED, runs the
    document through the extraction service, keeps an audit copy of the result in
    blob storage, records the extraction and marks the case EXTRACTED. The service
    replies, the faults of each write, the clock and the ledger row ids are inputs. */
module Ingest {
  import opened Wrappers
  import opened Json
  import opened JsRuntime
  import opened KycTypes
  import opened SqlStore
  import opened BlobStorage
  import opened DocIntel
  import opened Http
  import Ledger

  const IngestRequired := "kycId and blobUrl or blobName are required"
  const ExtractionInsertFailed := "extraction insert failed"

  /** What the extraction service answers: whether a token was obtained, the submit
      reply, and the status-poll replies in order. */
  datatype DiReplies = DiReplies(tokenOk: bool, submit: HttpReply, polls: seq<HttpReply>)

  /** Injected failures of the writes, in the order the handler makes them. */
  datatype IngestFaults = IngestFaults(
    markUploaded: bool,
    ledgerUploaded: bool,
    upload: UploadFaults,
    extractionInsert: bool,
    markExtracted: bool,
    ledgerExtracted: bool)

  const NoFaults := IngestFaults(false, false, UploadFaults(false, false), false, false, false)

  /** `!kycId || (!blobUrl && !blobName)`. */
  predicate MissingInput(b: Json) {
    !Present(Get(b, "kycId")) || (!Present(Get(b, "blobUrl")) && !Present(Get(b, "blobName")))
  }

  /** The URL handed to the extraction service: the caller's `blobUrl` when given,
      otherwise a one-hour read grant on `blobName`. */
  function DocumentUrl(env: Env, cfg: StorageConfig, b: Json, now: nat, sign: SasGrant -> Option<string>): (r: Result<string>)
    requires !MissingInput(b)
    ensures Present(Get(b, "blobUrl")) ==> r == Ok(Str(env, Get(b, "blobUrl").value))
    ensures !Present(Get(b, "blobUrl")) ==>
      var sas := ReadSas(cfg, Str(env, Get(b, "blobName").value), now, sign);
      && (r.Ok? <==> sas.Ok?)
      && (r.Ok? ==> r.value == sas.value.0 && sas.value.1.permissions == "r")
  {
    if Present(Get(b, "blobUrl")) then Ok(Str(env, Get(b, "blobUrl").value))
    else
      var (url, _) :- ReadSas(cfg, Str(env, Get(b, "blobName").value), now, sign);
      Ok(url)
  }

  /** `analysis?.documentType || "unknown"`. */
  function DocumentTypeOf(analysis: Json): (t: Json)
    ensures Truthy(t)
    ensures !analysis.JNull? && Present(Get(analysis, "documentType")) ==> t == Get(analysis, "documentType").value
    ensures analysis.JNull? || !Present(Get(analysis, "documentType")) ==> t == JStr("unknown")
  {
    if analysis.JNull? then JStr("unknown")
    else OrElse(Get(analysis, "documentType"), Some(JStr("unknown"))).value
  }

  function IngestBody(extractionBlobUrl: string, kycId: Json): (b: Json)
    ensures Get(b, "extractionBlobUrl") == Some(JStr(extractionBlobUrl))
  {
    var pairs := [("message", JStr("Document analyzed and stored")), ("extractionBlobUrl", JStr(extractionBlobUrl)),
                  ("kycId", kycId)];
    ObjGetAt(pairs, 1);
    Obj(pairs)
  }

  /** An extraction row whose audit copy is in the container: its `blobPath` is the
      URL of a blob holding exactly the raw result the row records. */
  predicate AuditCopyHeld(cfg: StorageConfig, st: Store, e: Extraction) {
    && e.extractedAt >= 0
    && exists name ::
         && (name == PrimaryName(e.kycId) || name == FallbackName(e.kycId, e.extractedAt as nat))
         && e.blobPath == Some(BlobUrl(cfg.accountUrl, cfg.extractionsContainer, name))
         && name in st.blobs && st.blobs[name] == e.rawDocumentJson
  }

  /** From the extraction result on: the audit copy, the extraction row, the
      EXTRACTED mark. */
  function StoreExtraction(env: Env, cfg: StorageConfig, st: Store, kycIdJson: Json, analysis: Json, now: nat,
                           uuid: string, faults: IngestFaults): (r: Reply)
    ensures r.code == 200 || r.code == 500
    ensures AuditGrows(st, r.store) && Ledger.GrowsByValidEdges(st.transitions, r.store.transitions)
    ensures r.code == 200 ==>
      && |r.store.extractions| == |st.extractions| + 1
      && var e := r.store.extractions[|st.extractions|];
         && e == Extraction(None, Str(env, kycIdJson), analysis, DocumentTypeOf(analysis), now, e.blobPath)
         && AuditCopyHeld(cfg, r.store, e)
         && Get(r.body, "extractionBlobUrl") == Some(JStr(e.blobPath.value))
    ensures r.code == 200 <==> !faults.extractionInsert && UploadExtractionJson(cfg, st.blobs, Str(env, kycIdJson), analysis, now, faults.upload).Ok?
    ensures r.code == 500 ==> r.store.extractions == st.extractions && r.store.transitions == st.transitions
  {
    var kycId := Str(env, kycIdJson);
    match UploadExtractionJson(cfg, st.blobs, kycId, analysis, now, faults.upload)
    case Err(m) => Reply(500, ErrorBody(m), st)
    case Ok((url, blobs)) =>
      var st2 := st.(blobs := blobs);
      if faults.extractionInsert then Reply(500, ErrorBody(ExtractionInsertFailed), st2)
      else
        var rec := Extraction(None, kycId, analysis, DocumentTypeOf(analysis), now, Some(url));
        var st3 := CreateExtractionRecord(st2, rec);
        assert AuditCopyHeld(cfg, st3, rec);
        var st4 := MarkAndRecord(env, st3, kycId, NoKeys.(status := Some("EXTRACTED")), Some("DOCUMENT_UPLOADED"),
                                 "EXTRACTED", None, None, now, uuid, faults.markExtracted, faults.ledgerExtracted);
        assert st4.extractions == st3.extractions && st4.blobs == st3.blobs;
        Reply(200, IngestBody(url, kycIdJson), st4)
  }

  /** From a usable document URL on: the DOCUMENT_UPLOADED mark, the extraction
      service, then `StoreExtraction`. */
  function MarkAndExtract(env: Env, storage: StorageConfig, diCfg: DiConfig, st: Store, kycIdJson: Json, now: nat,
                          uuid1: string, uuid2: string, di: DiReplies, faults: IngestFaults): (r: Reply)
    ensures r.code == 200 || r.code == 500
    ensures AuditGrows(st, r.store) && Ledger.GrowsByValidEdges(st.transitions, r.store.transitions)
    ensures r.code == 200 ==>
      && AnalyzeDocumentFromUrl(diCfg, di.tokenOk, di.submit, di.polls).Done?
      && |r.store.extractions| == |st.extractions| + 1
      && var e := r.store.extractions[|st.extractions|];
         && e.kycId == Str(env, kycIdJson)
         && e.rawDocumentJson == AnalyzeDocumentFromUrl(diCfg, di.tokenOk, di.submit, di.polls).json
         && AuditCopyHeld(storage, r.store, e)
    ensures r.code == 500 ==> r.store.extractions == st.extractions
  {
    var kycId := Str(env, kycIdJson);
    var st1 := MarkAndRecord(env, st, kycId, NoKeys.(status := Some("DOCUMENT_UPLOADED")), Some("CREATED"),
                             "DOCUMENT_UPLOADED", None, None, now, uuid1, faults.markUploaded, faults.ledgerUploaded);
    assert st1.extractions == st.extractions && st1.blobs == st.blobs;
    assert AuditGrows(st, st1) && Ledger.GrowsByValidEdges(st.transitions, st1.transitions);
    match AnalyzeDocumentFromUrl(diCfg, di.tokenOk, di.submit, di.polls)
    case Error(e) => Reply(500, ErrorBody(Message(e)), st1)
    case Done(analysis) =>
      var r := StoreExtraction(env, storage, st1, kycIdJson, analysis, now, uuid2, faults);
      AuditGrowsTransitive(st, st1, r.store);
      Ledger.GrowsByValidEdgesTransitive(st.transitions, st1.transitions, r.store.transitions);
      r
  }

  /** `POST /api/kyc/upload-document`. */
  function UploadDocument(env: Env, storage: StorageConfig, diCfg: DiConfig, httpMethod: string, body: Option<Json>,
                          st: Store, now: nat, uuid1: string, uuid2: string, di: DiReplies, faults: IngestFaults,
                          sign: SasGrant -> Option<string>): (r: Reply)
    ensures httpMethod != "POST" ==> r == Reply(405, ErrorBody(MethodNotAllowed), st)
    ensures httpMethod == "POST" && MissingInput(BodyOf(body)) ==> r == Reply(400, ErrorBody(IngestRequired), st)
    ensures httpMethod == "POST" && !MissingInput(BodyOf(body)) ==>
      && (DocumentUrl(env, storage, BodyOf(body), now, sign).Err? ==> r.code == 500 && r.store == st)
      && (DocumentUrl(env, storage, BodyOf(body), now, sign).Ok? ==>
            r == MarkAndExtract(env, storage, diCfg, st, Get(BodyOf(body), "kycId").value, now, uuid1, uuid2, di, faults))
    ensures r.code == 200 || r.code == 400 || r.code == 405 || r.code == 500
    ensures AuditGrows(st, r.store) && Ledger.GrowsByValidEdges(st.transitions, r.store.transitions)
  {
    if httpMethod != "POST" then Reply(405, ErrorBody(MethodNotAllowed), st)
    else
      var b := BodyOf(body);
      if MissingInput(b) then Reply(400, ErrorBody(IngestRequired), st)
      else
        match DocumentUrl(env, storage, b, now, sign)
        case Err(m) => Reply(500, ErrorBody(m), st)
        case Ok(_) => MarkAndExtract(env, storage, diCfg, st, Get(b, "kycId").value, now, uuid1, uuid2, di, faults)
  }
}

=== FILE: intake.dfy ===
/** functions/dist/kyc-start/index.js: validates the applicant's details, records a
    CREATED case best-effort, and hands out a write-only upload URL for the document.
    The case id, the ledger row id, the clock and the delegation-key signer are
    inputs. */
module Intake {
  import opened Wrappers
  import opened Json
  import opened JsRuntime
  import opened KycTypes
  import opened SqlStore
  import opened BlobStorage
  import opened Http
  import Ledger
  import Text

  const UserIdRequired := "userId is required"
  const FullNameRequired := "fullName is required"
  const DobRequired := "dob is required and must be a valid date (YYYY-MM-DD)"
  const UploadUrlFailed := "failed to create upload URL"

  /** Seconds the upload URL stays valid. */
  const ExpiresIn: nat := 900

  /** `body.userId || req.headers["x-user-id"] || null`. */
  function UserIdOf(b: Json, header: Option<string>): (u: Option<Json>)
    ensures Present(Get(b, "userId")) ==> u == Get(b, "userId")
    ensures !Present(Get(b, "userId")) && header.Some? ==> u == Some(JStr(header.value))
  {
    OrElse(Get(b, "userId"), if header.Some? then Some(JStr(header.value)) else None)
  }

  /** The request has no user exactly when neither the body's `userId` nor the
      header is truthy; those are the requests refused with "userId is required". */
  lemma UserIdMissingIff(b: Json, header: Option<string>)
    ensures !Present(UserIdOf(b, header)) <==> !Present(Get(b, "userId")) && (header.None? || header.value == "")
  {
  }

  /** The full name is a string with something other than white space in it. */
  predicate NameOk(b: Json) {
    var n := Get(b, "fullName");
    n.Some? && n.value.JStr? && Text.Trim(n.value.s) != ""
  }

  /** The date of birth is truthy and `new Date(dob)` is a valid time. */
  predicate DobOk(env: Env, b: Json) {
    Present(Get(b, "dob")) && DateOf(env, Get(b, "dob").value).Some?
  }

  /** The accepted request: who, the trimmed name, the raw date of birth, the id type. */
  datatype StartInput = StartInput(userId: Json, fullName: string, dob: Json, idType: Json)

  /** The three checks, in the order the handler makes them. */
  function ValidateStart(env: Env, b: Json, header: Option<string>): (r: Result<StartInput>)
    ensures !Present(UserIdOf(b, header)) ==> r == Err(UserIdRequired)
    ensures Present(UserIdOf(b, header)) && !NameOk(b) ==> r == Err(FullNameRequired)
    ensures Present(UserIdOf(b, header)) && NameOk(b) && !DobOk(env, b) ==> r == Err(DobRequired)
    ensures r.Ok? <==> Present(UserIdOf(b, header)) && NameOk(b) && DobOk(env, b)
    ensures r.Ok? ==>
      && r.value.userId == UserIdOf(b, header).value
      && r.value.fullName == Text.Trim(Get(b, "fullName").value.s) && r.value.fullName != ""
      && r.value.dob == Get(b, "dob").value
      && r.value.idType == (if Present(Get(b, "idType")) then Get(b, "idType").value else JStr("passport"))
  {
    var userId := UserIdOf(b, header);
    if !Present(userId) then Err(UserIdRequired)
    else if !NameOk(b) then Err(FullNameRequired)
    else if !DobOk(env, b) then Err(DobRequired)
    else
      Ok(StartInput(userId.value, Text.Trim(Get(b, "fullName").value.s), Get(b, "dob").value,
                    OrElse(Get(b, "idType"), Some(JStr("passport"))).value))
  }

  /** The case object `{ id: kycId, kycId, userId, fullName, dob, idType, status:
      "CREATED", riskLevel: "LOW", createdAt }`; non-string values are stored as their
      string form. */
  function CaseItem(env: Env, kycId: string, input: StartInput, now: int): CaseData {
    CaseData(Some(kycId), Some(kycId), Some(Str(env, input.userId)), Some(input.fullName),
             Some(Str(env, input.dob)), Some(Str(env, input.idType)), Some("CREATED"), Some("LOW"), Some(now))
  }

  /** Injected failures of the case INSERT and of the ledger write. */
  datatype StartFaults = StartFaults(insertFails: bool, ledgerFails: bool)

  /** The best-effort persistence: the case, then the null-to-CREATED ledger row with
      the applicant as actor. A failing INSERT skips the ledger row; neither failure
      is reported. */
  function Persist(env: Env, st: Store, kycId: string, input: StartInput, now: nat, ledgerUuid: string,
                   faults: StartFaults): (r: Store)
    ensures var inserted := !faults.insertFails && kycId != "" && !HasCase(st, kycId);
      && (!inserted ==> r == st)
      && (inserted ==>
            && |r.cases| == |st.cases| + 1 && r.cases[..|st.cases|] == st.cases
            && r.cases[|st.cases|].id == kycId && r.cases[|st.cases|].status == "CREATED"
            && r.cases[|st.cases|].data == CaseItem(env, kycId, input, now))
      && (inserted && !faults.ledgerFails ==>
            r.transitions == st.transitions + [TransitionRow(kycId, None, "CREATED", Some(Str(env, input.userId)), None, now, ledgerUuid)])
      && (faults.ledgerFails ==> r.transitions == st.transitions)
    ensures r == st.(cases := r.cases, transitions := r.transitions)
    ensures AuditGrows(st, r) && Ledger.GrowsByValidEdges(st.transitions, r.transitions)
  {
    var item := CaseItem(env, kycId, input, now);
    assert CaseKey(item) == (if kycId != "" then Some(kycId) else None);
    match CreateKycRequest(st, item, now, env, faults.insertFails)
    case None => st
    case Some(s) =>
      if faults.ledgerFails then s
      else RecordStateTransition(s, kycId, None, "CREATED", Some(Str(env, input.userId)), None, now, ledgerUuid)
  }

  /** `<kycId>/document-<now>.jpg`. */
  function UploadBlobName(kycId: string, now: nat): string {
    kycId + "/document-" + Text.NatToString(now) + ".jpg"
  }

  /** The create-and-write grant on the upload blob, valid for 15 minutes. */
  function UploadSas(cfg: StorageConfig, kycId: string, now: nat, sign: SasGrant -> Option<string>): (r: Result<(string, SasGrant)>)
    ensures r.Ok? ==> r.value.1 == SasGrant(cfg.container, UploadBlobName(kycId, now), "cw", now, now + ExpiresIn * 1000)
    ensures r.Ok? ==> Text.StartsWith(r.value.0, BlobUrl(cfg.accountUrl, cfg.container, UploadBlobName(kycId, now)) + "?")
    ensures r.Err? <==> (cfg.accountUrl == "" ||
                         sign(SasGrant(cfg.container, UploadBlobName(kycId, now), "cw", now, now + ExpiresIn * 1000)).None?)
  {
    GenerateUserDelegationSas(cfg, UploadBlobName(kycId, now), "cw", 15, now, sign)
  }

  function StartBody(kycId: string, uploadUrl: string): (b: Json)
    ensures Get(b, "kycId") == Some(JStr(kycId))
    ensures Get(b, "uploadUrl") == Some(JStr(uploadUrl))
    ensures Get(b, "expiresIn") == Some(JNum(ExpiresIn as real))
  {
    var pairs := [("kycId", JStr(kycId)), ("uploadUrl", JStr(uploadUrl)), ("expiresIn", JNum(ExpiresIn as real)),
                  ("message", JStr("Upload URL (user-delegation SAS, 15m)"))];
    ObjGetAt(pairs, 0);
    ObjGetAt(pairs, 1);
    ObjGetAt(pairs, 2);
    Obj(pairs)
  }

  /** `POST /api/kyc/start`. */
  function StartKyc(env: Env, cfg: StorageConfig, httpMethod: string, body: Option<Json>, userHeader: Option<string>,
                    st: Store, now: nat, kycId: string, ledgerUuid: string, faults: StartFaults,
                    sign: SasGrant -> Option<string>): (r: Reply)
    ensures httpMethod != "POST" ==> r == Reply(405, ErrorBody(MethodNotAllowed), st)
    ensures httpMethod == "POST" && ValidateStart(env, BodyOf(body), userHeader).Err? ==>
      r == Reply(400, ErrorBody(ValidateStart(env, BodyOf(body), userHeader).message), st)
    ensures r.code == 200 || r.code == 400 || r.code == 405 || r.code == 500
    ensures r.code == 500 ==> UploadSas(cfg, kycId, now, sign).Err? && Get(r.body, "error") == Some(JStr(UploadUrlFailed))
    ensures r.code == 200 ==>
      && UploadSas(cfg, kycId, now, sign).Ok?
      && Get(r.body, "uploadUrl") == Some(JStr(UploadSas(cfg, kycId, now, sign).value.0))
      && Get(r.body, "kycId") == Some(JStr(kycId))
    ensures httpMethod == "POST" && ValidateStart(env, BodyOf(body), userHeader).Ok? ==>
      && r.store == Persist(env, st, kycId, ValidateStart(env, BodyOf(body), userHeader).value, now, ledgerUuid, faults)
      && (r.code == 200 <==> UploadSas(cfg, kycId, now, sign).Ok?)
    ensures AuditGrows(st, r.store) && Ledger.GrowsByValidEdges(st.transitions, r.store.transitions)
  {
    if httpMethod != "POST" then Reply(405, ErrorBody(MethodNotAllowed), st)
    else
      match ValidateStart(env, BodyOf(body), userHeader)
      case Err(m) => Reply(400, ErrorBody(m), st)
      case Ok(input) =>
        var st1 := Persist(env, st, kycId, input, now, ledgerUuid, faults);
        match UploadSas(cfg, kycId, now, sign)
        case Err(_) => Reply(500, ErrorBody(UploadUrlFailed), st1)
        case Ok((url, _)) => Reply(200, StartBody(kycId, url), st1)
  }

  /** Persistence is best-effort: whether the case or its ledger row is written has
      no bearing on the reply. */
  lemma PersistenceNeverFailsTheRequest(env: Env, cfg: StorageConfig, body: Option<Json>, userHeader: Option<string>,
                                        st: Store, now: nat, kycId: string, ledgerUuid: string,
                                        f1: StartFaults, f2: StartFaults, sign: SasGrant -> Option<string>)
    ensures StartKyc(env, cfg, "POST", body, userHeader, st, now, kycId, ledgerUuid, f1, sign).code ==
            StartKyc(env, cfg, "POST", body, userHeader, st, now, kycId, ledgerUuid, f2, sign).code
    ensures StartKyc(env, cfg, "POST", body, userHeader, st, now, kycId, ledgerUuid, f1, sign).body ==
            StartKyc(env, cfg, "POST", body, userHeader, st, now, kycId, ledgerUuid, f2, sign).body
  {
  }

  /** Without faults and with a fresh id, the new case is CREATED and its ledger agrees. */
  lemma StartRecordsCreated(env: Env, cfg: StorageConfig, body: Option<Json>, userHeader: Option<string>,
                            st: Store, now: nat, kycId: string, ledgerUuid: string, sign: SasGrant -> Option<string>)
    requires ValidateStart(env, BodyOf(body), userHeader).Ok?
    requires kycId != "" && !HasCase(st, kycId)
    ensures var r := StartKyc(env, cfg, "POST", body, userHeader, st, now, kycId, ledgerUuid, StartFaults(false, false), sign);
      && CaseStatus(r.store, kycId) == Some("CREATED")
      && Ledger.Consistent(r.store, kycId)
  {
    var input := ValidateStart(env, BodyOf(body), userHeader).value;
    PersistOutcome(env, st, kycId, input, now, ledgerUuid, false);
  }

  /** A lost ledger write leaves a CREATED case that the ledger knows nothing about,
      and the applicant still gets an upload URL. */
  lemma LostLedgerWriteDiverges(env: Env, cfg: StorageConfig, body: Option<Json>, userHeader: Option<string>,
                                st: Store, now: nat, kycId: string, ledgerUuid: string, sign: SasGrant -> Option<string>)
    requires ValidateStart(env, BodyOf(body), userHeader).Ok?
    requires kycId != "" && !HasCase(st, kycId)
    requires Ledger.LastToState(st.transitions, kycId).None?
    ensures var r := StartKyc(env, cfg, "POST", body, userHeader, st, now, kycId, ledgerUuid, StartFaults(false, true), sign);
      && CaseStatus(r.store, kycId) == Some("CREATED")
      && Ledger.LastToState(r.store.transitions, kycId).None?
      && !Ledger.Consistent(r.store, kycId)
      && (UploadSas(cfg, kycId, now, sign).Ok? ==> r.code == 200)
  {
    var input := ValidateStart(env, BodyOf(body), userHeader).value;
    PersistOutcome(env, st, kycId, input, now, ledgerUuid, true);
  }

  /** The status and latest ledger state of a freshly inserted case. */
  lemma PersistOutcome(env: Env, st: Store, kycId: string, input: StartInput, now: nat, ledgerUuid: string, ledgerFails: bool)
    requires kycId != "" && !HasCase(st, kycId)
    ensures var s := Persist(env, st, kycId, input, now, ledgerUuid, StartFaults(false, ledgerFails));
      && CaseStatus(s, kycId) == Some("CREATED")
      && (!ledgerFails ==> Ledger.LastToState(s.transitions, kycId) == Some("CREATED"))
      && (ledgerFails ==> s.transitions == st.transitions)
  {
    var s := Persist(env, st, kycId, input, now, ledgerUuid, StartFaults(false, ledgerFails));
    assert s.cases == st.cases + [s.cases[|st.cases|]];
    FindAppended(st.cases, s.cases[|st.cases|]);
    if !ledgerFails {
      Ledger.LastToStateAppend(st.transitions, TransitionRow(kycId, None, "CREATED", Some(Str(env, input.userId)), None, now, ledgerUuid), kycId);
    }
  }
}

=== FILE: json.dfy ===
/** Untyped JSON values as the handlers see them after `JSON.parse`, with the
    JavaScript rules the source relies on: truthiness, property reads that yield
    `undefined`, and `String(value)`. */
module Json {
  import opened Wrappers
  import Text

  datatype Json =
    | JNull
    | JBool(b: bool)
    | JNum(n: real)
    | JStr(s: string)
    | JArr(items: seq<Json>)
    | JObj(members: seq<Member>)

  /** One `key: value` pair of an object, in the object's key order. */
  datatype Member = Member(key: string, value: Json)

  /** JavaScript `ToBoolean`: null, false, 0 and "" are falsy; arrays and objects,
      even empty ones, are truthy. */
  predicate Truthy(j: Json) {
    match j
    case JNull => false
    case JBool(b) => b
    case JNum(n) => n != 0.0
    case JStr(s) => s != ""
    case JArr(_) => true
    case JObj(_) => true
  }

  /** A property read whose result may be `undefined` (None) is truthy only when
      defined and truthy. */
  predicate Present(v: Option<Json>) {
    v.Some? && Truthy(v.value)
  }

  /** `typeof v === "object" && v !== null`. */
  predicate IsObjectLike(j: Json) {
    j.JArr? || j.JObj?
  }

  /** The value of the first member named `key`. */
  function Lookup(members: seq<Member>, key: string): Option<Json> {
    if |members| == 0 then None
    else if members[0].key == key then Some(members[0].value)
    else Lookup(members[1..], key)
  }

  /** A read finds a member with the key, and is undefined iff no member has it. */
  lemma {:induction false} LookupSpec(members: seq<Member>, key: string)
    ensures Lookup(members, key).Some? <==> exists i :: 0 <= i < |members| && members[i].key == key
    ensures Lookup(members, key).Some? ==> exists i :: 0 <= i < |members| && members[i] == Member(key, Lookup(members, key).value)
    decreases |members|
  {
    if |members| > 0 && members[0].key != key {
      LookupSpec(members[1..], key);
      assert forall i :: 1 <= i < |members| ==> members[i] == members[1..][i - 1];
    }
  }

  /** `v.key` on a value that is not null: objects answer their member, every other
      value answers `undefined`. (Reading from null throws; callers handle JNull.) */
  function Get(v: Json, key: string): Option<Json> {
    match v
    case JObj(ms) => Lookup(ms, key)
    case _ => None
  }

  /** `x?.key`: undefined for an undefined or null `x`. */
  function Prop(v: Option<Json>, key: string): Option<Json> {
    match v
    case None => None
    case Some(JNull) => None
    case Some(j) => Get(j, key)
  }

  /** `a || b` over property reads: the first truthy one, else the second. */
  function OrElse(a: Option<Json>, b: Option<Json>): (r: Option<Json>)
    ensures Present(a) ==> r == a
    ensures !Present(a) ==> r == b
  {
    if Present(a) then a else b
  }

  /** `||` chains: the result is truthy iff some operand is, the grouping does not
      matter, and a repeated operand adds nothing. */
  lemma OrElseLaws(a: Option<Json>, b: Option<Json>, c: Option<Json>)
    ensures Present(OrElse(a, b)) <==> Present(a) || Present(b)
    ensures OrElse(OrElse(a, b), c) == OrElse(a, OrElse(b, c))
    ensures OrElse(a, OrElse(a, b)) == OrElse(a, b)
  {
  }

  /** `v || {}`. */
  function OrEmpty(v: Option<Json>): (r: Json)
    ensures Present(v) ==> r == v.value
    ensures !Present(v) ==> r == JObj([])
  {
    if Present(v) then v.value else JObj([])
  }

  /** The defaulted value is always truthy, so reading a field of it never throws,
      and defaulting it again changes nothing. */
  lemma OrEmptyTruthy(v: Option<Json>)
    ensures Truthy(OrEmpty(v)) && !OrEmpty(v).JNull?
    ensures OrEmpty(Some(OrEmpty(v))) == OrEmpty(v)
  {
  }

  predicate IsIntegral(r: real) {
    r == r.Floor as real
  }

  /** `String(v)`. Integral numbers are rendered exactly; other numbers are rendered by
      the runtime's number formatter, which is a parameter here. Array elements that
      are null render as the empty string. */
  function ToJsString(j: Json, formatNumber: real -> string): string
    decreases j
  {
    match j
    case JNull => "null"
    case JBool(b) => if b then "true" else "false"
    case JNum(n) => if IsIntegral(n) then Text.IntToString(n.Floor) else formatNumber(n)
    case JStr(s) => s
    case JObj(_) => "[object Object]"
    case JArr(items) =>
      Text.Join(seq(|items|, i requires 0 <= i < |items| =>
        if items[i].JNull? then "" else ToJsString(items[i], formatNumber)), ",")
  }

  /** A read from two member lists laid end to end: the first list answers when it
      has the key, the second otherwise. */
  lemma {:induction false} LookupConcat(a: seq<Member>, b: seq<Member>, key: string)
    ensures Lookup(a + b, key) == if Lookup(a, key).Some? then Lookup(a, key) else Lookup(b, key)
    decreases |a|
  {
    if |a| == 0 {
      assert a + b == b;
    } else {
      assert (a + b)[0] == a[0];
      assert (a + b)[1..] == a[1..] + b;
      if a[0].key != key {
        LookupConcat(a[1..], b, key);
      }
    }
  }

  /** Reads of a single member. */
  lemma LookupSingle(m: Member)
    ensures forall key :: Lookup([m], key) == if key == m.key then Some(m.value) else None
  {
    forall key ensures Lookup([m], key) == if key == m.key then Some(m.value) else None {
      assert [m][1..] == [];
    }
  }

  /** Reads of two members. */
  lemma LookupPair(m0: Member, m1: Member)
    ensures forall key ::
              Lookup([m0, m1], key) == if key == m0.key then Some(m0.value) else if key == m1.key then Some(m1.value) else None
  {
    forall key
      ensures Lookup([m0, m1], key) == if key == m0.key then Some(m0.value) else if key == m1.key then Some(m1.value) else None
    {
      assert [m0, m1][1..] == [m1];
      LookupSingle(m1);
    }
  }

  /** Members in front that lack the key do not change a read. */
  lemma LookupSkip(a: seq<Member>, b: seq<Member>, key: string)
    requires Lookup(a, key).None?
    ensures Lookup(a + b, key) == Lookup(b, key)
  {
    LookupConcat(a, b, key);
  }

  /** A read answers the first member with the key. */
  lemma {:induction false} LookupFirst(members: seq<Member>, i: nat)
    requires i < |members| && forall j :: 0 <= j < i ==> members[j].key != members[i].key
    ensures Lookup(members, members[i].key) == Some(members[i].value)
    decreases i
  {
    if i > 0 {
      LookupFirst(members[1..], i - 1);
    }
  }

  /** A read of a key no member has is undefined. */
  lemma {:induction false} LookupAbsent(members: seq<Member>, key: string)
    requires forall i :: 0 <= i < |members| ==> members[i].key != key
    ensures Lookup(members, key).None?
    decreases |members|
  {
    if |members| > 0 {
      LookupAbsent(members[1..], key);
    }
  }

  /** Builds an object from key/value pairs in order. */
  function Obj(pairs: seq<(string, Json)>): (r: Json)
    ensures r.JObj? && |r.members| == |pairs|
    ensures forall i :: 0 <= i < |pairs| ==> r.members[i] == Member(pairs[i].0, pairs[i].1)
  {
    JObj(seq(|pairs|, i requires 0 <= i < |pairs| => Member(pairs[i].0, pairs[i].1)))
  }

  /** A read of an object literal answers the first pair with the key. */
  lemma ObjGetAt(pairs: seq<(string, Json)>, i: nat)
    requires i < |pairs| && forall j :: 0 <= j < i ==> pairs[j].0 != pairs[i].0
    ensures Get(Obj(pairs), pairs[i].0) == Some(pairs[i].1)
  {
    LookupFirst(Obj(pairs).members, i);
  }

  /** A read of a key no pair of an object literal has is undefined. */
  lemma ObjGetAbsent(pairs: seq<(string, Json)>, key: string)
    requires forall j :: 0 <= j < |pairs| ==> pairs[j].0 != key
    ensures Get(Obj(pairs), key).None?
  {
    LookupAbsent(Obj(pairs).members, key);
  }

  /** A read of an object literal built from two runs of pairs: the first run
      answers when it has the key, the second otherwise. */
  lemma ObjGetConcat(a: seq<(string, Json)>, b: seq<(string, Json)>, key: string)
    ensures Get(Obj(a + b), key) == if Get(Obj(a), key).Some? then Get(Obj(a), key) else Get(Obj(b), key)
  {
    assert Obj(a + b).members == Obj(a).members + Obj(b).members;
    LookupConcat(Obj(a).members, Obj(b).members, key);
  }
}

/** The runtime primitives the handlers call but whose internals are out of scope
    (date parsing, JSON text, number coercion, hashing, token signing). Each is an
    uninterpreted function supplied by the caller of a handler. */
module JsRuntime {
  import opened Wrappers
  import opened Json

  datatype Env = Env(
    /** `new Date(s).getTime()`; None when it is NaN. */
    parseDate: string -> Option<int>,
    /** `JSON.parse(s)`; None when it throws. */
    parseJson: string -> Option<Json>,
    /** `JSON.stringify(v)`. */
    stringify: Json -> string,
    /** `String(n)` for a non-integral number. */
    formatNumber: real -> string,
    /** `Number(s)` for a string; None when it is NaN. */
    parseNumber: string -> Option<real>,
    /** sha256 hex digest. */
    sha256Hex: string -> string,
    /** `bcrypt.hash(password, 10)` (the salt is folded into the function). */
    bcryptHash: string -> string,
    /** `bcrypt.compare(password, hash)`. */
    bcryptCompare: (string, string) -> bool,
    /** `jwt.sign(claims, secret, ...)`; the expiry option is folded in. */
    jwtSign: (Json, string) -> string
  )

  /** One reply of an outgoing HTTP request: `ok`, status code, body text, the body
      as JSON (None when `resp.json()` rejects) and the `operation-location` header. */
  datatype HttpReply = HttpReply(ok: bool, status: int, text: string, body: Option<Json>, operationLocation: Option<string>)

  /** `String(v)` with this runtime's number formatting. */
  function Str(env: Env, v: Json): string {
    ToJsString(v, env.formatNumber)
  }

  /** `new Date(v).getTime()` for an arbitrary JSON value: strings are parsed, numbers
      are clipped to the valid time range and truncated, booleans count as 0/1, and
      arrays and objects go through their string form. None stands for NaN. */
  function DateOf(env: Env, v: Json): Option<int> {
    match v
    case JStr(s) => env.parseDate(s)
    case JNum(n) => TimeClip(n)
    case JBool(b) => Some(if b then 1 else 0)
    case JNull => Some(0)
    case _ => env.parseDate(Str(env, v))
  }

  /** ECMAScript TimeClip: NaN outside +-8.64e15 ms, otherwise truncation toward zero. */
  function TimeClip(n: real): (r: Option<int>)
    ensures r.Some? <==> -8640000000000000.0 <= n <= 8640000000000000.0
    ensures r.Some? && n >= 0.0 ==> r.value == n.Floor
    ensures r.Some? && n < 0.0 ==> r.value == -((-n).Floor)
    ensures r.Some? ==> (n >= 0.0 ==> r.value as real <= n < r.value as real + 1.0)
    ensures r.Some? ==> (n < 0.0 ==> r.value as real - 1.0 < n <= r.value as real)
  {
    if n < -8640000000000000.0 || n > 8640000000000000.0 then None
    else if n >= 0.0 then Some(n.Floor)
    else Some(-((-n).Floor))
  }

  /** JavaScript `Number(v)` for a JSON value; None is NaN. */
  function NumberOf(env: Env, v: Option<Json>): Option<real> {
    match v
    case None => None
    case Some(JNull) => Some(0.0)
    case Some(JBool(b)) => Some(if b then 1.0 else 0.0)
    case Some(JNum(n)) => Some(n)
    case Some(JStr(s)) => env.parseNumber(s)
    case Some(JArr(_)) => env.parseNumber(Str(env, v.value))
    case Some(JObj(_)) => None
  }
}

=== FILE: kyc_page.dfy ===
/** app/kyc/page.tsx: the four-step identity check (personal data, document, selfie,
    review), the image-only file filter, and the final submission that starts a case,
    uploads the document and tells the backend where it went. The network replies
    and the URL parser are parameters. */
module KycPage {
  import opened Wrappers
  import opened Json
  import opened JsRuntime
  import Text
  import KycTypes
  import SqlStore
  import BlobStorage
  import Http
  import Intake

  // ------------------------------------------------------------ steps

  datatype Step = Personal | Document | Face | Review

  /** The fixed order of the steps. */
  const Steps: seq<Step> := [Personal, Document, Face, Review]

  /** `steps.indexOf(step)`. */
  function Index(s: Step): (i: nat)
    ensures i < |Steps| && Steps[i] == s
  {
    match s
    case Personal => 0
    case Document => 1
    case Face => 2
    case Review => 3
  }

  /** Back: one step earlier; on the first step nothing happens (the button is
      disabled there). */
  function Back(s: Step): (r: Step)
    ensures s == Personal ==> r == Personal
    ensures s != Personal ==> Index(r) + 1 == Index(s)
  {
    var i := Index(s);
    if i > 0 then Steps[i - 1] else s
  }

  predicate BackDisabled(s: Step) {
    s == Personal
  }

  /** Next on a step before the last: exactly one step later, with no network call.
      On the last step there is no next step: the press submits instead (None). */
  function Next(s: Step): (r: Option<Step>)
    ensures r.None? <==> s == Review
    ensures r.Some? ==> Index(r.value) == Index(s) + 1
  {
    var i := Index(s);
    if i < |Steps| - 1 then Some(Steps[i + 1]) else None
  }

  /** Next is disabled on the document step without a file, on the face step
      without a selfie, and during a submission. */
  predicate NextDisabled(s: Step, hasFile: bool, hasSelfie: bool, submitting: bool) {
    (s == Document && !hasFile) || (s == Face && !hasSelfie) || submitting
  }

  lemma BackUndoesNext(s: Step)
    requires s != Review
    ensures Back(Next(s).value) == s
  {
  }

  lemma NextUndoesBack(s: Step)
    requires s != Personal
    ensures Next(Back(s)) == Some(s)
  {
  }

  /** One press of an enabled Next button before the last step; a disabled button
      or the last step leaves the step as it is. */
  function Press(s: Step, hasFile: bool, hasSelfie: bool, submitting: bool): (r: Step)
    ensures NextDisabled(s, hasFile, hasSelfie, submitting) || s == Review ==> r == s
    ensures !NextDisabled(s, hasFile, hasSelfie, submitting) && s != Review ==> Index(r) == Index(s) + 1
  {
    if NextDisabled(s, hasFile, hasSelfie, submitting) then s
    else match Next(s)
      case None => s
      case Some(n) => n
  }

  /** Three presses from the start reach the review step exactly when a document
      and a selfie are present and nothing is being submitted. */
  lemma ReviewNeedsDocumentAndSelfie(hasFile: bool, hasSelfie: bool, submitting: bool)
    ensures Press(Press(Press(Personal, hasFile, hasSelfie, submitting), hasFile, hasSelfie, submitting),
                  hasFile, hasSelfie, submitting) == Review
        <==> hasFile && hasSelfie && !submitting
  {
  }

  // ------------------------------------------------------------ the form

  datatype FileInfo = FileInfo(name: string, mimeType: string)

  const NotAnImage := "Please select an image file"

  /** `handleFileSelect(file)`: an image replaces the chosen file; anything else is
      refused with an alert and the previous choice stays. */
  function SelectFile(current: Option<FileInfo>, file: FileInfo): (r: (Option<FileInfo>, string))
    ensures Text.StartsWith(file.mimeType, "image/") <==> r.0 == Some(file) && r.1 == ""
    ensures !Text.StartsWith(file.mimeType, "image/") ==> r == (current, NotAnImage)
  {
    if Text.StartsWith(file.mimeType, "image/") then (Some(file), "") else (current, NotAnImage)
  }

  lemma OnlyImagesAccepted(current: Option<FileInfo>)
    ensures SelectFile(current, FileInfo("id.png", "image/png")).0 == Some(FileInfo("id.png", "image/png"))
    ensures SelectFile(current, FileInfo("id.pdf", "application/pdf")) == (current, NotAnImage)
  {
    assert "application/pdf"[..6][0] != "image/"[0];
  }

  /** The personal-data step's fields. */
  datatype PersonalData = PersonalData(firstName: string, lastName: string, dateOfBirth: string,
                                       country: string, idType: string)

  const InitialPersonal := PersonalData("", "", "", "", "passport")

  /** `handlePersonalChange`: the input named `name` takes `value`; inputs other than
      the five of the form do not occur on the page. */
  function SetPersonal(p: PersonalData, name: string, value: string): (r: PersonalData)
    ensures name == "firstName" ==> r == p.(firstName := value)
    ensures name == "lastName" ==> r == p.(lastName := value)
    ensures name == "dateOfBirth" ==> r == p.(dateOfBirth := value)
    ensures name == "country" ==> r == p.(country := value)
    ensures name == "idType" ==> r == p.(idType := value)
  {
    match name
    case "firstName" => p.(firstName := value)
    case "lastName" => p.(lastName := value)
    case "dateOfBirth" => p.(dateOfBirth := value)
    case "country" => p.(country := value)
    case "idType" => p.(idType := value)
    case _ => p
  }

  function PersonalJson(p: PersonalData): Json {
    Obj([("firstName", JStr(p.firstName)), ("lastName", JStr(p.lastName)), ("dateOfBirth", JStr(p.dateOfBirth)),
         ("country", JStr(p.country)), ("idType", JStr(p.idType))])
  }

  /** `user?.email || user?.name || user?.id`. */
  function UserIdOf(user: Option<Json>): Option<Json> {
    OrElse(Prop(user, "email"), OrElse(Prop(user, "name"), Prop(user, "id")))
  }

  /** `JSON.stringify` drops an undefined member. */
  function OptionalMember(key: string, v: Option<Json>): seq<(string, Json)> {
    if v.Some? then [(key, v.value)] else []
  }

  // ------------------------------------------------------------ the start request

  /** The start request as the page builds it: the names and the date of birth
      travel only inside `personalData`. */
  function StartRequestAsWritten(user: Option<Json>, p: PersonalData): (b: Json)
    ensures b.JObj? && Get(b, "fullName").None? && Get(b, "dob").None?
    ensures Get(b, "userId") == UserIdOf(user)
  {
    AsWrittenPairsRead(UserIdOf(user), JStr(p.idType), PersonalJson(p));
    Obj(OptionalMember("userId", UserIdOf(user)) + [("idType", JStr(p.idType)), ("personalData", PersonalJson(p))])
  }

  /** The page's start request has no top-level name or date of birth, whatever its
      values. */
  lemma AsWrittenPairsRead(userId: Option<Json>, idType: Json, personal: Json)
    ensures var b := Obj(OptionalMember("userId", userId) + [("idType", idType), ("personalData", personal)]);
      Get(b, "fullName").None? && Get(b, "dob").None? && Get(b, "userId") == userId
  {
    var opt := OptionalMember("userId", userId);
    var tail := [("idType", idType), ("personalData", personal)];
    ObjGetConcat(opt, tail, "userId");
    ObjGetAbsent(tail, "userId");
    if opt == [] {
      ObjGetAbsent(opt, "userId");
    } else {
      ObjGetAt(opt, 0);
    }
    ObjGetConcat(opt, tail, "fullName");
    ObjGetConcat(opt, tail, "dob");
    ObjGetAbsent(opt, "fullName");
    ObjGetAbsent(opt, "dob");
    ObjGetAbsent(tail, "fullName");
    ObjGetAbsent(tail, "dob");
  }

  /** The intake handler reads top-level `fullName` and `dob`, so every start request
      the page sends is refused with 400 and nothing is stored. */
  lemma StartAsWrittenRefused(env: Env, cfg: BlobStorage.StorageConfig, user: Option<Json>, p: PersonalData,
                              st: SqlStore.Store, now: nat, kycId: string, ledgerUuid: string,
                              faults: Intake.StartFaults, sign: BlobStorage.SasGrant -> Option<string>)
    ensures var r := Intake.StartKyc(env, cfg, "POST", Some(StartRequestAsWritten(user, p)), None, st, now, kycId,
                                     ledgerUuid, faults, sign);
      r.code == 400 && r.store == st
  {
    var b := StartRequestAsWritten(user, p);
    assert Http.BodyOf(Some(b)) == b;
    assert !Intake.NameOk(b);
  }

  /** The start request the intake handler accepts: the same fields plus the
      top-level `fullName` ("first last") and `dob` it validates. */
  function StartRequest(user: Option<Json>, p: PersonalData): (b: Json)
    ensures b.JObj?
    ensures Get(b, "userId") == UserIdOf(user)
    ensures Get(b, "fullName") == Some(JStr(p.firstName + " " + p.lastName))
    ensures Get(b, "dob") == Some(JStr(p.dateOfBirth))
  {
    var fullName := JStr(p.firstName + " " + p.lastName);
    StartPairsRead(UserIdOf(user), JStr(p.idType), PersonalJson(p), fullName, JStr(p.dateOfBirth));
    Obj(OptionalMember("userId", UserIdOf(user)) + StartTail(JStr(p.idType), PersonalJson(p), fullName, JStr(p.dateOfBirth)))
  }

  function StartTail(idType: Json, personal: Json, fullName: Json, dob: Json): seq<(string, Json)> {
    [("idType", idType), ("personalData", personal), ("fullName", fullName), ("dob", dob)]
  }

  /** Reads of the start request's members, whatever their values. */
  lemma StartPairsRead(userId: Option<Json>, idType: Json, personal: Json, fullName: Json, dob: Json)
    ensures var b := Obj(OptionalMember("userId", userId) + StartTail(idType, personal, fullName, dob));
      && Get(b, "userId") == userId && Get(b, "fullName") == Some(fullName) && Get(b, "dob") == Some(dob)
  {
    var opt := OptionalMember("userId", userId);
    var tail := StartTail(idType, personal, fullName, dob);
    ObjGetConcat(opt, tail, "userId");
    ObjGetConcat(opt, tail, "fullName");
    ObjGetConcat(opt, tail, "dob");
    ObjGetAbsent(tail, "userId");
    ObjGetAt(tail, 2);
    ObjGetAt(tail, 3);
    ObjGetAbsent(opt, "fullName");
    ObjGetAbsent(opt, "dob");
    if opt == [] {
      ObjGetAbsent(opt, "userId");
    } else {
      ObjGetAt(opt, 0);
    }
  }

  /** With a user, a name that is not blank and a date the runtime parses, the
      intake handler accepts that request: it stores the trimmed name and answers
      200, or 500 when no upload URL can be issued, never 400. */
  lemma StartRequestAccepted(env: Env, cfg: BlobStorage.StorageConfig, user: Option<Json>, p: PersonalData,
                             st: SqlStore.Store, now: nat, kycId: string, ledgerUuid: string,
                             faults: Intake.StartFaults, sign: BlobStorage.SasGrant -> Option<string>)
    requires Present(UserIdOf(user))
    requires Text.Trim(p.firstName + " " + p.lastName) != ""
    requires p.dateOfBirth != "" && env.parseDate(p.dateOfBirth).Some?
    ensures var b := StartRequest(user, p);
      && Intake.ValidateStart(env, b, None).Ok?
      && Intake.ValidateStart(env, b, None).value.fullName == Text.Trim(p.firstName + " " + p.lastName)
    ensures var r := Intake.StartKyc(env, cfg, "POST", Some(StartRequest(user, p)), None, st, now, kycId,
                                     ledgerUuid, faults, sign);
      r.code == 200 || r.code == 500
  {
    StartRequestValid(env, user, p);
    var b := StartRequest(user, p);
    assert Http.BodyOf(Some(b)) == b;
  }

  lemma StartRequestValid(env: Env, user: Option<Json>, p: PersonalData)
    requires Present(UserIdOf(user))
    requires Text.Trim(p.firstName + " " + p.lastName) != ""
    requires p.dateOfBirth != "" && env.parseDate(p.dateOfBirth).Some?
    ensures var b := StartRequest(user, p);
      && Intake.ValidateStart(env, b, None).Ok?
      && Intake.ValidateStart(env, b, None).value.fullName == Text.Trim(p.firstName + " " + p.lastName)
  {
    var b := StartRequest(user, p);
    assert Intake.NameOk(b);
    assert Intake.DobOk(env, b);
  }

  // ------------------------------------------------------------ submission

  /** `pathname.split("/").slice(2).join("/")`: the path without its leading empty
      segment and the container segment. */
  function NotifyBlobPath(pathname: string): string {
    var parts := Text.Split(pathname, '/');
    if |parts| <= 2 then "" else Text.Join(parts[2..], "/")
  }

  /** For a path `/<container>/<blob>` the notified name is exactly the blob name,
      slashes inside it included. */
  lemma NotifyBlobPathRecoversBlob(container: string, blob: string)
    requires '/' !in container
    ensures NotifyBlobPath("/" + container + "/" + blob) == blob
  {
    var parts := Text.Split("/" + container + "/" + blob, '/');
    SplitContainerPath(container, blob);
    assert parts[2..] == Text.Split(blob, '/');
    Text.JoinSplit(blob, '/');
  }

  /** A path `/<container>/<blob>` splits into an empty segment, the container and
      the segments of the blob name. */
  lemma SplitContainerPath(container: string, blob: string)
    requires '/' !in container
    ensures Text.Split("/" + container + "/" + blob, '/') == ["", container] + Text.Split(blob, '/')
  {
    assert "/" + container + "/" + blob == "" + ['/'] + container + ['/'] + blob;
    Text.SplitTwoHeads("", container, blob, '/');
  }

  /** The name the page reports for an upload URL issued by the intake handler is the
      blob name intake chose, `<kycId>/document-<now>.jpg`. */
  lemma NotifiedNameIsUploadName(container: string, kycId: string, now: nat)
    requires '/' !in container
    ensures NotifyBlobPath("/" + container + "/" + Intake.UploadBlobName(kycId, now)) == Intake.UploadBlobName(kycId, now)
  {
    NotifyBlobPathRecoversBlob(container, Intake.UploadBlobName(kycId, now));
  }

  const BaseMissing := "NEXT_PUBLIC_FUNCTIONS_BASE_URL is not configured"
  const UploadFailed := "Document upload failed"
  /** The message of the exception a start reply that is not a JSON object raises;
      its exact text is the runtime's. */
  const BadStartReply := "start reply is not a JSON object"

  /** What the final press produces: the start request sent (None when it was never
      sent), the error shown, the case id kept, the notification sent after the
      upload, and the closing alert. */
  datatype SubmitOutcome = SubmitOutcome(request: Option<Json>, error: Option<string>, kycId: Option<Json>,
                                         notice: Option<Json>, alert: Option<string>)

  /** `err?.error || `Start API failed: ${status}``. */
  function StartFailure(env: Env, reply: HttpReply): string {
    var err := Prop(reply.body, "error");
    if Present(err) then Str(env, err.value) else "Start API failed: " + Text.IntToString(reply.status)
  }

  /** The final press on the review step, given the start request body it sends.
      `start` is the start reply, `uploadOk` the outcome of the upload, `pathname`
      the URL parser (None when the URL is invalid). A failing notification is
      swallowed, so its reply plays no part. */
  function SubmitSequence(env: Env, functionsBase: Option<string>, request: Json, file: Option<FileInfo>,
                          start: HttpReply, uploadOk: bool, pathname: string -> Option<string>): (r: SubmitOutcome)
    ensures functionsBase.None? || functionsBase.value == "" ==> r == SubmitOutcome(None, Some(BaseMissing), None, None, None)
    ensures r.request.Some? ==> r.request == Some(request)
    ensures r.error.None? <==> r.alert.Some?
    ensures r.notice.Some? ==>
      && r.error.None? && file.Some? && start.ok && uploadOk
      && start.body.Some? && !start.body.value.JNull? && Present(Get(start.body.value, "uploadUrl"))
      && var url := Str(env, Get(start.body.value, "uploadUrl").value);
      && pathname(url).Some?
      && Get(r.notice.value, "blobName") == Some(JStr(NotifyBlobPath(pathname(url).value)))
      && Get(r.notice.value, "blobUrl") == Some(JStr(url))
      && Get(r.notice.value, "kycId") == Get(start.body.value, "kycId")
    ensures functionsBase.Some? && functionsBase.value != "" && !start.ok ==> r.error == Some(StartFailure(env, start))
    ensures functionsBase.Some? && functionsBase.value != "" && start.ok && start.body.Some? && !start.body.value.JNull? ==>
      && (Present(Get(start.body.value, "uploadUrl")) && file.Some? && !uploadOk ==> r.error == Some(UploadFailed))
      && (uploadOk ==> r.error.None?)
      && (r.error.None? ==> r.kycId == Some(if Present(Get(start.body.value, "kycId")) then Get(start.body.value, "kycId").value else JNull))
  {
    if functionsBase.None? || functionsBase.value == "" then SubmitOutcome(None, Some(BaseMissing), None, None, None)
    else
      var request := Some(request);
      if !start.ok then SubmitOutcome(request, Some(StartFailure(env, start)), None, None, None)
      else if start.body.None? || start.body.value.JNull? then SubmitOutcome(request, Some(BadStartReply), None, None, None)
      else
        var j := start.body.value;
        var kycId := if Present(Get(j, "kycId")) then Get(j, "kycId").value else JNull;
        var alert := "KYC started — upload complete. KYC ID: " + (if Present(Get(j, "kycId")) then Str(env, Get(j, "kycId").value) else "-");
        if Present(Get(j, "uploadUrl")) && file.Some? then
          if !uploadOk then SubmitOutcome(request, Some(UploadFailed), Some(kycId), None, None)
          else
            var url := Str(env, Get(j, "uploadUrl").value);
            var notice := match pathname(url)
              case None => None
              case Some(path) => Some(NoticeBody(Get(j, "kycId"), NotifyBlobPath(path), url));
            SubmitOutcome(request, None, Some(kycId), notice, Some(alert))
        else SubmitOutcome(request, None, Some(kycId), None, Some(alert))
  }

  /** The page as written: the final press sends `{ userId, idType, personalData }`. */
  function Submit(env: Env, functionsBase: Option<string>, user: Option<Json>, p: PersonalData, file: Option<FileInfo>,
                  start: HttpReply, uploadOk: bool, pathname: string -> Option<string>): (r: SubmitOutcome)
    ensures r.request == if functionsBase.None? || functionsBase.value == "" then None else Some(StartRequestAsWritten(user, p))
    ensures r.request.Some? && r.request.value.JObj? ==> Get(r.request.value, "fullName").None?
    ensures r.error.None? <==> r.alert.Some?
  {
    SubmitSequence(env, functionsBase, StartRequestAsWritten(user, p), file, start, uploadOk, pathname)
  }

  /** The corrected page: the final press sends the body the intake handler reads. */
  function SubmitCorrected(env: Env, functionsBase: Option<string>, user: Option<Json>, p: PersonalData,
                           file: Option<FileInfo>, start: HttpReply, uploadOk: bool,
                           pathname: string -> Option<string>): (r: SubmitOutcome)
    ensures r.request == if functionsBase.None? || functionsBase.value == "" then None else Some(StartRequest(user, p))
    ensures r.request.Some? ==> Get(r.request.value, "fullName") == Some(JStr(p.firstName + " " + p.lastName))
    ensures r.error.None? <==> r.alert.Some?
  {
    SubmitSequence(env, functionsBase, StartRequest(user, p), file, start, uploadOk, pathname)
  }

  /** The `fetch` response the page sees for a reply of a backend handler: `ok` for a
      2xx status, and the reply's JSON body. */
  function AsHttpReply(r: Http.Reply): (h: HttpReply)
    ensures h.ok <==> 200 <= r.code < 300
    ensures h.status == r.code && h.body == Some(r.body)
  {
    HttpReply(200 <= r.code < 300, r.code, "", Some(r.body), None)
  }

  /** End to end, the page as written never gets past the start request: the intake
      handler refuses its body with 400 and writes nothing, and the page shows
      "fullName is required" (or "userId is required" when nobody is signed in),
      uploads nothing and raises no alert. */
  lemma SubmitAsWrittenFails(env: Env, functionsBase: string, user: Option<Json>, p: PersonalData,
                             file: Option<FileInfo>, uploadOk: bool, pathname: string -> Option<string>,
                             cfg: BlobStorage.StorageConfig, st: SqlStore.Store, now: nat, kycId: string,
                             ledgerUuid: string, faults: Intake.StartFaults, sign: BlobStorage.SasGrant -> Option<string>)
    requires functionsBase != ""
    ensures var reply := Intake.StartKyc(env, cfg, "POST", Some(StartRequestAsWritten(user, p)), None, st, now, kycId,
                                         ledgerUuid, faults, sign);
      var r := Submit(env, Some(functionsBase), user, p, file, AsHttpReply(reply), uploadOk, pathname);
      && reply.code == 400 && reply.store == st
      && r.error == Some(if Present(UserIdOf(user)) then Intake.FullNameRequired else Intake.UserIdRequired)
      && r.notice.None? && r.alert.None?
  {
    var b := StartRequestAsWritten(user, p);
    assert Http.BodyOf(Some(b)) == b;
    assert !Intake.NameOk(b);
    Intake.UserIdMissingIff(b, None);
    var reply := Intake.StartKyc(env, cfg, "POST", Some(b), None, st, now, kycId, ledgerUuid, faults, sign);
    var m := Intake.ValidateStart(env, b, None).message;
    assert m == (if Present(UserIdOf(user)) then Intake.FullNameRequired else Intake.UserIdRequired);
    assert reply == Http.Reply(400, Http.ErrorBody(m), st);
    assert Prop(Some(reply.body), "error") == Some(JStr(m));
  }

  /** `{ kycId, blobName, blobUrl }` as sent to the ingestion route. */
  function NoticeBody(kycId: Option<Json>, blobName: string, blobUrl: string): (b: Json)
    ensures Get(b, "kycId") == kycId
    ensures Get(b, "blobName") == Some(JStr(blobName))
    ensures Get(b, "blobUrl") == Some(JStr(blobUrl))
  {
    NoticePairsRead(kycId, JStr(blobName), JStr(blobUrl));
    Obj(OptionalMember("kycId", kycId) + [("blobName", JStr(blobName)), ("blobUrl", JStr(blobUrl))])
  }

  /** Reads of the notification's members, whatever their values. */
  lemma NoticePairsRead(kycId: Option<Json>, blobName: Json, blobUrl: Json)
    ensures var b := Obj(OptionalMember("kycId", kycId) + [("blobName", blobName), ("blobUrl", blobUrl)]);
      && Get(b, "kycId") == kycId && Get(b, "blobName") == Some(blobName) && Get(b, "blobUrl") == Some(blobUrl)
  {
    var opt := OptionalMember("kycId", kycId);
    var tail := [("blobName", blobName), ("blobUrl", blobUrl)];
    ObjGetConcat(opt, tail, "kycId");
    ObjGetConcat(opt, tail, "blobName");
    ObjGetConcat(opt, tail, "blobUrl");
    ObjGetAbsent(tail, "kycId");
    ObjGetAt(tail, 0);
    ObjGetAt(tail, 1);
    ObjGetAbsent(opt, "blobName");
    ObjGetAbsent(opt, "blobUrl");
    if opt == [] {
      ObjGetAbsent(opt, "kycId");
    } else {
      ObjGetAt(opt, 0);
    }
  }

  /** On the corrected page, when the start reply carries an upload URL whose path
      is the intake handler's `/<container>/<kycId>/document-<now>.jpg`, the
      notification names that blob and the case, so the ingestion route hears of the
      document intake issued. */
  lemma SubmitNotifiesIssuedBlob(env: Env, functionsBase: string, user: Option<Json>, p: PersonalData, file: FileInfo,
                                 start: HttpReply, pathname: string -> Option<string>,
                                 container: string, kycId: string, now: nat)
    requires functionsBase != "" && start.ok && start.body.Some? && !start.body.value.JNull?
    requires Get(start.body.value, "kycId") == Some(JStr(kycId))
    requires Present(Get(start.body.value, "uploadUrl"))
    requires '/' !in container
    requires pathname(Str(env, Get(start.body.value, "uploadUrl").value))
          == Some("/" + container + "/" + Intake.UploadBlobName(kycId, now))
    ensures var r := SubmitCorrected(env, Some(functionsBase), user, p, Some(file), start, true, pathname);
      && r.error.None?
      && r.notice.Some?
      && Get(r.notice.value, "blobName") == Some(JStr(Intake.UploadBlobName(kycId, now)))
      && Get(r.notice.value, "kycId") == Some(JStr(kycId))
  {
    NotifiedNameIsUploadName(container, kycId, now);
  }
}

=== FILE: kyc_types.dfy ===
/** The case model of functions/models/kyc.ts and the rows the lifecycle engine
    writes. Timestamps are epoch milliseconds (the source stores ISO strings of the
    same instants). Status and risk level are closed enumerations in the interface,
    but the tables hold them as text: the handlers write whatever string they
    computed, so rows keep `string` and the enumerations convert to and from it. */
module KycTypes {
  import opened Wrappers
  import opened Json
  import Text

  /** The seven case states. */
  datatype Status =
    | Created
    | DocumentUploaded
    | Extracted
    | Analyzed
    | PendingReview
    | Approved
    | Rejected

  datatype RiskLevel = Low | Medium | High

  function StatusName(s: Status): string {
    match s
    case Created => "CREATED"
    case DocumentUploaded => "DOCUMENT_UPLOADED"
    case Extracted => "EXTRACTED"
    case Analyzed => "ANALYZED"
    case PendingReview => "PENDING_REVIEW"
    case Approved => "APPROVED"
    case Rejected => "REJECTED"
  }

  function ParseStatus(t: string): Option<Status> {
    if t == "CREATED" then Some(Created)
    else if t == "DOCUMENT_UPLOADED" then Some(DocumentUploaded)
    else if t == "EXTRACTED" then Some(Extracted)
    else if t == "ANALYZED" then Some(Analyzed)
    else if t == "PENDING_REVIEW" then Some(PendingReview)
    else if t == "APPROVED" then Some(Approved)
    else if t == "REJECTED" then Some(Rejected)
    else None
  }

  /** A status string is exactly one of the seven names, and each name reads back as
      its own state. */
  lemma StatusNamesRoundTrip(s: Status, t: string)
    ensures ParseStatus(StatusName(s)) == Some(s)
    ensures ParseStatus(t) == Some(s) <==> t == StatusName(s)
  {
  }

  function RiskName(r: RiskLevel): string {
    match r
    case Low => "LOW"
    case Medium => "MEDIUM"
    case High => "HIGH"
  }

  function ParseRisk(t: string): Option<RiskLevel> {
    if t == "LOW" then Some(Low)
    else if t == "MEDIUM" then Some(Medium)
    else if t == "HIGH" then Some(High)
    else None
  }

  lemma RiskNamesRoundTrip(r: RiskLevel, t: string)
    ensures ParseRisk(RiskName(r)) == Some(r)
    ensures ParseRisk(t) == Some(r) <==> t == RiskName(r)
  {
  }

  /** `YYYY-MM-DD`, the shape the interface documents for `dob`. */
  predicate IsIsoDate(s: string) {
    && |s| == 10
    && s[4] == '-' && s[7] == '-'
    && forall i :: 0 <= i < 10 && i != 4 && i != 7 ==> Text.IsDigit(s[i])
  }

  /** `KYC_Request`: the case as the interface declares it. The record carries both
      an optional `id` and the mandatory `kycId`, since callers key cases by either. */
  datatype KycRequest = KycRequest(
    id: Option<string>,
    kycId: string,
    userId: string,
    fullName: Option<string>,
    dob: Option<string>,
    idType: Option<string>,
    status: Status,
    riskLevel: RiskLevel,
    createdAt: int)

  /** A `dob` present on a case is an ISO date (the interface's comment; nothing in
      the source enforces it). */
  predicate DobWellFormed(r: KycRequest) {
    r.dob.Some? ==> IsIsoDate(r.dob.value)
  }

  /** `KYC_Document_Extraction` as stored. `documentType` is declared a string, but
      the ingestion handler stores `analysis.documentType || "unknown"`, which may be
      any JSON value. `blobPath` points at the audit copy of the raw result. */
  datatype Extraction = Extraction(
    id: Option<string>,
    kycId: string,
    rawDocumentJson: Json,
    documentType: Json,
    extractedAt: int,
    blobPath: Option<string>)

  /** `KYC_Risk_Assessment` as stored: level, numeric confidence, reasoning, model
      version and timestamp. The level is the upper-cased model reply, so it is text. */
  datatype RiskAssessment = RiskAssessment(
    kycId: string,
    riskLevel: string,
    confidenceScore: real,
    reasoning: Json,
    modelVersion: Json,
    assessedAt: int)

  /** A human decision. `decision` is "APPROVED" or "REJECTED". */
  datatype Decision = Decision(
    id: Option<string>,
    kycId: string,
    decision: string,
    note: Option<string>,
    actor: string,
    decidedAt: int)

  /** One row of the status ledger; `fromState` is None for the initial transition. */
  datatype Transition = Transition(
    id: string,
    kycId: string,
    fromState: Option<string>,
    toState: string,
    actor: Option<string>,
    reason: Option<string>,
    createdAt: int)

  datatype User = User(id: string, email: string, name: string, passwordHash: string, roles: seq<string>)
}

=== FILE: ledger.dfy ===
/** The status ledger (the `kyc_state_transitions` table) as the handlers use it:
    the edges they hard-code, the latest recorded state of a case, and the relation
    "the ledger grew only by hard-coded edges". */
module Ledger {
  import opened Wrappers
  import opened KycTypes
  import opened SqlStore

  /** The edges written by the handlers: null to CREATED on intake, CREATED to
      DOCUMENT_UPLOADED to EXTRACTED on ingestion, EXTRACTED to ANALYZED and ANALYZED
      to APPROVED or PENDING_REVIEW on analysis, PENDING_REVIEW to APPROVED or
      REJECTED on a human decision. */
  predicate ValidEdge(from: Option<string>, to: string) {
    || (from == None && to == "CREATED")
    || (from == Some("CREATED") && to == "DOCUMENT_UPLOADED")
    || (from == Some("DOCUMENT_UPLOADED") && to == "EXTRACTED")
    || (from == Some("EXTRACTED") && to == "ANALYZED")
    || (from == Some("ANALYZED") && (to == "APPROVED" || to == "PENDING_REVIEW"))
    || (from == Some("PENDING_REVIEW") && (to == "APPROVED" || to == "REJECTED"))
  }

  /** Every edge names two of the seven case states (or starts from nothing), and
      no edge leaves APPROVED or REJECTED. */
  lemma EdgesStayInStates(from: Option<string>, to: string)
    requires ValidEdge(from, to)
    ensures ParseStatus(to).Some?
    ensures from.Some? ==> ParseStatus(from.value).Some?
    ensures from != Some("APPROVED") && from != Some("REJECTED")
  {
  }

  /** The ledger grew by appending rows, each an edge of the table above. */
  predicate GrowsByValidEdges(before: seq<Transition>, after: seq<Transition>) {
    && before <= after
    && forall i :: |before| <= i < |after| ==> ValidEdge(after[i].fromState, after[i].toState)
  }

  lemma GrowsByValidEdgesTransitive(a: seq<Transition>, b: seq<Transition>, c: seq<Transition>)
    requires GrowsByValidEdges(a, b) && GrowsByValidEdges(b, c)
    ensures GrowsByValidEdges(a, c)
  {
  }

  /** The `toState` of the latest ledger row of case `id`, if any. */
  function LastToState(ledger: seq<Transition>, id: string): (r: Option<string>)
    ensures r.None? <==> forall i :: 0 <= i < |ledger| ==> ledger[i].kycId != id
    ensures r.Some? ==> exists i :: (0 <= i < |ledger| && ledger[i].kycId == id && ledger[i].toState == r.value
                                     && forall j :: i < j < |ledger| ==> ledger[j].kycId != id)
  {
    if |ledger| == 0 then None
    else
      var last := ledger[|ledger| - 1];
      if last.kycId == id then Some(last.toState)
      else
        var r := LastToState(ledger[..|ledger| - 1], id);
        assert forall i :: 0 <= i < |ledger| - 1 ==> ledger[..|ledger| - 1][i] == ledger[i];
        r
  }

  /** Appending a row for `id` makes its state the latest; appending a row for another
      case changes nothing for `id`. */
  lemma LastToStateAppend(ledger: seq<Transition>, t: Transition, id: string)
    ensures t.kycId == id ==> LastToState(ledger + [t], id) == Some(t.toState)
    ensures t.kycId != id ==> LastToState(ledger + [t], id) == LastToState(ledger, id)
  {
    assert (ledger + [t])[..|ledger|] == ledger;
  }

  /** The status of case `id` agrees with the latest state its ledger records. */
  predicate Consistent(st: Store, id: string) {
    CaseStatus(st, id).Some? && CaseStatus(st, id) == LastToState(st.transitions, id)
  }
}

=== FILE: lifecycle.dfy ===
/** The case lifecycle across the handlers: how each handler moves a case's status
    and its ledger, the handoff from ingestion to analysis, and the ways the status
    and the ledger come apart when a best-effort write is lost or a handler runs out of
    order. */
module Lifecycle {
  import opened Wrappers
  import opened Json
  import opened JsRuntime
  import opened KycTypes
  import opened SqlStore
  import opened BlobStorage
  import opened DocIntel
  import opened Http
  import opened Ledger
  import AnalyzeFields
  import Ingest
  import Analyze
  import OpenAi
  import Admin

  // ------------------------------------------------------------ ingestion

  /** A fault-free ingestion whose extraction succeeds moves any existing case to
      EXTRACTED, with the ledger agreeing. */
  lemma IngestMarksExtracted(env: Env, storage: StorageConfig, diCfg: DiConfig, st: Store, kycIdJson: Json,
                             now: nat, uuid1: string, uuid2: string, di: Ingest.DiReplies)
    requires HasCase(st, Str(env, kycIdJson)) && storage.accountUrl != ""
    requires AnalyzeDocumentFromUrl(diCfg, di.tokenOk, di.submit, di.polls).Done?
    ensures var r := Ingest.MarkAndExtract(env, storage, diCfg, st, kycIdJson, now, uuid1, uuid2, di, Ingest.NoFaults);
      && r.code == 200
      && CaseStatus(r.store, Str(env, kycIdJson)) == Some("EXTRACTED")
      && Consistent(r.store, Str(env, kycIdJson))
  {
    var id := Str(env, kycIdJson);
    var analysis := AnalyzeDocumentFromUrl(diCfg, di.tokenOk, di.submit, di.polls).json;
    var st1 := MarkAndRecord(env, st, id, NoKeys.(status := Some("DOCUMENT_UPLOADED")), Some("CREATED"),
                             "DOCUMENT_UPLOADED", None, None, now, uuid1, false, false);
    MarkAndRecordAdvances(env, st, id, NoKeys.(status := Some("DOCUMENT_UPLOADED")), Some("CREATED"),
                          "DOCUMENT_UPLOADED", None, None, now, uuid1);
    var up := UploadExtractionJson(storage, st1.blobs, id, analysis, now, UploadFaults(false, false));
    assert up.Ok?;
    var url := up.value.0;
    var st3 := CreateExtractionRecord(st1.(blobs := up.value.1),
                                      Extraction(None, id, analysis, Ingest.DocumentTypeOf(analysis), now, Some(url)));
    assert st3.cases == st1.cases;
    MarkAndRecordAdvances(env, st3, id, NoKeys.(status := Some("EXTRACTED")), Some("DOCUMENT_UPLOADED"),
                          "EXTRACTED", None, None, now, uuid2);
  }

  /** Ingestion does not look at the current status: run on an APPROVED case it sends
      the case back to EXTRACTED, and its ledger rows claim the case came from CREATED. */
  lemma IngestReopensDecidedCase(env: Env, storage: StorageConfig, diCfg: DiConfig, st: Store, kycIdJson: Json,
                                 now: nat, uuid1: string, uuid2: string, di: Ingest.DiReplies)
    requires CaseStatus(st, Str(env, kycIdJson)) == Some("APPROVED") && storage.accountUrl != ""
    requires AnalyzeDocumentFromUrl(diCfg, di.tokenOk, di.submit, di.polls).Done?
    ensures var r := Ingest.MarkAndExtract(env, storage, diCfg, st, kycIdJson, now, uuid1, uuid2, di, Ingest.NoFaults);
      && r.code == 200
      && CaseStatus(r.store, Str(env, kycIdJson)) == Some("EXTRACTED")
      && r.store.transitions[|st.transitions|].fromState == Some("CREATED")
  {
    IngestMarksExtracted(env, storage, diCfg, st, kycIdJson, now, uuid1, uuid2, di);
    var id := Str(env, kycIdJson);
    var st1 := MarkAndRecord(env, st, id, NoKeys.(status := Some("DOCUMENT_UPLOADED")), Some("CREATED"),
                             "DOCUMENT_UPLOADED", None, None, now, uuid1, false, false);
    assert st1.transitions[|st.transitions|].fromState == Some("CREATED");
    var r := Ingest.MarkAndExtract(env, storage, diCfg, st, kycIdJson, now, uuid1, uuid2, di, Ingest.NoFaults);
    assert st1.transitions <= r.store.transitions;
  }

  /** Ingestion for an id with no case still succeeds: it writes ledger rows and an
      extraction for a case that does not exist. */
  lemma IngestForUnknownCase(env: Env, storage: StorageConfig, diCfg: DiConfig, st: Store, kycIdJson: Json,
                             now: nat, uuid1: string, uuid2: string, di: Ingest.DiReplies)
    requires !HasCase(st, Str(env, kycIdJson)) && storage.accountUrl != ""
    requires AnalyzeDocumentFromUrl(diCfg, di.tokenOk, di.submit, di.polls).Done?
    ensures var r := Ingest.MarkAndExtract(env, storage, diCfg, st, kycIdJson, now, uuid1, uuid2, di, Ingest.NoFaults);
      && r.code == 200
      && !HasCase(r.store, Str(env, kycIdJson))
      && LastToState(r.store.transitions, Str(env, kycIdJson)) == Some("EXTRACTED")
      && r.store.extractions[|st.extractions|].kycId == Str(env, kycIdJson)
  {
    var id := Str(env, kycIdJson);
    var analysis := AnalyzeDocumentFromUrl(diCfg, di.tokenOk, di.submit, di.polls).json;
    var st1 := MarkAndRecord(env, st, id, NoKeys.(status := Some("DOCUMENT_UPLOADED")), Some("CREATED"),
                             "DOCUMENT_UPLOADED", None, None, now, uuid1, false, false);
    MarkAndRecordOnUnknownCase(env, st, id, NoKeys.(status := Some("DOCUMENT_UPLOADED")), Some("CREATED"),
                               "DOCUMENT_UPLOADED", None, None, now, uuid1);
    var up := UploadExtractionJson(storage, st1.blobs, id, analysis, now, UploadFaults(false, false));
    assert up.Ok?;
    var st3 := CreateExtractionRecord(st1.(blobs := up.value.1),
                                      Extraction(None, id, analysis, Ingest.DocumentTypeOf(analysis), now, Some(up.value.0)));
    assert st3.cases == st.cases;
    MarkAndRecordOnUnknownCase(env, st3, id, NoKeys.(status := Some("EXTRACTED")), Some("DOCUMENT_UPLOADED"),
                               "EXTRACTED", None, None, now, uuid2);
  }

  /** What ingestion leaves behind is what analysis reads: after a successful
      ingestion, provided no earlier extraction of the case is dated later, the raw
      extraction the analysis loads is exactly the extraction service's result. */
  lemma IngestThenLoad(env: Env, storage: StorageConfig, diCfg: DiConfig, st: Store, kycIdJson: Json,
                       now: nat, uuid1: string, uuid2: string, di: Ingest.DiReplies, faults: Ingest.IngestFaults)
    requires forall e :: e in st.extractions && e.kycId == Str(env, kycIdJson) ==> e.extractedAt <= now
    ensures var r := Ingest.MarkAndExtract(env, storage, diCfg, st, kycIdJson, now, uuid1, uuid2, di, faults);
      r.code == 200 ==>
        Analyze.LoadExtraction(env, storage, r.store, Str(env, kycIdJson))
          == Ok(AnalyzeDocumentFromUrl(diCfg, di.tokenOk, di.submit, di.polls).json)
  {
    var id := Str(env, kycIdJson);
    var r := Ingest.MarkAndExtract(env, storage, diCfg, st, kycIdJson, now, uuid1, uuid2, di, faults);
    if r.code == 200 {
      var n := |st.extractions|;
      var e := r.store.extractions[n];
      assert r.store.extractions == st.extractions + [e];
      LatestIsAppended(st.extractions, e);
      assert GetExtractionByKycId(r.store, id) == Some(e);
      var name :| && (name == PrimaryName(e.kycId) || name == FallbackName(e.kycId, e.extractedAt as nat))
                  && e.blobPath == Some(BlobUrl(storage.accountUrl, storage.extractionsContainer, name))
                  && name in r.store.blobs && r.store.blobs[name] == e.rawDocumentJson;
      AnalyzeFields.StripInvertsBlobUrl(storage.accountUrl, storage.extractionsContainer, name);
      assert Set(e.blobPath) by {
        assert BlobUrl(storage.accountUrl, storage.extractionsContainer, name)
            == storage.accountUrl + "/" + storage.extractionsContainer + "/" + name;
      }
      assert storage.accountUrl != "" by {
        var st1 := MarkAndRecord(env, st, id, NoKeys.(status := Some("DOCUMENT_UPLOADED")), Some("CREATED"),
                                 "DOCUMENT_UPLOADED", None, None, now, uuid1, faults.markUploaded, faults.ledgerUploaded);
        assert UploadExtractionJson(storage, st1.blobs, id, e.rawDocumentJson, now, faults.upload).Ok?;
      }
    }
  }

  /** An extraction appended with the latest date is the latest one. */
  lemma LatestIsAppended(exts: seq<Extraction>, e: Extraction)
    requires forall x :: x in exts && x.kycId == e.kycId ==> x.extractedAt <= e.extractedAt
    ensures LatestExtraction(exts + [e], e.kycId) == Some(e)
  {
    assert (exts + [e])[..|exts|] == exts;
  }

  // ------------------------------------------------------------ analysis

  /** A fault-free analysis of an existing case whose model call succeeds routes the
      case by the model's level and leaves status and ledger agreeing; it appends
      exactly the EXTRACTED-to-ANALYZED and ANALYZED-to-routed rows. */
  lemma AnalyzeRoutes(env: Env, aiCfg: OpenAi.AiConfig, aiAuth: OpenAi.AuthEnv, deploymentVar: Option<string>,
                      st: Store, kycIdJson: Json, raw: Json, now: nat, uuid: string, ai: Analyze.AiInputs)
    requires HasCase(st, Str(env, kycIdJson))
    requires AnalyzeFields.BuildPayload(env, raw, now).Ok?
    requires Analyze.Verdict(env, aiCfg, aiAuth, ai, Analyze.FieldsText(env, AnalyzeFields.BuildPayload(env, raw, now).value)).Ok?
    ensures var level := Analyze.Verdict(env, aiCfg, aiAuth, ai, Analyze.FieldsText(env, AnalyzeFields.BuildPayload(env, raw, now).value)).value.1;
      var r := Analyze.Assess(env, aiCfg, aiAuth, deploymentVar, st, kycIdJson, raw, now, uuid, ai, Analyze.NoFaults);
      && r.code == 200
      && CaseStatus(r.store, Str(env, kycIdJson)) == Some(AnalyzeFields.NextStatus(level))
      && Consistent(r.store, Str(env, kycIdJson))
      && |r.store.transitions| == |st.transitions| + 2
      && r.store.transitions[|st.transitions|].toState == "ANALYZED"
  {
    var id := Str(env, kycIdJson);
    var payload := AnalyzeFields.BuildPayload(env, raw, now).value;
    var v := Analyze.Verdict(env, aiCfg, aiAuth, ai, Analyze.FieldsText(env, payload)).value;
    var st1 := Analyze.NoteAnalyzing(st, id, now, uuid, false);
    assert st1.cases == st.cases;
    RouteAdvances(env, st1, kycIdJson, v.0, v.1, deploymentVar, now);
  }

  /** A fault-free route of an existing case answers 200, moves the case to the
      level's status with its ledger agreeing, and appends one ledger row. */
  lemma RouteAdvances(env: Env, st: Store, kycIdJson: Json, aiResult: Json, level: string,
                      deploymentVar: Option<string>, now: nat)
    requires HasCase(st, Str(env, kycIdJson))
    ensures var r := Analyze.Route(env, st, kycIdJson, aiResult, level, deploymentVar, now, Analyze.NoFaults);
      && r.code == 200
      && CaseStatus(r.store, Str(env, kycIdJson)) == Some(AnalyzeFields.NextStatus(level))
      && Consistent(r.store, Str(env, kycIdJson))
      && r.store.transitions == st.transitions + [r.store.transitions[|st.transitions|]]
  {
    var id := Str(env, kycIdJson);
    var rec := Analyze.RiskRecord(env, id, aiResult, level, deploymentVar, now);
    var st2 := CreateRiskAssessment(st, rec);
    var st3 := UpdateKycRequest(st2, id, NoKeys.(riskLevel := Some(level), status := Some("ANALYZED")), env);
    SameIdsSameFind(st2.cases, st3.cases, id);
    var next := AnalyzeFields.NextStatus(level);
    MarkAndRecordAdvances(env, st3, id, NoKeys.(riskLevel := Some(level), status := Some(next)), Some("ANALYZED"),
                          next, None, Some("auto:" + level), now, "");
  }

  /** When the model call fails after the ANALYZED ledger row is written, the reply is
      an error, the case keeps its status, and the ledger already says ANALYZED: an
      EXTRACTED case is left disagreeing with its ledger. */
  lemma ModelFailureDiverges(env: Env, aiCfg: OpenAi.AiConfig, aiAuth: OpenAi.AuthEnv, deploymentVar: Option<string>,
                             st: Store, kycIdJson: Json, raw: Json, now: nat, uuid: string, ai: Analyze.AiInputs)
    requires CaseStatus(st, Str(env, kycIdJson)) == Some("EXTRACTED")
    requires AnalyzeFields.BuildPayload(env, raw, now).Ok?
    requires Analyze.Verdict(env, aiCfg, aiAuth, ai, Analyze.FieldsText(env, AnalyzeFields.BuildPayload(env, raw, now).value)).Err?
    ensures var r := Analyze.Assess(env, aiCfg, aiAuth, deploymentVar, st, kycIdJson, raw, now, uuid, ai, Analyze.NoFaults);
      && r.code == 500
      && CaseStatus(r.store, Str(env, kycIdJson)) == Some("EXTRACTED")
      && LastToState(r.store.transitions, Str(env, kycIdJson)) == Some("ANALYZED")
      && !Consistent(r.store, Str(env, kycIdJson))
  {
    var id := Str(env, kycIdJson);
    LastToStateAppend(st.transitions, TransitionRow(id, Some("EXTRACTED"), "ANALYZED", None, None, now, uuid), id);
  }

  /** The model is consulted only on the payload text: two endpoints that answer that
      text alike make the analysis come out the same. */
  lemma ModelSeesOnlyPayload(env: Env, aiCfg: OpenAi.AiConfig, aiAuth: OpenAi.AuthEnv, deploymentVar: Option<string>,
                             st: Store, kycIdJson: Json, raw: Json, now: nat, uuid: string,
                             ai1: Analyze.AiInputs, ai2: Analyze.AiInputs, faults: Analyze.AnalyzeFaults)
    requires ai1.secretOk == ai2.secretOk && ai1.tokenOk == ai2.tokenOk
    requires AnalyzeFields.BuildPayload(env, raw, now).Ok? ==>
      var text := Analyze.FieldsText(env, AnalyzeFields.BuildPayload(env, raw, now).value);
      ai1.reply(text) == ai2.reply(text)
    ensures Analyze.Assess(env, aiCfg, aiAuth, deploymentVar, st, kycIdJson, raw, now, uuid, ai1, faults)
         == Analyze.Assess(env, aiCfg, aiAuth, deploymentVar, st, kycIdJson, raw, now, uuid, ai2, faults)
  {
  }

  /** The name in the document cannot sway the assessment: two extractions that agree
      on everything the payload is built from are assessed identically. */
  lemma AssessmentIgnoresName(env: Env, aiCfg: OpenAi.AiConfig, aiAuth: OpenAi.AuthEnv, deploymentVar: Option<string>,
                              st: Store, kycIdJson: Json, a: Json, b: Json, now: nat, uuid: string,
                              ai: Analyze.AiInputs, faults: Analyze.AnalyzeFaults)
    requires !a.JNull? && !b.JNull?
    requires AnalyzeFields.FindFirst(a, AnalyzeFields.DobCandidates) == AnalyzeFields.FindFirst(b, AnalyzeFields.DobCandidates)
    requires AnalyzeFields.FindFirst(a, AnalyzeFields.DocNumCandidates) == AnalyzeFields.FindFirst(b, AnalyzeFields.DocNumCandidates)
    requires AnalyzeFields.FindFirst(a, AnalyzeFields.CountryCandidates) == AnalyzeFields.FindFirst(b, AnalyzeFields.CountryCandidates)
    requires AnalyzeFields.DocTypeOf(a) == AnalyzeFields.DocTypeOf(b)
    ensures Analyze.Assess(env, aiCfg, aiAuth, deploymentVar, st, kycIdJson, a, now, uuid, ai, faults)
         == Analyze.Assess(env, aiCfg, aiAuth, deploymentVar, st, kycIdJson, b, now, uuid, ai, faults)
  {
    AnalyzeFields.PayloadIgnoresName(env, a, b, now);
  }

  // ------------------------------------------------------------ decision

  /** A fault-free decision on an existing case sets the final status and records it as
      the case's latest ledger state: status and ledger agree afterwards. */
  lemma DecisionKeepsConsistent(env: Env, st: Store, id: string, status: string, actor: string,
                                note: Option<string>, now: nat, uuid: string)
    requires HasCase(st, id)
    requires status == "APPROVED" || status == "REJECTED"
    ensures var r := Admin.ApplyDecision(env, st, id, status, actor, note, now, uuid, Admin.DecisionFaults(false, false, false));
      && r.code == 200
      && CaseStatus(r.store, id) == Some(status)
      && Consistent(r.store, id)
  {
    var r := Admin.ApplyDecision(env, st, id, status, actor, note, now, uuid, Admin.DecisionFaults(false, false, false));
    var t := TransitionRow(id, Some("PENDING_REVIEW"), status, Some(actor), note, now, uuid);
    assert r.store.transitions == st.transitions + [t];
    LastToStateAppend(st.transitions, t, id);
  }

  /** A lost ledger write during a decision still answers 200 and changes the status,
      so a case that agreed with its ledger under review no longer does. */
  lemma LostDecisionLedgerDiverges(env: Env, st: Store, id: string, status: string, actor: string,
                                   note: Option<string>, now: nat, uuid: string)
    requires CaseStatus(st, id) == Some("PENDING_REVIEW") && Consistent(st, id)
    requires status == "APPROVED" || status == "REJECTED"
    ensures var r := Admin.ApplyDecision(env, st, id, status, actor, note, now, uuid, Admin.DecisionFaults(false, true, false));
      && r.code == 200
      && CaseStatus(r.store, id) == Some(status)
      && LastToState(r.store.transitions, id) == Some("PENDING_REVIEW")
      && !Consistent(r.store, id)
  {
    var r := Admin.ApplyDecision(env, st, id, status, actor, note, now, uuid, Admin.DecisionFaults(false, true, false));
    assert r.store.transitions == st.transitions;
  }
}

=== FILE: open_ai.dfy ===
/** functions/services/openai.ts: `analyzeRiskWithOpenAI` as a decision over its
    configuration, the chosen credential and the completion reply. The request itself,
    Key Vault and the token service are not modelled; their outcomes are inputs. */
module OpenAi {
  import opened Wrappers
  import opened Json
  import opened JsRuntime
  import Text

  datatype AiConfig = AiConfig(endpoint: string, deployment: string, apiVersion: string)

  /** `A || B || default` over two optional environment values. */
  function FirstSet(a: Option<string>, b: Option<string>, default: string): (r: string)
    ensures a.Some? && a.value != "" ==> r == a.value
    ensures (a.None? || a.value == "") && b.Some? && b.value != "" ==> r == b.value
    ensures (a.None? || a.value == "") && (b.None? || b.value == "") ==> r == default
  {
    if a.Some? && a.value != "" then a.value
    else if b.Some? && b.value != "" then b.value
    else default
  }

  /** The `OPENAI_*` variable wins over its `AZURE_OPENAI_*` twin; the API version
      defaults to 2023-05-15. */
  function AiConfigFromEnv(endpoint: Option<string>, azureEndpoint: Option<string>,
                           deployment: Option<string>, azureDeployment: Option<string>,
                           apiVersion: Option<string>, azureApiVersion: Option<string>): AiConfig
  {
    AiConfig(FirstSet(endpoint, azureEndpoint, ""), FirstSet(deployment, azureDeployment, ""),
             FirstSet(apiVersion, azureApiVersion, "2023-05-15"))
  }

  /** The credential variables: `OPENAI_API_KEY`, `OPENAI_KEY_VAULT`, `OPENAI_KEY_SECRET`. */
  datatype AuthEnv = AuthEnv(apiKey: Option<string>, keyVault: Option<string>, keySecret: Option<string>)

  datatype AuthMethod = ApiKeyFromEnv(key: string) | KeyVaultSecret(vault: string, secret: string) | AadToken

  predicate IsSet(v: Option<string>) { v.Some? && v.value != "" }

  /** The environment key first, then the Key Vault pair, otherwise an AAD token. */
  function ChooseAuth(a: AuthEnv): (m: AuthMethod)
    ensures IsSet(a.apiKey) <==> m.ApiKeyFromEnv?
    ensures m.KeyVaultSecret? <==> !IsSet(a.apiKey) && IsSet(a.keyVault) && IsSet(a.keySecret)
    ensures m.ApiKeyFromEnv? ==> m.key == a.apiKey.value
    ensures m.KeyVaultSecret? ==> m.vault == a.keyVault.value && m.secret == a.keySecret.value
  {
    if IsSet(a.apiKey) then ApiKeyFromEnv(a.apiKey.value)
    else if IsSet(a.keyVault) && IsSet(a.keySecret) then KeyVaultSecret(a.keyVault.value, a.keySecret.value)
    else AadToken
  }

  datatype AiError =
    | NotConfigured
    | KeyVaultFailed
    | NoToken
    | CallFailed(status: int, text: string)
    | BadReply

  function AiMessage(e: AiError): string {
    match e
    case NotConfigured => "OPENAI_ENDPOINT or OPENAI_DEPLOYMENT not configured"
    case KeyVaultFailed => "Key Vault secret could not be read"
    case NoToken => "Failed to acquire AAD token for OpenAI"
    case CallFailed(s, t) => "OpenAI call failed: " + Text.IntToString(s) + " " + t
    case BadReply => "invalid completion reply"
  }

  /** `x?.[0]`: the first array element, the member "0" of an object, the first
      character of a string; undefined otherwise. */
  function First(v: Option<Json>): Option<Json> {
    match v
    case Some(JArr(items)) => if |items| > 0 then Some(items[0]) else None
    case Some(JObj(ms)) => Lookup(ms, "0")
    case Some(JStr(s)) => if |s| > 0 then Some(JStr([s[0]])) else None
    case _ => None
  }

  /** `json.choices?.[0]?.text || json.choices?.[0]?.message?.content || JSON.stringify(json)`. */
  function ReplyText(env: Env, json: Json): (t: Json)
    requires !json.JNull?
    ensures Present(Prop(First(Get(json, "choices")), "text")) ==> t == Prop(First(Get(json, "choices")), "text").value
    ensures (!Present(Prop(First(Get(json, "choices")), "text"))
             && Present(Prop(Prop(First(Get(json, "choices")), "message"), "content"))) ==>
        t == Prop(Prop(First(Get(json, "choices")), "message"), "content").value
    ensures (!Present(Prop(First(Get(json, "choices")), "text"))
             && !Present(Prop(Prop(First(Get(json, "choices")), "message"), "content"))) ==>
        t == JStr(env.stringify(json))
  {
    var choice := First(Get(json, "choices"));
    OrElse(Prop(choice, "text"), OrElse(Prop(Prop(choice, "message"), "content"), Some(JStr(env.stringify(json))))).value
  }

  /** The object returned when the reply text is not JSON. */
  function Fallback(env: Env, cfg: AiConfig, text: Json): Json {
    Obj([
      ("riskLevel", JStr("MEDIUM")),
      ("confidenceScore", JNum(0.5)),
      ("reasoning", JStr("Failed to parse model output. Raw response: " + Str(env, text))),
      ("modelVersion", JStr(if cfg.deployment != "" then cfg.deployment else "unknown"))])
  }

  /** `JSON.parse(text.trim())` inside the try: a non-string text (no `trim`) and an
      unparsable one both end in the fallback, so this never fails. */
  function InterpretText(env: Env, cfg: AiConfig, text: Json): (r: Json)
    ensures text.JStr? && env.parseJson(Text.Trim(text.s)).Some? ==> r == env.parseJson(Text.Trim(text.s)).value
    ensures !text.JStr? || env.parseJson(Text.Trim(text.s)).None? ==> r == Fallback(env, cfg, text)
  {
    match text
    case JStr(s) =>
      (match env.parseJson(Text.Trim(s))
       case Some(p) => p
       case None => Fallback(env, cfg, text))
    case _ => Fallback(env, cfg, text)
  }

  /** The fallback reads as a MEDIUM assessment with confidence 0.5 that carries the raw
      text in its reasoning. */
  lemma FallbackShape(env: Env, cfg: AiConfig, text: Json)
    ensures var f := Fallback(env, cfg, text);
      && Get(f, "riskLevel") == Some(JStr("MEDIUM"))
      && Get(f, "confidenceScore") == Some(JNum(0.5))
      && Get(f, "reasoning") == Some(JStr("Failed to parse model output. Raw response: " + Str(env, text)))
      && Get(f, "modelVersion").Some? && Truthy(Get(f, "modelVersion").value)
  {
    var pairs := [
      ("riskLevel", JStr("MEDIUM")),
      ("confidenceScore", JNum(0.5)),
      ("reasoning", JStr("Failed to parse model output. Raw response: " + Str(env, text))),
      ("modelVersion", JStr(if cfg.deployment != "" then cfg.deployment else "unknown"))];
    assert Fallback(env, cfg, text) == Obj(pairs);
    ObjGetAt(pairs, 0);
    ObjGetAt(pairs, 1);
    ObjGetAt(pairs, 2);
    ObjGetAt(pairs, 3);
  }

  /** `analyzeRiskWithOpenAI(fields)`. `secretOk` is whether the Key Vault read
      succeeded, `tokenOk` whether an AAD token was obtained; `reply` is the completion
      reply. */
  function AnalyzeRisk(env: Env, cfg: AiConfig, auth: AuthEnv, secretOk: bool, tokenOk: bool, reply: HttpReply): (r: Result<Json>)
    ensures cfg.endpoint == "" || cfg.deployment == "" ==> r == Err(AiMessage(NotConfigured))
    ensures r.Ok? ==> reply.ok && reply.body.Some? && !reply.body.value.JNull?
    ensures r.Ok? ==> r.value == InterpretText(env, cfg, ReplyText(env, reply.body.value))
  {
    if cfg.endpoint == "" || cfg.deployment == "" then Err(AiMessage(NotConfigured))
    else
      var via := ChooseAuth(auth);
      if via.KeyVaultSecret? && !secretOk then Err(AiMessage(KeyVaultFailed))
      else if via.AadToken? && !tokenOk then Err(AiMessage(NoToken))
      else if !reply.ok then Err(AiMessage(CallFailed(reply.status, reply.text)))
      // `json.choices` on a null reply throws outside the try
      else if reply.body.None? || reply.body.value.JNull? then Err(AiMessage(BadReply))
      else Ok(InterpretText(env, cfg, ReplyText(env, reply.body.value)))
  }

  /** Once an OK, non-null JSON reply is in hand the call cannot fail, and a text that
      parses is returned unchanged. */
  lemma ReplyNeverThrows(env: Env, cfg: AiConfig, auth: AuthEnv, reply: HttpReply)
    requires cfg.endpoint != "" && cfg.deployment != ""
    requires reply.ok && reply.body.Some? && !reply.body.value.JNull?
    ensures AnalyzeRisk(env, cfg, auth, true, true, reply).Ok?
    ensures var t := ReplyText(env, reply.body.value);
      t.JStr? && env.parseJson(Text.Trim(t.s)).Some? ==>
        AnalyzeRisk(env, cfg, auth, true, true, reply).value == env.parseJson(Text.Trim(t.s)).value
  {
  }

  /** The prompt: fixed instructions around the fields text. */
  function Prompt(fields: string): string {
    "You are a compliance assistant. Given the following extracted document fields as JSON or key/value pairs, classify the KYC risk as LOW, MEDIUM, or HIGH and provide a confidence score (0.0-1.0) and a human-readable reasoning. Output ONLY a JSON object with keys: riskLevel, confidenceScore, reasoning, modelVersion.\n\nFields:\n"
    + fields + "\n\nRespond with JSON only."
  }
}

=== FILE: sql_store.dfy ===
/** The relational store of functions/services/sql.ts as an immutable value.
    Every table is a sequence of rows in insertion order; a statement that fails
    leaves the store as it was. The case table keeps, per row, the key and the
    typed columns (`status`, `createdAt`, `fullName`, `dob`, `idType`) next to the
    JSON `data` column. The audit-blob container of the storage service lives here
    too, as a map from blob name to content. */
module SqlStore {
  import opened Wrappers
  import opened Json
  import opened KycTypes
  import opened JsRuntime
  import Text

  /** The JSON `data` column of a case: each key is None when absent from the object. */
  datatype CaseData = CaseData(
    id: Option<string>,
    kycId: Option<string>,
    userId: Option<string>,
    fullName: Option<string>,
    dob: Option<string>,
    idType: Option<string>,
    status: Option<string>,
    riskLevel: Option<string>,
    createdAt: Option<int>)

  const NoKeys := CaseData(None, None, None, None, None, None, None, None, None)

  datatype CaseRow = CaseRow(
    id: string,
    status: string,
    createdAt: int,
    fullName: Option<string>,
    dob: Option<int>,
    idType: Option<string>,
    data: CaseData)

  datatype Store = Store(
    cases: seq<CaseRow>,
    extractions: seq<Extraction>,
    risks: seq<RiskAssessment>,
    decisions: seq<Decision>,
    transitions: seq<Transition>,
    users: seq<User>,
    blobs: map<string, Json>)

  const EmptyStore := Store([], [], [], [], [], [], map[])

  /** A string value that is set and non-empty, i.e. truthy. */
  predicate Set(v: Option<string>) {
    v.Some? && v.value != ""
  }

  /** `a || b` on optional strings. */
  function Or(a: Option<string>, b: Option<string>): (r: Option<string>)
    ensures Set(a) ==> r == a
    ensures !Set(a) ==> r == b
  {
    if Set(a) then a else b
  }

  // ---------------------------------------------------------------- case data

  /** `{ ...existing, ...partial }`: keys present in `partial` override. */
  function Merge(existing: CaseData, partial: CaseData): CaseData {
    CaseData(
      if partial.id.Some? then partial.id else existing.id,
      if partial.kycId.Some? then partial.kycId else existing.kycId,
      if partial.userId.Some? then partial.userId else existing.userId,
      if partial.fullName.Some? then partial.fullName else existing.fullName,
      if partial.dob.Some? then partial.dob else existing.dob,
      if partial.idType.Some? then partial.idType else existing.idType,
      if partial.status.Some? then partial.status else existing.status,
      if partial.riskLevel.Some? then partial.riskLevel else existing.riskLevel,
      if partial.createdAt.Some? then partial.createdAt else existing.createdAt)
  }

  /** Merging is a right-biased override: the empty partial changes nothing, merging
      into the empty object yields the partial, repeating a merge changes nothing more,
      and successive merges compose. */
  lemma MergeLaws(a: CaseData, b: CaseData, c: CaseData)
    ensures Merge(a, NoKeys) == a
    ensures Merge(NoKeys, b) == b
    ensures Merge(Merge(a, b), b) == Merge(a, b)
    ensures Merge(Merge(a, b), c) == Merge(a, Merge(b, c))
  {
  }

  /** The JSON object a typed case serialises to. */
  function ToData(r: KycRequest): CaseData {
    CaseData(r.id, Some(r.kycId), Some(r.userId), r.fullName, r.dob, r.idType,
             Some(StatusName(r.status)), Some(RiskName(r.riskLevel)), Some(r.createdAt))
  }

  /** Reads a stored object back as a typed case, when it has every mandatory key and
      its status and risk level are among the enumerated values. */
  function FromData(d: CaseData): Option<KycRequest> {
    if d.kycId.None? || d.userId.None? || d.status.None? || d.riskLevel.None? || d.createdAt.None? then None
    else
      match (ParseStatus(d.status.value), ParseRisk(d.riskLevel.value))
      case (Some(s), Some(rl)) =>
        Some(KycRequest(d.id, d.kycId.value, d.userId.value, d.fullName, d.dob, d.idType, s, rl, d.createdAt.value))
      case _ => None
  }

  lemma DataRoundTrip(r: KycRequest)
    ensures FromData(ToData(r)) == Some(r)
  {
    StatusNamesRoundTrip(r.status, StatusName(r.status));
    RiskNamesRoundTrip(r.riskLevel, RiskName(r.riskLevel));
  }

  // ---------------------------------------------------------------- case table

  /** Position of the first row keyed `id`. */
  function FindCase(cases: seq<CaseRow>, id: string): (r: Option<nat>)
    ensures r.None? <==> forall i :: 0 <= i < |cases| ==> cases[i].id != id
    ensures r.Some? ==> r.value < |cases| && cases[r.value].id == id
    ensures r.Some? ==> forall i :: 0 <= i < r.value ==> cases[i].id != id
  {
    if |cases| == 0 then None
    else if cases[0].id == id then Some(0)
    else
      match FindCase(cases[1..], id)
      case None => None
      case Some(i) => Some(i + 1)
  }

  predicate HasCase(st: Store, id: string) {
    FindCase(st.cases, id).Some?
  }

  /** The status column of case `id`, if there is such a case. */
  function CaseStatus(st: Store, id: string): Option<string> {
    match FindCase(st.cases, id)
    case None => None
    case Some(i) => Some(st.cases[i].status)
  }

  /** A row appended under a new id is found at the end. */
  lemma {:induction false} FindAppended(cases: seq<CaseRow>, row: CaseRow)
    requires FindCase(cases, row.id).None?
    ensures FindCase(cases + [row], row.id) == Some(|cases|)
    decreases |cases|
  {
    if |cases| == 0 {
      assert cases + [row] == [row];
    } else {
      assert (cases + [row])[0] == cases[0];
      assert (cases + [row])[1..] == cases[1..] + [row];
      FindAppended(cases[1..], row);
    }
  }

  predicate UniqueCaseIds(cases: seq<CaseRow>) {
    forall i, j :: 0 <= i < j < |cases| ==> cases[i].id != cases[j].id
  }

  /** `item.id || item.kycId || null`. */
  function CaseKey(item: CaseData): (k: Option<string>)
    ensures k.Some? <==> Set(item.id) || Set(item.kycId)
    ensures k.Some? ==> k.value != "" && (k == item.id || k == item.kycId)
    ensures Set(item.id) ==> k == item.id
  {
    if Set(item.id) then item.id else if Set(item.kycId) then item.kycId else None
  }

  /** `createKycRequest`: inserts one case. The key is `item.id`, else `item.kycId`;
      the status column defaults to "pending" and `createdAt` to now. The key column
      is the table's primary key (the schema is not part of this model, so this is an
      assumption): a null or duplicate key makes the INSERT fail, and so does the
      injected failure flag. */
  function CreateKycRequest(st: Store, item: CaseData, now: int, env: Env, fails: bool): (r: Option<Store>)
    ensures r.Some? ==> CaseKey(item).Some?
    ensures r.Some? && CaseKey(item).Some? ==>
      var key := CaseKey(item).value;
      && !HasCase(st, key)
      && r.value == st.(cases := r.value.cases)
      && |r.value.cases| == |st.cases| + 1
      && r.value.cases[..|st.cases|] == st.cases
      && var row := r.value.cases[|st.cases|];
         && row.id == key && row.data == item
         && row.status == (if Set(item.status) then item.status.value else "pending")
         && row.createdAt == (if item.createdAt.Some? then item.createdAt.value else now)
    ensures r.None? <==> fails || CaseKey(item).None? || HasCase(st, CaseKey(item).value)
  {
    var key := CaseKey(item);
    if fails || key.None? || HasCase(st, key.value) then None
    else
      var row := CaseRow(
        key.value,
        if Set(item.status) then item.status.value else "pending",
        if item.createdAt.Some? then item.createdAt.value else now,
        if Set(item.fullName) then item.fullName else None,
        if Set(item.dob) then env.parseDate(item.dob.value) else None,
        if Set(item.idType) then item.idType else None,
        item);
      Some(st.(cases := st.cases + [row]))
  }

  /** `updateKycRequest`: rewrites `data` as the existing object overridden by the
      partial, and the status/fullName/dob/idType columns with the merged values,
      except that a merged value that is null keeps the column as it was (`ISNULL`). */
  function UpdateRow(row: CaseRow, partial: CaseData, env: Env): (r: CaseRow)
    ensures r.id == row.id && r.createdAt == row.createdAt
    ensures r.data == Merge(row.data, partial)
  {
    var merged := Merge(row.data, partial);
    var dobCol := if Set(merged.dob) then env.parseDate(merged.dob.value) else None;
    CaseRow(
      row.id,
      if Set(merged.status) then merged.status.value else row.status,
      row.createdAt,
      if Set(merged.fullName) then merged.fullName else row.fullName,
      if dobCol.Some? then dobCol else row.dob,
      if Set(merged.idType) then merged.idType else row.idType,
      merged)
  }

  /** For an unknown id the existing object is `{}` and the UPDATE matches no row, so
      nothing changes. */
  function UpdateKycRequest(st: Store, id: string, partial: CaseData, env: Env): (r: Store)
    ensures r == st.(cases := r.cases) && |r.cases| == |st.cases|
    ensures !HasCase(st, id) ==> r == st
    ensures forall i :: 0 <= i < |st.cases| && st.cases[i].id != id ==> r.cases[i] == st.cases[i]
    ensures forall i :: 0 <= i < |st.cases| ==> r.cases[i].id == st.cases[i].id
    ensures HasCase(st, id) ==>
      var i := FindCase(st.cases, id).value;
      r.cases[i].data == Merge(st.cases[i].data, partial)
  {
    match FindCase(st.cases, id)
    case None => st
    case Some(i) =>
      // UPDATE ... WHERE id = @id rewrites every row with that key
      var rows := seq(|st.cases|, k requires 0 <= k < |st.cases| =>
        if st.cases[k].id == id then UpdateRow(st.cases[i], partial, env) else st.cases[k]);
      st.(cases := rows)
  }

  /** Setting a non-empty status sets the status column of the case, when there is
      one. */
  lemma UpdateSetsStatus(st: Store, id: string, status: string, env: Env)
    requires status != ""
    ensures CaseStatus(UpdateKycRequest(st, id, NoKeys.(status := Some(status)), env), id) ==
            if HasCase(st, id) then Some(status) else None
  {
  }

  /** `getKycRequestById`: the stored object of the case, or null. */
  function GetKycRequestById(st: Store, id: string): (r: Option<CaseData>)
    ensures r.None? <==> !HasCase(st, id)
    ensures r.Some? ==> exists i :: 0 <= i < |st.cases| && st.cases[i].id == id && st.cases[i].data == r.value
  {
    match FindCase(st.cases, id)
    case None => None
    case Some(i) => Some(st.cases[i].data)
  }

  // ------------------------------------------------------ listing by status

  predicate NewestFirst(rows: seq<CaseRow>) {
    forall i, j :: 0 <= i < j < |rows| ==> rows[i].createdAt >= rows[j].createdAt
  }

  function InsertByAge(x: CaseRow, s: seq<CaseRow>): (r: seq<CaseRow>)
    requires NewestFirst(s)
    ensures NewestFirst(r)
    ensures multiset(r) == multiset(s) + multiset{x}
    ensures |r| == |s| + 1
  {
    if |s| == 0 || x.createdAt >= s[0].createdAt then [x] + s
    else
      var t := InsertByAge(x, s[1..]);
      InsertBelowHead(x, s, t);
      [s[0]] + t
  }

  /** Putting the newest row back in front of the insertion into the rest keeps the
      order and the contents. */
  lemma InsertBelowHead(x: CaseRow, s: seq<CaseRow>, t: seq<CaseRow>)
    requires |s| > 0 && NewestFirst(s) && x.createdAt < s[0].createdAt
    requires NewestFirst(t) && multiset(t) == multiset(s[1..]) + multiset{x}
    ensures NewestFirst([s[0]] + t)
    ensures multiset([s[0]] + t) == multiset(s) + multiset{x}
  {
    assert s == [s[0]] + s[1..];
    forall k | 0 <= k < |t|
      ensures t[k].createdAt <= s[0].createdAt
    {
      assert t[k] in multiset(t);
      if t[k] != x {
        assert t[k] in multiset(s[1..]);
        var m :| 0 <= m < |s[1..]| && s[1..][m] == t[k];
        assert s[m + 1] == t[k];
      }
    }
  }

  function SortNewestFirst(s: seq<CaseRow>): (r: seq<CaseRow>)
    ensures NewestFirst(r)
    ensures multiset(r) == multiset(s)
    ensures |r| == |s|
  {
    if |s| == 0 then []
    else
      assert s == [s[0]] + s[1..];
      InsertByAge(s[0], SortNewestFirst(s[1..]))
  }

  function WithStatus(rows: seq<CaseRow>, status: string): (r: seq<CaseRow>)
    ensures forall x :: x in r <==> x in rows && x.status == status
  {
    if |rows| == 0 then []
    else
      assert rows == [rows[0]] + rows[1..];
      (if rows[0].status == status then [rows[0]] else []) + WithStatus(rows[1..], status)
  }

  function Min(a: nat, b: nat): nat { if a <= b then a else b }

  /** The rows `SELECT TOP (@limit) ... WHERE status = @status ORDER BY createdAt DESC`
      returns: at most `limit` rows, all with that status, newest first, and no row
      left out is newer than one returned. Rows with equal `createdAt` may come in
      any order in SQL; here they keep a fixed order. */
  function TopByStatus(st: Store, status: string, limit: nat): (r: seq<CaseRow>)
    ensures |r| == Min(limit, |WithStatus(st.cases, status)|)
    ensures forall i :: 0 <= i < |r| ==> r[i] in st.cases && r[i].status == status
    ensures NewestFirst(r)
    ensures exists rest: seq<CaseRow> ::
      && multiset(r) + multiset(rest) == multiset(WithStatus(st.cases, status))
      && forall x, i :: x in rest && 0 <= i < |r| ==> x.createdAt <= r[i].createdAt
  {
    var matching := WithStatus(st.cases, status);
    var sorted := SortNewestFirst(matching);
    var n := Min(limit, |sorted|);
    TopOfSorted(st.cases, status, sorted, n);
    sorted[..n]
  }

  /** The first `n` rows of a newest-first arrangement of the rows with `status`
      are rows with that status, newest first, and none left out is newer. */
  lemma TopOfSorted(rows: seq<CaseRow>, status: string, sorted: seq<CaseRow>, n: nat)
    requires NewestFirst(sorted) && multiset(sorted) == multiset(WithStatus(rows, status)) && n <= |sorted|
    ensures forall i :: 0 <= i < n ==> sorted[i] in rows && sorted[i].status == status
    ensures NewestFirst(sorted[..n])
    ensures exists rest: seq<CaseRow> ::
      && multiset(sorted[..n]) + multiset(rest) == multiset(WithStatus(rows, status))
      && forall x, i :: x in rest && 0 <= i < |sorted[..n]| ==> x.createdAt <= sorted[..n][i].createdAt
  {
    var matching := WithStatus(rows, status);
    TakeNewest(sorted, n);
    TakeKeepsMembers(matching, sorted, n);
    var rest := sorted[n..];
    assert multiset(sorted[..n]) + multiset(rest) == multiset(matching);
  }

  lemma TakeKeepsMembers(matching: seq<CaseRow>, sorted: seq<CaseRow>, n: nat)
    requires multiset(sorted) == multiset(matching) && n <= |sorted|
    ensures forall i :: 0 <= i < n ==> sorted[i] in matching
  {
    forall i | 0 <= i < n
      ensures sorted[i] in matching
    {
      assert sorted[i] in multiset(sorted);
    }
  }

  /** Cutting a newest-first sequence keeps it newest-first, and nothing cut off is
      newer than anything kept. */
  lemma TakeNewest(sorted: seq<CaseRow>, n: nat)
    requires NewestFirst(sorted) && n <= |sorted|
    ensures NewestFirst(sorted[..n])
    ensures multiset(sorted[..n]) + multiset(sorted[n..]) == multiset(sorted)
    ensures forall x, i :: x in sorted[n..] && 0 <= i < n ==> x.createdAt <= sorted[i].createdAt
  {
    assert sorted == sorted[..n] + sorted[n..];
    forall x, i | x in sorted[n..] && 0 <= i < n
      ensures x.createdAt <= sorted[i].createdAt
    {
      var j :| 0 <= j < |sorted[n..]| && sorted[n..][j] == x;
      assert sorted[n + j] == x;
    }
  }

  /** `getRequestsByStatus`: the stored objects of `TopByStatus`, in its order. */
  function GetRequestsByStatus(st: Store, status: string, limit: nat): (items: seq<CaseData>)
    ensures |items| <= limit
    ensures |items| == |TopByStatus(st, status, limit)|
    ensures forall i :: 0 <= i < |items| ==> items[i] == TopByStatus(st, status, limit)[i].data
  {
    var rows := TopByStatus(st, status, limit);
    seq(|rows|, i requires 0 <= i < |rows| => rows[i].data)
  }

  const DefaultLimit: nat := 50

  // ------------------------------------------------------------ extractions

  /** `getExtractionByKycId`: the extraction of the case with the latest
      `extractedAt`, or null when the case has none. */
  function LatestExtraction(exts: seq<Extraction>, kycId: string): (r: Option<Extraction>)
    ensures r.None? <==> forall i :: 0 <= i < |exts| ==> exts[i].kycId != kycId
    ensures r.Some? ==> r.value in exts && r.value.kycId == kycId
    ensures r.Some? ==> forall e :: e in exts && e.kycId == kycId ==> e.extractedAt <= r.value.extractedAt
  {
    if |exts| == 0 then None
    else
      var last := exts[|exts| - 1];
      var init := exts[..|exts| - 1];
      assert exts == init + [last];
      var best := LatestExtraction(init, kycId);
      if last.kycId != kycId then best
      else if best.None? || best.value.extractedAt <= last.extractedAt then Some(last)
      else best
  }

  function GetExtractionByKycId(st: Store, kycId: string): Option<Extraction> {
    LatestExtraction(st.extractions, kycId)
  }

  // ---------------------------------------------------------- append-only tables

  /** `createExtractionRecord`, `createRiskAssessment`, `createDecisionRecord`,
      `createUser`: plain INSERTs. */
  function CreateExtractionRecord(st: Store, rec: Extraction): (r: Store)
    ensures r == st.(extractions := st.extractions + [rec])
  {
    st.(extractions := st.extractions + [rec])
  }

  function CreateRiskAssessment(st: Store, rec: RiskAssessment): (r: Store)
    ensures r == st.(risks := st.risks + [rec])
  {
    st.(risks := st.risks + [rec])
  }

  function CreateDecisionRecord(st: Store, rec: Decision): (r: Store)
    ensures r == st.(decisions := st.decisions + [rec])
  {
    st.(decisions := st.decisions + [rec])
  }

  function CreateUser(st: Store, user: User): (r: Store)
    ensures r == st.(users := st.users + [user])
  {
    st.(users := st.users + [user])
  }

  /** The ledger row `recordStateTransition` inserts: its id is `<kycId>-<now>` when a
      non-empty reason is given and a fresh uuid otherwise; empty actor and reason are
      stored as null. */
  function TransitionRow(kycId: string, from: Option<string>, to: string, actor: Option<string>,
                         reason: Option<string>, now: nat, uuid: string): (t: Transition)
    ensures t.kycId == kycId && t.fromState == from && t.toState == to && t.createdAt == now
    ensures Set(reason) ==> t.id == kycId + "-" + Text.NatToString(now) && t.reason == reason
    ensures !Set(reason) ==> t.id == uuid && t.reason.None?
    ensures t.actor == (if Set(actor) then actor else None)
  {
    Transition(
      if Set(reason) then kycId + "-" + Text.NatToString(now) else uuid,
      kycId, from, to,
      if Set(actor) then actor else None,
      if Set(reason) then reason else None,
      now)
  }

  function RecordStateTransition(st: Store, kycId: string, from: Option<string>, to: string,
                                 actor: Option<string>, reason: Option<string>, now: nat, uuid: string): (r: Store)
    ensures r == st.(transitions := st.transitions + [TransitionRow(kycId, from, to, actor, reason, now, uuid)])
  {
    st.(transitions := st.transitions + [TransitionRow(kycId, from, to, actor, reason, now, uuid)])
  }

  /** `getUserByEmail`: the first user with that email, or null. */
  function GetUserByEmail(users: seq<User>, email: string): (r: Option<User>)
    ensures r.None? <==> forall i :: 0 <= i < |users| ==> users[i].email != email
    ensures r.Some? ==> r.value in users && r.value.email == email
  {
    if |users| == 0 then None
    else if users[0].email == email then Some(users[0])
    else
      var r := GetUserByEmail(users[1..], email);
      assert forall i :: 1 <= i < |users| ==> users[i] == users[1..][i - 1];
      r
  }

  // ------------------------------------------------------------ audit tables

  /** Extraction, risk, decision, ledger and user rows are only ever appended, and
      no audit blob is removed. */
  predicate AuditGrows(before: Store, after: Store) {
    && before.extractions <= after.extractions
    && before.risks <= after.risks
    && before.decisions <= after.decisions
    && before.transitions <= after.transitions
    && before.users <= after.users
    && before.blobs.Keys <= after.blobs.Keys
    && |before.cases| <= |after.cases|
  }

  lemma AuditGrowsTransitive(a: Store, b: Store, c: Store)
    requires AuditGrows(a, b) && AuditGrows(b, c)
    ensures AuditGrows(a, c)
  {
  }
}

=== FILE: text.dfy ===
/** String helpers with the semantics of the JavaScript built-ins the source uses:
    whitespace as matched by `\s` and removed by `trim`, ASCII case mapping,
    `split`/`join` on one separator character, and decimal rendering of
    non-negative integers (timestamps). */
module Text {

  /** ECMAScript WhiteSpace and LineTerminator code points: the set matched by `\s`
      and stripped by `String.prototype.trim`. */
  predicate IsJsSpace(c: char) {
    || c == ' ' || c == '\t' || c == '\n' || c == '\r' || c == '\U{000B}' || c == '\U{000C}'
    || c == '\U{00A0}' || c == '\U{1680}' || ('\U{2000}' <= c <= '\U{200A}')
    || c == '\U{2028}' || c == '\U{2029}' || c == '\U{202F}' || c == '\U{205F}'
    || c == '\U{3000}' || c == '\U{FEFF}'
  }

  predicate NoSpace(s: string) {
    forall i :: 0 <= i < |s| ==> !IsJsSpace(s[i])
  }

  /** `s.replace(/\s+/g, "")`: every whitespace character removed, the rest kept in order. */
  function RemoveSpaces(s: string): (r: string)
    ensures NoSpace(r)
    ensures |r| <= |s|
    ensures NoSpace(s) ==> r == s
  {
    if |s| == 0 then ""
    else if IsJsSpace(s[0]) then RemoveSpaces(s[1..])
    else [s[0]] + RemoveSpaces(s[1..])
  }

  /** Removing whitespace keeps every other character, as often as it occurs. */
  lemma {:induction false} RemoveSpacesKeeps(s: string)
    ensures forall c :: !IsJsSpace(c) ==> multiset(RemoveSpaces(s))[c] == multiset(s)[c]
    decreases |s|
  {
    if |s| > 0 {
      RemoveSpacesKeeps(s[1..]);
      assert s == [s[0]] + s[1..];
    }
  }

  /** Removal works piecewise, so the kept characters stay in their order. */
  lemma {:induction false} RemoveSpacesAppend(a: string, b: string)
    ensures RemoveSpaces(a + b) == RemoveSpaces(a) + RemoveSpaces(b)
    decreases |a|
  {
    if |a| == 0 {
      assert a + b == b;
    } else {
      assert (a + b)[0] == a[0];
      assert (a + b)[1..] == a[1..] + b;
      RemoveSpacesAppend(a[1..], b);
    }
  }

  function TrimStart(s: string): (r: string)
    ensures |r| <= |s| && r == s[|s| - |r|..]
    ensures |r| > 0 ==> !IsJsSpace(r[0])
    ensures forall i :: 0 <= i < |s| - |r| ==> IsJsSpace(s[i])
  {
    if |s| > 0 && IsJsSpace(s[0]) then TrimStart(s[1..]) else s
  }

  function TrimEnd(s: string): (r: string)
    ensures |r| <= |s| && r == s[..|r|]
    ensures |r| > 0 ==> !IsJsSpace(r[|r| - 1])
    ensures forall i :: |r| <= i < |s| ==> IsJsSpace(s[i])
  {
    if |s| > 0 && IsJsSpace(s[|s| - 1]) then TrimEnd(s[..|s| - 1]) else s
  }

  /** `s.trim()`. */
  function Trim(s: string): string {
    TrimEnd(TrimStart(s))
  }

  /** Trim removes only surrounding whitespace: the result is a slice of the input,
      and it is empty exactly when the input is all whitespace. */
  lemma TrimIsSlice(s: string)
    ensures exists i, j :: 0 <= i <= j <= |s| && Trim(s) == s[i..j]
    ensures |Trim(s)| == 0 <==> (forall k :: 0 <= k < |s| ==> IsJsSpace(s[k]))
    ensures |Trim(s)| > 0 ==> !IsJsSpace(Trim(s)[0]) && !IsJsSpace(Trim(s)[|Trim(s)| - 1])
  {
    var t := TrimStart(s);
    var r := TrimEnd(t);
    assert r == s[|s| - |t|..][..|r|];
    assert r == s[|s| - |t|..|s| - |t| + |r|];
    if |r| == 0 {
      assert |t| == 0;
    } else {
      assert !IsJsSpace(r[0]);
      assert r[0] == s[|s| - |t|];
    }
  }

  predicate IsUpperAscii(c: char) { 'A' <= c <= 'Z' }

  function LowerChar(c: char): (d: char)
    ensures !IsUpperAscii(d)
  {
    if IsUpperAscii(c) then (c as int + 32) as char else c
  }

  function UpperChar(c: char): (d: char)
    ensures !('a' <= d <= 'z')
  {
    if 'a' <= c <= 'z' then (c as int - 32) as char else c
  }

  /** `s.toLowerCase()`, restricted to the ASCII letters. */
  function Lower(s: string): (r: string)
    ensures |r| == |s|
    ensures forall i :: 0 <= i < |r| ==> r[i] == LowerChar(s[i])
  {
    seq(|s|, i requires 0 <= i < |s| => LowerChar(s[i]))
  }

  /** `s.toUpperCase()`, restricted to the ASCII letters. */
  function Upper(s: string): (r: string)
    ensures |r| == |s|
    ensures forall i :: 0 <= i < |r| ==> r[i] == UpperChar(s[i])
  {
    seq(|s|, i requires 0 <= i < |s| => UpperChar(s[i]))
  }

  /** Lower-casing twice is lower-casing once. */
  lemma LowerIdempotent(s: string)
    ensures Lower(Lower(s)) == Lower(s)
  {
  }

  /** Upper-casing twice is upper-casing once. */
  lemma UpperIdempotent(s: string)
    ensures Upper(Upper(s)) == Upper(s)
  {
  }

  /** Case-insensitive comparison: lower-casing forgets a prior upper-casing, and
      the other way round. */
  lemma CaseMappingsAbsorb(s: string)
    ensures Lower(Upper(s)) == Lower(s)
    ensures Upper(Lower(s)) == Upper(s)
  {
  }

  /** A lower-cased string never equals a string holding an upper-case ASCII letter. */
  lemma LowerNeverMixedCase(s: string, t: string, k: nat)
    requires k < |t| && IsUpperAscii(t[k])
    ensures Lower(s) != t
  {
    if |s| == |t| {
      assert !IsUpperAscii(Lower(s)[k]);
    }
  }

  predicate StartsWith(s: string, prefix: string) {
    |prefix| <= |s| && s[..|prefix|] == prefix
  }

  predicate IsDigit(c: char) { '0' <= c <= '9' }

  predicate AllDigits(s: string) {
    forall i :: 0 <= i < |s| ==> IsDigit(s[i])
  }

  function DigitChar(d: nat): (c: char)
    requires d < 10
    ensures IsDigit(c)
  {
    "0123456789"[d]
  }

  function DigitValue(c: char): nat
    requires IsDigit(c)
  {
    c as int - '0' as int
  }

  /** Decimal rendering of a non-negative integer, as `String(n)` / `${n}` produce it. */
  function NatToString(n: nat): (s: string)
    ensures |s| >= 1 && AllDigits(s)
    decreases n
  {
    if n < 10 then [DigitChar(n)] else NatToString(n / 10) + [DigitChar(n % 10)]
  }

  /** `String(n)` for any integer. */
  function IntToString(n: int): string {
    if n < 0 then "-" + NatToString(-n) else NatToString(n)
  }

  /** Reads a string of decimal digits back as a number. */
  function ParseDigits(s: string): nat
    requires AllDigits(s)
  {
    if |s| == 0 then 0 else ParseDigits(s[..|s| - 1]) * 10 + DigitValue(s[|s| - 1])
  }

  lemma {:induction false} ParseNatToString(n: nat)
    ensures ParseDigits(NatToString(n)) == n
    decreases n
  {
    var s := NatToString(n);
    if n >= 10 {
      ParseNatToString(n / 10);
      assert s[..|s| - 1] == NatToString(n / 10);
      assert DigitValue(s[|s| - 1]) == n % 10;
    } else {
      assert DigitValue(s[0]) == n;
    }
  }

  /** Distinct timestamps render as distinct strings. */
  lemma NatToStringInjective(a: nat, b: nat)
    ensures NatToString(a) == NatToString(b) ==> a == b
  {
    ParseNatToString(a);
    ParseNatToString(b);
  }

  /** Index of the first occurrence of `c` in `s`. */
  function IndexOf(s: string, c: char): (i: nat)
    requires c in s
    ensures i < |s| && s[i] == c && c !in s[..i]
  {
    if s[0] == c then 0 else 1 + IndexOf(s[1..], c)
  }

  /** `s.split(sep)` for a one-character separator. */
  function Split(s: string, sep: char): (parts: seq<string>)
    ensures |parts| >= 1
    ensures forall i :: 0 <= i < |parts| ==> sep !in parts[i]
    decreases |s|
  {
    if sep in s then
      var i := IndexOf(s, sep);
      [s[..i]] + Split(s[i + 1..], sep)
    else
      [s]
  }

  /** `parts.join(sep)`. */
  function Join(parts: seq<string>, sep: string): string {
    if |parts| == 0 then ""
    else if |parts| == 1 then parts[0]
    else parts[0] + sep + Join(parts[1..], sep)
  }

  lemma {:induction false} JoinSplit(s: string, sep: char)
    ensures Join(Split(s, sep), [sep]) == s
    decreases |s|
  {
    if sep in s {
      var i := IndexOf(s, sep);
      var rest := Split(s[i + 1..], sep);
      JoinSplit(s[i + 1..], sep);
      assert Split(s, sep) == [s[..i]] + rest;
      assert ([s[..i]] + rest)[1..] == rest;
      assert s == s[..i] + [sep] + s[i + 1..];
    }
  }

  lemma {:induction false} IndexOfAfterPrefix(a: string, sep: char, b: string)
    requires sep !in a
    ensures sep in a + [sep] + b && IndexOf(a + [sep] + b, sep) == |a|
    decreases |a|
  {
    var s := a + [sep] + b;
    assert s[|a|] == sep;
    if |a| > 0 {
      assert s[1..] == a[1..] + [sep] + b;
      IndexOfAfterPrefix(a[1..], sep, b);
    }
  }

  /** Splitting at the first separator. */
  lemma SplitAtFirst(head: string, sep: char, rest: string)
    requires sep !in head
    ensures Split(head + [sep] + rest, sep) == [head] + Split(rest, sep)
  {
    var s := head + [sep] + rest;
    IndexOfAfterPrefix(head, sep, rest);
    assert s[..|head|] == head && s[|head| + 1..] == rest;
  }

  /** Splitting at two leading separators peels off both heads. */
  lemma SplitTwoHeads(h1: string, h2: string, rest: string, sep: char)
    requires sep !in h1 && sep !in h2
    ensures Split(h1 + [sep] + h2 + [sep] + rest, sep) == [h1, h2] + Split(rest, sep)
  {
    var tail := h2 + [sep] + rest;
    assert h1 + [sep] + h2 + [sep] + rest == h1 + [sep] + tail;
    SplitAtFirst(h1, sep, tail);
    SplitAtFirst(h2, sep, rest);
  }

  lemma {:induction false} SplitJoin(parts: seq<string>, sep: char)
    requires |parts| >= 1
    requires forall i :: 0 <= i < |parts| ==> sep !in parts[i]
    ensures Split(Join(parts, [sep]), sep) == parts
    decreases |parts|
  {
    if |parts| > 1 {
      var tail := Join(parts[1..], [sep]);
      var s := parts[0] + [sep] + tail;
      assert Join(parts, [sep]) == s;
      IndexOfAfterPrefix(parts[0], sep, tail);
      assert s[..|parts[0]|] == parts[0];
      assert s[|parts[0]| + 1..] == tail;
      SplitJoin(parts[1..], sep);
      assert Split(s, sep) == [parts[0]] + parts[1..];
    }
  }
}

=== FILE: users.dfy ===
/** functions/auth-register/index.ts and functions/auth-login/index.ts: self-service
    accounts with bcrypt password hashes and signed session tokens. Hashing, comparing
    and signing are the runtime's functions; the user id and the write fault are
    inputs. */
module Users {
  import opened Wrappers
  import opened Json
  import opened JsRuntime
  import opened KycTypes
  import opened SqlStore
  import opened Http
  import Auth

  const CredentialsRequired := "email and password required"
  const UserExists := "user already exists"
  const InvalidCredentials := "invalid credentials"
  const UserCreated := "user created"
  const IllegalArguments := "Illegal arguments"
  const UserInsertFailed := "user insert failed"

  /** `process.env.AUTH_SHARED_SECRET || "dev-secret"`. */
  function SigningSecret(secretVar: Option<string>): (s: string)
    ensures Set(secretVar) ==> s == secretVar.value
    ensures !Set(secretVar) ==> s == "dev-secret"
  {
    if Set(secretVar) then secretVar.value else "dev-secret"
  }

  /** `!email || !password`. */
  predicate MissingCredentials(b: Json) {
    !Present(Get(b, "email")) || !Present(Get(b, "password"))
  }

  function EmailOf(env: Env, b: Json): string
    requires !MissingCredentials(b)
  {
    Str(env, Get(b, "email").value)
  }

  /** Every email belongs to at most one account. */
  predicate UniqueEmails(users: seq<User>) {
    forall i, j :: 0 <= i < j < |users| ==> users[i].email != users[j].email
  }

  /** The account a registration creates: `name || ""`, the bcrypt hash of the
      password, the single role "user". */
  function NewUser(env: Env, b: Json, id: string): User
    requires !MissingCredentials(b) && Get(b, "password").value.JStr?
  {
    User(id, EmailOf(env, b), if Present(Get(b, "name")) then Str(env, Get(b, "name").value) else "",
         env.bcryptHash(Get(b, "password").value.s), ["user"])
  }

  /** `POST /api/auth/register`. A password that is not a string makes bcrypt throw. */
  function Register(env: Env, httpMethod: string, body: Option<Json>, st: Store, id: string, insertFails: bool): (r: Reply)
    ensures httpMethod != "POST" ==> r == Reply(405, ErrorBody(MethodNotAllowed), st)
    ensures httpMethod == "POST" && MissingCredentials(BodyOf(body)) ==> r == Reply(400, ErrorBody(CredentialsRequired), st)
    ensures (httpMethod == "POST" && !MissingCredentials(BodyOf(body)) &&
             GetUserByEmail(st.users, EmailOf(env, BodyOf(body))).Some?) ==> r == Reply(409, ErrorBody(UserExists), st)
    ensures r.code == 201 <==>
      && httpMethod == "POST" && !MissingCredentials(BodyOf(body))
      && GetUserByEmail(st.users, EmailOf(env, BodyOf(body))).None?
      && Get(BodyOf(body), "password").value.JStr? && !insertFails
    ensures r.code == 201 ==> r.store == CreateUser(st, NewUser(env, BodyOf(body), id))
    ensures r.code != 201 ==> r.store == st
    ensures UniqueEmails(st.users) ==> UniqueEmails(r.store.users)
  {
    if httpMethod != "POST" then Reply(405, ErrorBody(MethodNotAllowed), st)
    else
      var b := BodyOf(body);
      if MissingCredentials(b) then Reply(400, ErrorBody(CredentialsRequired), st)
      else if GetUserByEmail(st.users, EmailOf(env, b)).Some? then Reply(409, ErrorBody(UserExists), st)
      else if !Get(b, "password").value.JStr? then Reply(500, ErrorBody(IllegalArguments), st)
      else if insertFails then Reply(500, ErrorBody(UserInsertFailed), st)
      else
        var u := NewUser(env, b, id);
        var body := Obj([("message", JStr(UserCreated))]);
        Reply(201, body, CreateUser(st, u))
  }

  function RolesJson(roles: seq<string>): (j: Json)
    ensures j.JArr? && |j.items| == |roles|
    ensures forall i :: 0 <= i < |roles| ==> j.items[i] == JStr(roles[i])
  {
    JArr(seq(|roles|, i requires 0 <= i < |roles| => JStr(roles[i])))
  }

  /** `{ sub: id, email, name, roles }`: the token claims. */
  function Claims(u: User): (c: Json)
    ensures Get(c, "sub") == Some(JStr(u.id))
    ensures Get(c, "email") == Some(JStr(u.email)) && Get(c, "name") == Some(JStr(u.name))
    ensures Get(c, "roles") == Some(RolesJson(u.roles))
    ensures Get(c, "role").None? && Get(c, "is_admin").None?
  {
    var ms := [Member("sub", JStr(u.id)), Member("email", JStr(u.email)), Member("name", JStr(u.name)), Member("roles", RolesJson(u.roles))];
    LookupFirst(ms, 1); LookupFirst(ms, 2); LookupFirst(ms, 3); LookupAbsent(ms, "role"); LookupAbsent(ms, "is_admin");
    JObj(ms)
  }

  /** `{ id, email, name, roles }`: the account as the login reply shows it, the same
      facts as the claims but under `id` instead of `sub`. */
  function UserView(u: User): (v: Json)
    ensures Get(v, "id") == Some(JStr(u.id)) && Get(v, "sub").None?
    ensures Get(v, "email") == Some(JStr(u.email)) && Get(v, "name") == Some(JStr(u.name))
    ensures Get(v, "roles") == Some(RolesJson(u.roles))
  {
    var ms := [Member("id", JStr(u.id)), Member("email", JStr(u.email)), Member("name", JStr(u.name)), Member("roles", RolesJson(u.roles))];
    LookupFirst(ms, 1); LookupFirst(ms, 2); LookupFirst(ms, 3); LookupAbsent(ms, "sub");
    JObj(ms)
  }

  function LoginBody(token: string, u: User): (b: Json)
    ensures Get(b, "token") == Some(JStr(token))
    ensures Get(b, "user") == Some(UserView(u))
  {
    var ms := [Member("token", JStr(token)), Member("user", UserView(u))];
    LookupFirst(ms, 1);
    JObj(ms)
  }

  /** `POST /api/auth/login`: a signed token for the first account with that email
      whose hash matches the password. Reads only. */
  function Login(env: Env, secretVar: Option<string>, httpMethod: string, body: Option<Json>, st: Store): (r: Reply)
    ensures r.store == st
    ensures httpMethod != "POST" ==> r == Reply(405, ErrorBody(MethodNotAllowed), st)
    ensures httpMethod == "POST" && MissingCredentials(BodyOf(body)) ==> r == Reply(400, ErrorBody(CredentialsRequired), st)
    ensures (httpMethod == "POST" && !MissingCredentials(BodyOf(body)) &&
             GetUserByEmail(st.users, EmailOf(env, BodyOf(body))).None?) ==> r == Reply(401, ErrorBody(InvalidCredentials), st)
    ensures (httpMethod == "POST" && !MissingCredentials(BodyOf(body)) &&
             GetUserByEmail(st.users, EmailOf(env, BodyOf(body))).Some? &&
             Get(BodyOf(body), "password").value.JStr? &&
             !env.bcryptCompare(Get(BodyOf(body), "password").value.s,
                                GetUserByEmail(st.users, EmailOf(env, BodyOf(body))).value.passwordHash)) ==>
      r == Reply(401, ErrorBody(InvalidCredentials), st)
    ensures r.code == 200 <==>
      && httpMethod == "POST" && !MissingCredentials(BodyOf(body))
      && GetUserByEmail(st.users, EmailOf(env, BodyOf(body))).Some?
      && Get(BodyOf(body), "password").value.JStr?
      && env.bcryptCompare(Get(BodyOf(body), "password").value.s, GetUserByEmail(st.users, EmailOf(env, BodyOf(body))).value.passwordHash)
    ensures r.code == 200 ==>
      var u := GetUserByEmail(st.users, EmailOf(env, BodyOf(body))).value;
      r.body == LoginBody(env.jwtSign(Claims(u), SigningSecret(secretVar)), u)
  {
    if httpMethod != "POST" then Reply(405, ErrorBody(MethodNotAllowed), st)
    else
      var b := BodyOf(body);
      if MissingCredentials(b) then Reply(400, ErrorBody(CredentialsRequired), st)
      else match GetUserByEmail(st.users, EmailOf(env, b))
        case None => Reply(401, ErrorBody(InvalidCredentials), st)
        case Some(u) =>
          if !Get(b, "password").value.JStr? then Reply(500, ErrorBody(IllegalArguments), st)
          else if !env.bcryptCompare(Get(b, "password").value.s, u.passwordHash) then Reply(401, ErrorBody(InvalidCredentials), st)
          else Reply(200, LoginBody(env.jwtSign(Claims(u), SigningSecret(secretVar)), u), st)
  }

  /** A wrong password for a known email gets the very reply an unknown email gets,
      so the login route does not reveal which emails have accounts. */
  lemma WrongPasswordLooksLikeUnknownEmail(env: Env, secretVar: Option<string>, email: string, password: string,
                                           known: Store, unknown: Store)
    requires GetUserByEmail(known.users, email).Some? && GetUserByEmail(unknown.users, email).None?
    requires !env.bcryptCompare(password, GetUserByEmail(known.users, email).value.passwordHash)
    requires email != "" && password != ""
    ensures var b := Some(Obj([("email", JStr(email)), ("password", JStr(password))]));
      && Login(env, secretVar, "POST", b, known) == Reply(401, ErrorBody(InvalidCredentials), known)
      && Login(env, secretVar, "POST", b, unknown) == Reply(401, ErrorBody(InvalidCredentials), unknown)
  {
    var pairs := [("email", JStr(email)), ("password", JStr(password))];
    ObjGetAt(pairs, 0);
    ObjGetAt(pairs, 1);
  }

  /** Registering and then logging in with the same credentials yields a token for the
      new account whenever bcrypt accepts the password against its own hash, and a
      self-registered account is never an administrator. */
  lemma RegisterThenLogin(env: Env, secretVar: Option<string>, body: Option<Json>, st: Store, id: string)
    requires !MissingCredentials(BodyOf(body)) && Get(BodyOf(body), "password").value.JStr?
    requires GetUserByEmail(st.users, EmailOf(env, BodyOf(body))).None?
    requires env.bcryptCompare(Get(BodyOf(body), "password").value.s, env.bcryptHash(Get(BodyOf(body), "password").value.s))
    ensures var reg := Register(env, "POST", body, st, id, false);
      var login := Login(env, secretVar, "POST", body, reg.store);
      var u := NewUser(env, BodyOf(body), id);
      && reg.code == 201
      && login.code == 200
      && login.body == LoginBody(env.jwtSign(Claims(u), SigningSecret(secretVar)), u)
      && !Auth.IsAdmin(Some(Claims(u)))
  {
    var b := BodyOf(body);
    var u := NewUser(env, b, id);
    FirstMatchIsAppended(st.users, u);
    assert RolesJson(u.roles).items == [JStr("user")];
    Auth.AdminByRolesArray(Claims(u), [JStr("user")]);
  }

  /** Looking an email up after appending its first holder finds that holder. */
  lemma FirstMatchIsAppended(users: seq<User>, u: User)
    requires GetUserByEmail(users, u.email).None?
    ensures GetUserByEmail(users + [u], u.email) == Some(u)
  {
    var all := users + [u];
    assert all[|users|] == u;
    assert forall i :: 0 <= i < |users| ==> all[i] == users[i];
  }
}

=== FILE: wizard.dfy ===
/** The first wizard pages: app/lead/page.tsx, app/applicant/page.tsx and
    app/application/page.tsx, with what every page shares: the outcome of a button
    press (the new form state, the message shown, the route pushed) and the
    required-field check. */
module Wizard {
  import opened Wrappers
  import opened Json
  import opened JsRuntime
  import opened FormFlow
  import Text

  /** What a button press leaves behind: the form state, the error or alert text
      ("" for none), and the route pushed, if any. */
  datatype PageResult = PageResult(state: FlowState, error: string, route: Option<string>)

  /** `!obj[key]` is false. */
  predicate Filled(obj: Json, key: string) {
    Present(Get(obj, key))
  }

  /** `required.filter((k) => !obj[k])`. */
  function Missing(obj: Json, required: seq<string>): (m: seq<string>)
    ensures |m| <= |required|
    ensures forall k :: k in m <==> k in required && !Filled(obj, k)
  {
    if |required| == 0 then []
    else (if Filled(obj, required[0]) then [] else [required[0]]) + Missing(obj, required[1..])
  }

  /** The filter keeps the list's order: checking two lists one after the other
      lists the first list's gaps before the second's. */
  lemma {:induction false} MissingAppend(obj: Json, a: seq<string>, b: seq<string>)
    ensures Missing(obj, a + b) == Missing(obj, a) + Missing(obj, b)
    decreases |a|
  {
    if |a| == 0 {
      assert a + b == b;
    } else {
      assert (a + b)[0] == a[0];
      assert (a + b)[1..] == a[1..] + b;
      MissingAppend(obj, a[1..], b);
    }
  }

  /** On a form with nothing entered every required field is reported, in order. */
  lemma {:induction false} NothingEnteredMissesAll(required: seq<string>)
    ensures Missing(JObj([]), required) == required
    decreases |required|
  {
    if |required| > 0 {
      NothingEnteredMissesAll(required[1..]);
    }
  }

  /** `'Please fill: ' + missing.join(', ')`. */
  function FillMessage(prefix: string, missing: seq<string>): string {
    prefix + Text.Join(missing, ", ")
  }

  /** `if (!obj[key]) update({ key: `${prefix}${Date.now()}` })`: a fresh id only
      when none is there. */
  function StampId(obj: Json, key: string, prefix: string, now: nat): (patch: seq<Member>)
    ensures Filled(obj, key) ==> patch == []
    ensures !Filled(obj, key) ==> Lookup(patch, key) == Some(JStr(prefix + Text.NatToString(now)))
    ensures forall k :: k != key ==> Lookup(patch, k).None?
  {
    if Filled(obj, key) then [] else Patch([(key, JStr(prefix + Text.NatToString(now)))])
  }

  /** The id stamp always leaves a truthy id, and keeps an id that was there. */
  lemma StampKeepsOrCreates(obj: Json, key: string, prefix: string, now: nat)
    requires obj.JObj?
    ensures Filled(Spread(obj, StampId(obj, key, prefix, now)), key)
    ensures Filled(obj, key) ==> Get(Spread(obj, StampId(obj, key, prefix, now)), key) == Get(obj, key)
  {
    if !Filled(obj, key) {
      assert Truthy(JStr(prefix + Text.NatToString(now))) by {
        assert |Text.NatToString(now)| >= 1;
      }
    }
  }

  /** The step shared by the lead and applicant pages: every required field must be
      truthy; then the page's id is stamped (once) and the next page is pushed. */
  function RequireAndStamp(slice: Json, required: seq<string>, idKey: string, idPrefix: string,
                           now: nat): (r: Result<seq<Member>>)
    ensures r.Ok? <==> Missing(slice, required) == []
    ensures r.Err? ==> r.message == FillMessage("Please fill: ", Missing(slice, required))
    ensures r.Ok? ==> r.value == StampId(slice, idKey, idPrefix, now)
  {
    var missing := Missing(slice, required);
    if |missing| > 0 then Err(FillMessage("Please fill: ", missing)) else Ok(StampId(slice, idKey, idPrefix, now))
  }

  // ------------------------------------------------------------ lead page

  const LeadRequired := ["lead_name", "lead_ph_no", "lead_email", "lead_city", "lead_product", "lead_source"]

  /** `handleStart()` of the lead page: either the missing names and no navigation,
      or a lead that certainly has an id (the one it had, else `lead_<now>`) and a
      move to the applicant page, nothing else changed. */
  function HandleStart(s: FlowState, now: nat): (r: PageResult)
    requires WellFormed(s)
    ensures r.route.Some? <==> Missing(s.lead, LeadRequired) == []
    ensures r.route.None? ==> r.state == s && r.error == FillMessage("Please fill: ", Missing(s.lead, LeadRequired))
    ensures r.route.Some? ==>
      && r.route == Some("/applicant") && r.error == ""
      && WellFormed(r.state) && r.state.applicant == s.applicant && r.state.application == s.application
      && Filled(r.state.lead, "lead_id")
      && (Filled(s.lead, "lead_id") ==> r.state == s)
      && (!Filled(s.lead, "lead_id") ==> Get(r.state.lead, "lead_id") == Some(JStr("lead_" + Text.NatToString(now))))
      && forall k :: k != "lead_id" ==> Get(r.state.lead, k) == Get(s.lead, k)
  {
    match RequireAndStamp(s.lead, LeadRequired, "lead_id", "lead_", now)
    case Err(m) => PageResult(s, m, None)
    case Ok(patch) =>
      StampKeepsOrCreates(s.lead, "lead_id", "lead_", now);
      var next := if patch == [] then s else UpdateLead(s, patch);
      PageResult(next, "", Some("/applicant"))
  }

  /** Pressing Start again never replaces the lead id. */
  lemma LeadIdAssignedOnce(s: FlowState, t1: nat, t2: nat)
    requires WellFormed(s)
    requires HandleStart(s, t1).route.Some?
    ensures var s1 := HandleStart(s, t1).state;
      && HandleStart(s1, t2).route.Some?
      && HandleStart(s1, t2).state == s1
  {
    var s1 := HandleStart(s, t1).state;
    assert "lead_id" !in LeadRequired;
    MissingSame(s.lead, s1.lead, LeadRequired);
  }

  /** Two forms that agree on which required fields are filled report the same gaps. */
  lemma {:induction false} MissingSame(a: Json, b: Json, required: seq<string>)
    requires forall k :: k in required ==> Get(a, k) == Get(b, k)
    ensures Missing(a, required) == Missing(b, required)
    decreases |required|
  {
    if |required| > 0 {
      MissingSame(a, b, required[1..]);
    }
  }

  /** A visit to the lead page that ends with the Start press: the state of the
      layout's provider afterwards, which every later page reads, and the outcome of
      the press. `typed` is what the inputs entered, their `updateLead` calls read as
      one merge (FormFlow.SpreadTwice). */
  datatype LeadVisit = LeadVisit(layout: FlowState, page: PageResult)

  /** The lead page as written: it wraps its form in a provider of its own, so the
      typed fields and the id stamp land in a fresh state that is dropped when the
      page navigates away, and the layout's state stays as it was. */
  function VisitLeadAsWritten(layout: FlowState, typed: seq<Member>, now: nat): (r: LeadVisit)
    ensures r.layout == layout
    ensures r.page.route.Some? <==> Missing(UpdateLead(Initial, typed).lead, LeadRequired) == []
  {
    LeadVisit(layout, HandleStart(UpdateLead(Initial, typed), now))
  }

  /** The corrected lead page, using the layout's provider: the typed fields and the
      lead id are in the state the later pages read. */
  function VisitLead(layout: FlowState, typed: seq<Member>, now: nat): (r: LeadVisit)
    requires WellFormed(layout)
    ensures r.page.route.Some? <==> Missing(UpdateLead(layout, typed).lead, LeadRequired) == []
    ensures r.page.route.Some? ==> Filled(r.layout.lead, "lead_id")
    ensures r.page.route.Some? ==>
      forall k :: k != "lead_id" && Lookup(typed, k).Some? ==> Get(r.layout.lead, k) == Lookup(typed, k)
  {
    var p := HandleStart(UpdateLead(layout, typed), now);
    LeadVisit(p.state, p)
  }

  // ------------------------------------------------------------ applicant page

  const ApplicantRequired := ["applicant_fname", "applicant_lname", "dob", "prim_contact_number", "prim_email"]

  /** The proceed button of the applicant page: the same check on its own fields,
      the id `applicant_<now>` when none, and a move to the application page. */
  function ProceedApplicant(s: FlowState, now: nat): (r: PageResult)
    requires WellFormed(s)
    ensures r.route.Some? <==> Missing(s.applicant, ApplicantRequired) == []
    ensures r.route.None? ==> r.state == s && r.error == FillMessage("Please fill: ", Missing(s.applicant, ApplicantRequired))
    ensures r.route.Some? ==>
      && r.route == Some("/application") && r.error == ""
      && WellFormed(r.state) && r.state.lead == s.lead && r.state.application == s.application
      && Filled(r.state.applicant, "applicant_id")
      && (Filled(s.applicant, "applicant_id") ==> r.state == s)
      && (!Filled(s.applicant, "applicant_id") ==>
            Get(r.state.applicant, "applicant_id") == Some(JStr("applicant_" + Text.NatToString(now))))
      && forall k :: k != "applicant_id" ==> Get(r.state.applicant, k) == Get(s.applicant, k)
  {
    match RequireAndStamp(s.applicant, ApplicantRequired, "applicant_id", "applicant_", now)
    case Err(m) => PageResult(s, m, None)
    case Ok(patch) =>
      StampKeepsOrCreates(s.applicant, "applicant_id", "applicant_", now);
      var next := if patch == [] then s else UpdateApplicant(s, patch);
      PageResult(next, "", Some("/application"))
  }

  // ------------------------------------------------------------ application page

  const ApplicationError := "Please provide Product, Loan Amount (>0), and Loan Tenure (>0)"

  /** `Number(v || 0)` is a number above zero: the value is truthy and converts to a
      positive number (NaN, zero and negatives fail). */
  predicate PositiveNumber(env: Env, v: Option<Json>) {
    Present(v) && NumberOf(env, v).Some? && NumberOf(env, v).value > 0.0
  }

  /** The application fields the page checks. */
  predicate ApplicationComplete(env: Env, app: Json) {
    Filled(app, "product") && PositiveNumber(env, Get(app, "loan_amount")) && PositiveNumber(env, Get(app, "loan_tenure"))
  }

  /** `handleNext()` of the application page: on a complete application the id
      `app_<now>` (when none), status "initiated", not yet audited, and a move to
      the address page; otherwise one fixed message. */
  function ApplicationNext(env: Env, s: FlowState, now: nat): (r: PageResult)
    requires WellFormed(s)
    ensures r.route.Some? <==> ApplicationComplete(env, s.application)
    ensures r.route.None? ==> r.state == s && r.error == ApplicationError
    ensures r.route.Some? ==>
      && r.route == Some("/address") && r.error == ""
      && WellFormed(r.state) && r.state.lead == s.lead && r.state.applicant == s.applicant
      && Get(r.state.application, "app_status") == Some(JStr("initiated"))
      && Get(r.state.application, "is_ai_audited") == Some(JBool(false))
      && Filled(r.state.application, "application_id")
      && (Filled(s.application, "application_id") ==>
            Get(r.state.application, "application_id") == Get(s.application, "application_id"))
      && forall k :: k != "application_id" && k != "app_status" && k != "is_ai_audited" ==>
           Get(r.state.application, k) == Get(s.application, k)
  {
    if !ApplicationComplete(env, s.application) then PageResult(s, ApplicationError, None)
    else
      StampKeepsOrCreates(s.application, "application_id", "app_", now);
      var s1 := UpdateApplication(s, StampId(s.application, "application_id", "app_", now));
      PageResult(MarkInitiated(s1), "", Some("/address"))
  }

  /** `updateApplication({ app_status: 'initiated', is_ai_audited: false })`. */
  function MarkInitiated(s: FlowState): (r: FlowState)
    requires WellFormed(s)
    ensures WellFormed(r) && r.lead == s.lead && r.applicant == s.applicant
    ensures Get(r.application, "app_status") == Some(JStr("initiated"))
    ensures Get(r.application, "is_ai_audited") == Some(JBool(false))
    ensures forall k :: k != "app_status" && k != "is_ai_audited" ==> Get(r.application, k) == Get(s.application, k)
  {
    LookupPair(Member("app_status", JStr("initiated")), Member("is_ai_audited", JBool(false)));
    UpdateApplication(s, [Member("app_status", JStr("initiated")), Member("is_ai_audited", JBool(false))])
  }

  /** A loan amount entered as text is accepted exactly when it reads as a positive
      number; an empty field never is. */
  lemma AmountAsText(env: Env, text: string)
    ensures PositiveNumber(env, Some(JStr(text))) <==> text != "" && env.parseNumber(text).Some? && env.parseNumber(text).value > 0.0
    ensures !PositiveNumber(env, Some(JStr(""))) && !PositiveNumber(env, None)
  {
  }
}

=== FILE: wizard_details.dfy ===
/** The later wizard pages: app/address/page.tsx, app/employee/page.tsx,
    app/business/page.tsx, app/charges/page.tsx, app/banking/page.tsx and
    app/review/page.tsx. Each keeps its own part of the application slice. */
module WizardDetails {
  import opened Wrappers
  import opened Json
  import opened JsRuntime
  import opened FormFlow
  import opened Wizard
  import Text

  /** `{ key: { ...(application[key] || {}), ...patch } }` merged into the application:
      the sub-object named `key` takes the patch's fields and keeps its others. */
  function UpdateNested(s: FlowState, key: string, patch: seq<Member>, extra: seq<Member>): (r: FlowState)
    requires WellFormed(s)
    requires Lookup(extra, key).None?
    ensures WellFormed(r) && r.lead == s.lead && r.applicant == s.applicant
    ensures Get(r.application, key) == Some(Spread(OrEmpty(Get(s.application, key)), patch))
    ensures forall k :: Lookup(extra, k).Some? ==> Get(r.application, k) == Lookup(extra, k)
    ensures forall k :: k != key && Lookup(extra, k).None? ==> Get(r.application, k) == Get(s.application, k)
  {
    var nested := Spread(OrEmpty(Get(s.application, key)), patch);
    var p := [Member(key, nested)] + extra;
    forall k ensures Lookup(p, k) == if k == key then Some(nested) else Lookup(extra, k) {
      LookupConcat([Member(key, nested)], extra, k);
    }
    UpdateApplication(s, p)
  }

  /** A field of a nested object after such an update: the patch's value when it
      has the field, else the old object's own value. */
  lemma NestedRead(s: FlowState, key: string, patch: seq<Member>, extra: seq<Member>, field: string)
    requires WellFormed(s) && Lookup(extra, key).None?
    requires Get(s.application, key).Some? ==> Get(s.application, key).value.JObj?
    ensures var sub := Get(UpdateNested(s, key, patch, extra).application, key).value;
      && sub.JObj?
      && (Lookup(patch, field).Some? ==> Get(sub, field) == Lookup(patch, field))
      && (Lookup(patch, field).None? && Get(s.application, key).Some? ==> Get(sub, field) == Get(Get(s.application, key).value, field))
      && (Lookup(patch, field).None? && Get(s.application, key).None? ==> Get(sub, field).None?)
  {
  }

  // ------------------------------------------------------------ address page

  const AddressRequired := ["address", "city", "state_name", "pincode"]

  /** `/^[0-9]{5,6}$/.test(String(v))`. */
  predicate PincodeOk(env: Env, v: Json) {
    var t := Str(env, v);
    (|t| == 5 || |t| == 6) && Text.AllDigits(t)
  }

  /** A pincode typed as text passes exactly when it is five or six ASCII digits, so
      letters, signs, spaces and a seventh digit all fail. */
  lemma PincodeText(env: Env, t: string)
    ensures PincodeOk(env, JStr(t)) <==> (|t| == 5 || |t| == 6) && forall i :: 0 <= i < |t| ==> '0' <= t[i] <= '9'
    ensures !PincodeOk(env, JStr("1234")) && !PincodeOk(env, JStr("1234567")) && !PincodeOk(env, JStr("12 345"))
    ensures PincodeOk(env, JStr("560001")) && PincodeOk(env, JStr("12345"))
  {
    assert "12 345"[2] == ' ';
  }

  /** The first problem of one address, if any: gaps first, then the pincode. */
  function AddressProblem(env: Env, addr: Json, fillPrefix: string, badPincode: string): (r: Option<string>)
    ensures Missing(addr, AddressRequired) != [] ==> r == Some(FillMessage(fillPrefix, Missing(addr, AddressRequired)))
    ensures Missing(addr, AddressRequired) == [] && !PincodeOk(env, Get(addr, "pincode").value) ==> r == Some(badPincode)
    ensures r.None? <==> Missing(addr, AddressRequired) == [] && PincodeOk(env, Get(addr, "pincode").value)
  {
    var missing := Missing(addr, AddressRequired);
    if |missing| > 0 then Some(FillMessage(fillPrefix, missing))
    else
      assert "pincode" in AddressRequired;
      if !PincodeOk(env, Get(addr, "pincode").value) then Some(badPincode) else None
  }

  /** An address with every field and a good pincode. */
  predicate AddressValid(env: Env, addr: Json) {
    AddressProblem(env, addr, "", "").None?
  }

  /** `handleNext()` of the address page: the current address is checked, then the
      permanent one unless it is marked the same; the first failure is shown and
      nothing moves; the form itself is never changed here. */
  function AddressNext(env: Env, s: FlowState): (r: PageResult)
    requires WellFormed(s)
    ensures r.state == s
    ensures var cur := OrEmpty(Get(s.application, "current_address"));
      var perm := OrEmpty(Get(s.application, "permanent_address"));
      r.route.Some? <==> AddressValid(env, cur) && (Filled(s.application, "same_as_permanent") || AddressValid(env, perm))
    ensures r.route.Some? ==> r.route == Some("/employment-type") && r.error == ""
    ensures r.route.None? ==> r.error != ""
    ensures var cur := OrEmpty(Get(s.application, "current_address"));
      !AddressValid(env, cur) ==> r.error == AddressProblem(env, cur, "Please fill current address: ", "Pincode looks invalid").value
  {
    var cur := OrEmpty(Get(s.application, "current_address"));
    match AddressProblem(env, cur, "Please fill current address: ", "Pincode looks invalid")
    case Some(m) => PageResult(s, m, None)
    case None =>
      if Filled(s.application, "same_as_permanent") then PageResult(s, "", Some("/employment-type"))
      else
        var perm := OrEmpty(Get(s.application, "permanent_address"));
        match AddressProblem(env, perm, "Please fill permanent address: ", "Permanent pincode looks invalid")
        case Some(m) => PageResult(s, m, None)
        case None => PageResult(s, "", Some("/employment-type"))
  }

  /** `updateCurrent(patch)`: only the current address changes. */
  function UpdateCurrent(s: FlowState, patch: seq<Member>): (r: FlowState)
    requires WellFormed(s)
    ensures WellFormed(r) && r.lead == s.lead && r.applicant == s.applicant
    ensures Get(r.application, "current_address") == Some(Spread(OrEmpty(Get(s.application, "current_address")), patch))
    ensures forall k :: k != "current_address" ==> Get(r.application, k) == Get(s.application, k)
  {
    UpdateNested(s, "current_address", patch, [])
  }

  /** `updatePermanent(patch)`: only the permanent address changes. */
  function UpdatePermanent(s: FlowState, patch: seq<Member>): (r: FlowState)
    requires WellFormed(s)
    ensures WellFormed(r) && r.lead == s.lead && r.applicant == s.applicant
    ensures Get(r.application, "permanent_address") == Some(Spread(OrEmpty(Get(s.application, "permanent_address")), patch))
    ensures forall k :: k != "permanent_address" ==> Get(r.application, k) == Get(s.application, k)
  {
    UpdateNested(s, "permanent_address", patch, [])
  }

  /** Marking the permanent address the same as the current one makes the page
      ignore the permanent address entirely. */
  lemma SameAsPermanentSkipsCheck(env: Env, s: FlowState, perm1: Json, perm2: Json)
    requires WellFormed(s) && Filled(s.application, "same_as_permanent")
    ensures AddressNext(env, UpdateApplication(s, [Member("permanent_address", perm1)])).route
         == AddressNext(env, UpdateApplication(s, [Member("permanent_address", perm2)])).route
  {
  }

  // ------------------------------------------------------------ employment pages

  /** `updateEmp(patch)` of the salaried page: the employment type becomes
      "salaried" and the employment details take the patch. */
  function UpdateEmployment(s: FlowState, patch: seq<Member>): (r: FlowState)
    requires WellFormed(s)
    ensures WellFormed(r) && r.lead == s.lead && r.applicant == s.applicant
    ensures Get(r.application, "employment_type") == Some(JStr("salaried"))
    ensures Get(r.application, "employment_details") == Some(Spread(OrEmpty(Get(s.application, "employment_details")), patch))
    ensures forall k :: k != "employment_type" && k != "employment_details" ==> Get(r.application, k) == Get(s.application, k)
  {
    LookupSingle(Member("employment_type", JStr("salaried")));
    UpdateNested(s, "employment_details", patch, [Member("employment_type", JStr("salaried"))])
  }

  /** `updateBiz(patch)` of the business page: the employment type becomes "business"
      and the business details take the patch. */
  function UpdateBusiness(s: FlowState, patch: seq<Member>): (r: FlowState)
    requires WellFormed(s)
    ensures WellFormed(r) && r.lead == s.lead && r.applicant == s.applicant
    ensures Get(r.application, "employment_type") == Some(JStr("business"))
    ensures Get(r.application, "business_details") == Some(Spread(OrEmpty(Get(s.application, "business_details")), patch))
    ensures forall k :: k != "employment_type" && k != "business_details" ==> Get(r.application, k) == Get(s.application, k)
  {
    LookupSingle(Member("employment_type", JStr("business")));
    UpdateNested(s, "business_details", patch, [Member("employment_type", JStr("business"))])
  }

  /** Switching between the two employment pages keeps both sets of details; only
      the type follows the last page edited. */
  lemma SwitchingKeepsBothDetails(s: FlowState, emp: seq<Member>, biz: seq<Member>)
    requires WellFormed(s)
    ensures var r := UpdateBusiness(UpdateEmployment(s, emp), biz);
      && Get(r.application, "employment_type") == Some(JStr("business"))
      && Get(r.application, "employment_details") == Some(Spread(OrEmpty(Get(s.application, "employment_details")), emp))
  {
  }

  /** Next on either employment page: no check, always to the charges page. */
  function EmploymentNext(s: FlowState): (r: PageResult)
    ensures r.state == s && r.error == "" && r.route == Some("/charges")
  {
    PageResult(s, "", Some("/charges"))
  }

  // ------------------------------------------------------------ charges page

  const ChargesAlert := "Please acknowledge processing fees and accept Terms & Conditions to proceed."

  /** A checkbox: its flag becomes the checked state. */
  function SetFlag(s: FlowState, flag: string, checked: bool): (r: FlowState)
    requires WellFormed(s)
    ensures WellFormed(r) && r.lead == s.lead && r.applicant == s.applicant
    ensures Get(r.application, flag) == Some(JBool(checked))
    ensures forall k :: k != flag ==> Get(r.application, k) == Get(s.application, k)
  {
    UpdateApplication(s, [Member(flag, JBool(checked))])
  }

  /** `handleNext()` of the charges page: both consents or an alert. */
  function ChargesNext(s: FlowState): (r: PageResult)
    ensures r.state == s
    ensures r.route.Some? <==> Filled(s.application, "processing_fees_acknowledged") && Filled(s.application, "terms_accepted")
    ensures r.route.Some? ==> r.route == Some("/banking") && r.error == ""
    ensures r.route.None? ==> r.error == ChargesAlert
  {
    if !Filled(s.application, "processing_fees_acknowledged") || !Filled(s.application, "terms_accepted") then
      PageResult(s, ChargesAlert, None)
    else PageResult(s, "", Some("/banking"))
  }

  /** Ticking both boxes lets the page proceed; unticking either stops it again. */
  lemma ConsentsGateCharges(s: FlowState, fees: bool, terms: bool)
    requires WellFormed(s)
    ensures var r := SetFlag(SetFlag(s, "processing_fees_acknowledged", fees), "terms_accepted", terms);
      ChargesNext(r).route.Some? <==> fees && terms
  {
  }

  // ------------------------------------------------------------ banking page

  const AccountMismatch := "Account numbers do not match"

  /** `updateBank(patch)`: only the bank details change. */
  function UpdateBank(s: FlowState, patch: seq<Member>): (r: FlowState)
    requires WellFormed(s)
    ensures WellFormed(r) && r.lead == s.lead && r.applicant == s.applicant
    ensures Get(r.application, "bank_details") == Some(Spread(OrEmpty(Get(s.application, "bank_details")), patch))
    ensures forall k :: k != "bank_details" ==> Get(r.application, k) == Get(s.application, k)
  {
    UpdateNested(s, "bank_details", patch, [])
  }

  /** The two account numbers are both entered and differ. */
  predicate AccountsDiffer(bank: Json) {
    var a := Get(bank, "account_number");
    var c := Get(bank, "confirm_account_number");
    Present(a) && Present(c) && a.value != c.value
  }

  /** `handleNext()` of the banking page: blocked only by two entered numbers that
      differ; a blank confirmation is not checked at all. */
  function BankingNext(s: FlowState): (r: PageResult)
    ensures r.state == s
    ensures r.route.Some? <==> !AccountsDiffer(OrEmpty(Get(s.application, "bank_details")))
    ensures r.route.Some? ==> r.route == Some("/review") && r.error == ""
    ensures r.route.None? ==> r.error == AccountMismatch
  {
    if AccountsDiffer(OrEmpty(Get(s.application, "bank_details"))) then PageResult(s, AccountMismatch, None)
    else PageResult(s, "", Some("/review"))
  }

  /** Leaving the confirmation blank lets any account number through. */
  lemma BlankConfirmationSkipsMatch(s: FlowState, account: string)
    requires WellFormed(s)
    ensures var r := UpdateBank(s, Patch([("account_number", JStr(account)), ("confirm_account_number", JStr(""))]));
      BankingNext(r).route == Some("/review")
  {
    var p := Patch([("account_number", JStr(account)), ("confirm_account_number", JStr(""))]);
    assert Lookup(p, "confirm_account_number") == Some(JStr("")) by {
      assert p[0].key == "account_number" && p[1] == Member("confirm_account_number", JStr(""));
      assert p[1..][0] == p[1];
    }
    var bank := Spread(OrEmpty(Get(s.application, "bank_details")), p);
    assert OrEmpty(Get(UpdateBank(s, p).application, "bank_details")) == bank;
    assert Get(bank, "confirm_account_number") == Some(JStr(""));
  }

  // ------------------------------------------------------------ review page

  /** `SummaryRow`: nothing for undefined, null or the empty string; otherwise the
      value's string form. Unlike the truthiness checks elsewhere, 0 and false are
      shown. */
  function SummaryRow(env: Env, v: Option<Json>): (r: Option<string>)
    ensures r.None? <==> v.None? || v == Some(JNull) || v == Some(JStr(""))
    ensures r.Some? ==> r.value == Str(env, v.value)
  {
    if v.None? || v == Some(JNull) || v == Some(JStr("")) then None else Some(Str(env, v.value))
  }

  lemma SummaryShowsFalsyNumbers(env: Env)
    ensures SummaryRow(env, Some(JNum(0.0))) == Some("0")
    ensures SummaryRow(env, Some(JBool(false))) == Some("false")
    ensures SummaryRow(env, Some(JStr(""))).None?
  {
  }

  /** `s.slice(-4)`: the last four characters, or all of a shorter string. */
  function LastFour(t: string): (r: string)
    ensures |r| == if |t| < 4 then |t| else 4
    ensures t == t[..|t| - |r|] + r
  {
    if |t| <= 4 then t else t[|t| - 4..]
  }

  /** The account number as the review page shows it: bullets and the last four
      characters of a truthy number, else the empty string (and so no row). */
  function AccountDisplay(env: Env, app: Json): (r: string)
    ensures !Present(Prop(Get(app, "bank_details"), "account_number")) ==> r == ""
    ensures Present(Prop(Get(app, "bank_details"), "account_number")) ==>
      var t := Str(env, Prop(Get(app, "bank_details"), "account_number").value);
      && r == "••••" + LastFour(t)
      && (|t| <= 4 ==> r[4..] == t)
  {
    var n := Prop(Get(app, "bank_details"), "account_number");
    if Present(n) then "••••" + LastFour(Str(env, n.value)) else ""
  }

  /** `${fname || ''} ${lname || ''}`.trim(). */
  function ApplicantName(env: Env, applicant: Json): string {
    var f := Get(applicant, "applicant_fname");
    var l := Get(applicant, "applicant_lname");
    Text.Trim((if Present(f) then Str(env, f.value) else "") + " " + (if Present(l) then Str(env, l.value) else ""))
  }

  /** With neither name part entered the name row is hidden. */
  lemma NoNameNoRow(env: Env, applicant: Json)
    requires !Present(Get(applicant, "applicant_fname")) && !Present(Get(applicant, "applicant_lname"))
    ensures SummaryRow(env, Some(JStr(ApplicantName(env, applicant)))).None?
  {
    assert Text.IsJsSpace(' ');
    assert Text.TrimStart(" ") == "";
  }

  /** On a fresh wizard, the lead page as written moves on once its form is filled,
      yet the review page's Lead rows (id, name, phone, email) all stay hidden: the
      lead never reaches the layout's state. */
  lemma LeadLostAsWritten(env: Env, typed: seq<Member>, now: nat)
    requires Missing(UpdateLead(Initial, typed).lead, LeadRequired) == []
    ensures var r := VisitLeadAsWritten(Initial, typed, now);
      && r.page.route == Some("/applicant")
      && SummaryRow(env, Get(r.layout.lead, "lead_id")).None?
      && SummaryRow(env, Get(r.layout.lead, "lead_name")).None?
      && SummaryRow(env, Get(r.layout.lead, "lead_ph_no")).None?
      && SummaryRow(env, Get(r.layout.lead, "lead_email")).None?
  {
  }

  /** The corrected lead page: after the same visit the review page shows the lead
      id and the typed name. */
  lemma LeadReachesReview(env: Env, typed: seq<Member>, now: nat)
    requires Missing(UpdateLead(Initial, typed).lead, LeadRequired) == []
    ensures var r := VisitLead(Initial, typed, now);
      && r.page.route == Some("/applicant")
      && SummaryRow(env, Get(r.layout.lead, "lead_id")).Some?
      && SummaryRow(env, Get(r.layout.lead, "lead_name")) == SummaryRow(env, Lookup(typed, "lead_name"))
      && SummaryRow(env, Get(r.layout.lead, "lead_name")).Some?
  {
    var r := VisitLead(Initial, typed, now);
    var name := TypedLeadName(typed);
    assert Get(r.layout.lead, "lead_name") == Some(name);
    RowShown(env, r.layout.lead, "lead_id");
  }

  /** A filled field shows its summary row. */
  lemma RowShown(env: Env, obj: Json, key: string)
    requires Filled(obj, key)
    ensures SummaryRow(env, Get(obj, key)).Some?
  {
  }

  /** The lead name the form entered, truthy once the lead form is complete. */
  function TypedLeadName(typed: seq<Member>): (v: Json)
    requires Missing(UpdateLead(Initial, typed).lead, LeadRequired) == []
    ensures Lookup(typed, "lead_name") == Some(v) && Truthy(v)
  {
    var s := UpdateLead(Initial, typed);
    assert "lead_name" in LeadRequired;
    assert Filled(s.lead, "lead_name");
    assert Get(Initial.lead, "lead_name").None?;
    Lookup(typed, "lead_name").value
  }

  /** `onSubmit()`: without consent nothing happens; with it the application is
      marked submitted and audited at `nowIso`, and the status page is shown. */
  function ReviewSubmit(s: FlowState, consent: bool, nowIso: string): (r: PageResult)
    requires WellFormed(s)
    ensures !consent ==> r == PageResult(s, "", None)
    ensures consent ==>
      && r.route == Some("/status") && r.error == ""
      && WellFormed(r.state) && r.state.lead == s.lead && r.state.applicant == s.applicant
      && Get(r.state.application, "app_status") == Some(JStr("submitted"))
      && Get(r.state.application, "is_ai_audited") == Some(JBool(true))
      && Get(r.state.application, "submitted_at") == Some(JStr(nowIso))
      && forall k :: k != "app_status" && k != "is_ai_audited" && k != "submitted_at" ==>
           Get(r.state.application, k) == Get(s.application, k)
  {
    if !consent then PageResult(s, "", None)
    else PageResult(MarkSubmitted(s, nowIso), "", Some("/status"))
  }

  /** `updateApplication({ app_status: 'submitted', is_ai_audited: true, submitted_at })`. */
  function MarkSubmitted(s: FlowState, nowIso: string): (r: FlowState)
    requires WellFormed(s)
    ensures WellFormed(r) && r.lead == s.lead && r.applicant == s.applicant
    ensures Get(r.application, "app_status") == Some(JStr("submitted"))
    ensures Get(r.application, "is_ai_audited") == Some(JBool(true))
    ensures Get(r.application, "submitted_at") == Some(JStr(nowIso))
    ensures forall k :: k != "app_status" && k != "is_ai_audited" && k != "submitted_at" ==>
      Get(r.application, k) == Get(s.application, k)
  {
    SubmittedPatchReads(nowIso);
    UpdateApplication(s, SubmittedPatch(nowIso))
  }

  function SubmittedPatch(nowIso: string): seq<Member> {
    [Member("app_status", JStr("submitted")), Member("is_ai_audited", JBool(true)), Member("submitted_at", JStr(nowIso))]
  }

  /** The submission patch sets its three keys and no other. */
  lemma SubmittedPatchReads(nowIso: string)
    ensures Lookup(SubmittedPatch(nowIso), "app_status") == Some(JStr("submitted"))
    ensures Lookup(SubmittedPatch(nowIso), "is_ai_audited") == Some(JBool(true))
    ensures Lookup(SubmittedPatch(nowIso), "submitted_at") == Some(JStr(nowIso))
    ensures forall k :: k != "app_status" && k != "is_ai_audited" && k != "submitted_at" ==>
      Lookup(SubmittedPatch(nowIso), k).None?
  {
    var p := SubmittedPatch(nowIso);
    LookupFirst(p, 1);
    LookupFirst(p, 2);
    forall k | k != "app_status" && k != "is_ai_audited" && k != "submitted_at"
      ensures Lookup(p, k).None?
    {
      LookupAbsent(p, k);
    }
  }
}

=== FILE: wrappers.dfy ===
/** Option and Result types shared by every module of the model.
    A `Result` failure carries the message an exception would have carried. */
module Wrappers {

  datatype Option<+T> = None | Some(value: T) {

    predicate IsFailure() {
      None?
    }

    function PropagateFailure<U>(): Option<U>
      requires None?
    {
      None
    }

    function Extract(): T
      requires Some?
    {
      value
    }

    function GetOr(default: T): T {
      match this
      case Some(v) => v
      case None => default
    }
  }

  datatype Result<+T> = Ok(value: T) | Err(message: string) {

    predicate IsFailure() {
      Err?
    }

    function PropagateFailure<U>(): Result<U>
      requires Err?
    {
      Err(message)
    }

    function Extract(): T
      requires Ok?
    {
      value
    }
  }
}
